=== FILE: README.md ===
# rbcp: a Dafny model of the robocopy progress wrapper

rbcp runs Windows' `robocopy` up to twice. Outside list mode, the first run adds `/L` and
counts the files and bytes to copy. In list mode that first run is the only one: it adds no
`/L`, its output is printed, and the program exits. The second run does the copy, and happens
only when the counted bytes are positive. Its output is read line by line and drives a
terminal progress bar, and its summary block gives the final statistics. At the end rbcp
prints the summary, explains the exit code, and exits with robocopy's status when asked to
or when robocopy failed.

This project models that core as pure Dafny functions and proves properties of it:

- `line_split.dfy`, module `LineSplit`: the scanner split function that breaks the output on
  `\r\n`, `\n` and `\r`.
- `text.dfy`, module `Text`: the Go library behaviour the parser depends on: `strings.TrimSpace`,
  `strings.Fields`, `strings.ToLower`, `strconv.Atoi` and the decimal subset of
  `strconv.ParseFloat`.
- `patterns.dfy`, module `Patterns`: recognisers for the eight regular expressions. They
  return the groups that RE2's leftmost-first matching captures. There are also round-trip
  lemmas that build a line and recover its groups.
- `parser.dfy`, module `Parser`: the line classification of `parseStreaming`. This covers the
  summary mode, the summary rows, the file and percentage lines, and the rate limiter.
- `byte_units.dfy`, module `ByteUnits`: `parseByteValue` and `formatByteValue`.
- `stats.dfy`, module `Stats`: the statistics record.
- `tui.dfy`, module `Tui`: the Bubble Tea model. This covers `Update`, `UpdatePercent`, the
  completed/copying choice in `View`, and `JustifyText`.
- `exit_codes.dfy`, module `ExitCodes`: `PowInt`, the bit-by-bit exit-code loop of
  `displaySummary`, and `explainExitCode`.
- `robocopy_args.dfy`, module `RobocopyArgs`: `buildRobocopyArgs` and the list-only arguments
  built by `getTotalCounts`.
- `session.dfy`, module `Session`: the error decisions of `runRobocopy` and `getTotalCounts`,
  and how `main` chooses the exit status.

Modelling conventions:

- Go's `float32`/`float64` values are Dafny `real`s. Conversion to an integer is truncation
  toward zero (`Numbers.Trunc`).
- Division by zero in `UpdatePercent` follows IEEE 754. It is the `Tui.Ratio` datatype, with
  infinities and NaN.
- The characters of the model are the decoded characters of robocopy's UTF-8 output, as Go's
  `strings` and `regexp` packages see them. Only `\r` and `\n` matter to the split, and those
  are single bytes in UTF-8.
- `strings.ToLower` is exact for every character whose lower case is ASCII. That is all the
  comparisons need, because they are made against ASCII words.
- The rate limiter (`rate.Sometimes` with a 25 ms interval) is an oracle: one boolean per
  line says whether the limiter lets that line's message through. `rate.Sometimes` always
  runs its first call, so the first percentage line of the process is never dropped. The
  oracle does not enforce this, so `Session.TotalCounts` and `Session.Program` also cover
  counting runs whose first percentage is dropped, which the program never produces.
- `Update` returns `m, m.UpdatePercent()`, where `UpdatePercent` has a pointer receiver. The Go
  specification leaves open whether `m` is read before or after that call. The model follows
  the gc compiler, which makes the call first, so the returned model carries the new fraction.

`formatByteValue` moves to the next unit once a count reaches 100 of the current one. It
shows KB from 100 bytes and MB from 100 KiB, so 150 KiB is shown as 0.15 MB.

## Model

| member | source | states |
|---|---|---|
| LineSplit.Split | utils.go:71-90 | The token is a prefix of the data and the advance never exceeds the data. An empty buffer at EOF and a buffer without a terminator before EOF ask for more data. A non-empty remainder at EOF is always returned as a token. |
| LineSplit.SplitWithoutTerminator | utils.go:73-89 | Without any terminator: nothing at an empty EOF, a request for more data before EOF, and the whole remainder at EOF. |
| LineSplit.SplitAtFirstCRLF | utils.go:75-76 | When a `\r\n` occurs at position i (its first occurrence), the token is everything before it and the advance is i+2, whatever precedes it. |
| LineSplit.SplitAtFirstLineFeed | utils.go:77-78 | Without `\r\n`, the first `\n` ends the token and is consumed. |
| LineSplit.SplitAtFirstCarriageReturn | utils.go:79-80 | Without `\r\n` or `\n`, the first `\r` ends the token and is consumed. |
| LineSplit.SplitIgnoresEOFWithTerminator | utils.go:73-81 | When the data holds a terminator, the EOF flag does not change the result. |
| LineSplit.SplitAll | utils.go:91-99 | Splitting a whole output never yields more lines than characters. |
| LineSplit.SplitEnds | utils.go:75-85 | Each line of the split ends in `\r\n`, `\n` or `\r`, except that the last line may end the output without a terminator. |
| LineSplit.SplitAllRejoins | utils.go:71-99 | Putting the lines back together with their terminators gives the output again: the split loses nothing. |
| LineSplit.SplitAllMixedEndings | utils.go:71-99 | Mixed `\r\n`, `\n` and `\r` endings give one line per terminator. |
| LineSplit.SplitCRLFSwallowsLineFeed | utils.go:75-78 | The as-written split returns "A\nB" for "A\nB\r\n": a `\n` before a later `\r\n` is not a line break. |
| LineSplit.SplitEarliest | utils.go:71-90 | Corrected split: when the data holds a terminator, the token is everything before the earliest one and the advance consumes exactly that terminator, `\r\n` counting as one. Without a terminator, the remainder is returned whole at EOF and more data is requested before EOF. |
| LineSplit.SplitAgreesWhenTokenClean | utils.go:75-80 | The as-written and corrected splits agree whenever the as-written token holds no terminator. |
| LineSplit.SplitAllEarliest | utils.go:91-99 | With the corrected split, no line of the output contains a line terminator. |
| LineSplit.SplitEndsEarliest | utils.go:75-85 | With the corrected split, each line ends in `\r\n`, `\n` or `\r`, except that the last line may end the output without a terminator. |
| LineSplit.SplitAllEarliestRejoins | utils.go:71-99 | The corrected lines, put back together with their terminators, give the output again. |
| LineSplit.EarliestLoneCarriageReturn | utils.go:75-80 | The corrected split never takes a lone `\r` where `\r\n` stands: the line after a lone `\r` does not start with `\n`. |
| LineSplit.SplitAllEarliestSeparatesLines | utils.go:75-80 | The corrected split cuts "A\nB\r\n" into "A" and "B", ended by `\n` and `\r\n`. |
| Text.TrimSpace | utils.go:99 | The trimmed line is a piece of the input that neither starts nor ends with white space. |
| Text.TrimSpaceOfPadded | utils.go:99 | White space added on either side of a text that starts and ends with other characters is exactly what is trimmed away. |
| Text.Fields | utils.go:221 | Every field is a non-empty run without white space. |
| Text.FieldsOfTwoWords | utils.go:221 | A number, white space and a unit split into exactly those two fields. |
| Text.Atoi | utils.go:118-123 | The value of a digit string, clamped to the int64 maximum as `strconv.Atoi` does on overflow. |
| Text.ParseFloat | utils.go:226-229 | Only signed decimal text is accepted, and a digit string is read as its decimal value. |
| Patterns.MatchDirs | utils.go:55 | A match yields six numerals, as the six capture groups of the Dirs row. |
| Patterns.MatchDirsOfRow | utils.go:55 | A "Dirs : " row of six numerals, with any white space before, around the colon and between the columns, is matched with exactly those six groups. |
| Patterns.MatchFiles | utils.go:56 | A match yields six numerals, as the six capture groups of the Files row. |
| Patterns.MatchFilesOfRow | utils.go:56 | A "Files : " row of six numerals, with any white space between them, is matched with exactly those six groups. |
| Patterns.MatchBytes | utils.go:57 | A match yields six size groups. |
| Patterns.MatchBytesOfRow | utils.go:57 | A "Bytes : " row of six sizes, each a number with an optional unit letter, with any white space between them, is matched with exactly those six size texts as the groups capture them. |
| Patterns.SizeGroupsOfJoined | utils.go:57 | Sizes separated by any runs of white space are recovered as the same sequence of captures. |
| Patterns.MatchSpeedBytes | utils.go:58 | A match yields a numeral. |
| Patterns.MatchSpeedBytesOfLine | utils.go:58 | "Speed : <digits> Bytes/sec", with any white space, yields exactly those digits. |
| Patterns.MatchSpeedMB | utils.go:59 | A match yields a non-empty run of digits and dots. |
| Patterns.MatchSpeedMBOfLine | utils.go:59 | "Speed : <number> MegaBytes/min", with any white space, yields exactly that number. |
| Patterns.HeaderOfColumns | utils.go:60 | A line whose first non-blank text is Total Copied Skipped Mismatch FAILED Extras, separated by any white space, is a summary header whatever follows. |
| Patterns.MatchFileCopying | utils.go:50 | A match yields a numeral size and a non-empty file name. |
| Patterns.MatchFileCopyingOfLine | utils.go:50 | "New File" or "File", a size and a name, separated by any runs of white space such as tabs, yield exactly that size and name. |
| Patterns.MatchProgress | utils.go:52 | A match yields a non-empty run of digits and dots before a percent sign. |
| Patterns.MatchProgressOfPercent | utils.go:52 | "<digits>%" yields exactly those digits. |
| Patterns.IntGroupsOfJoined | utils.go:55-56 | Numerals separated by any runs of white space are recovered as the same sequence of groups. |
| Patterns.LabelOf | utils.go:55-59 | After a keyword, with any white space before it and around the colon, the label matcher returns exactly the rest of the line. |
| Stats.SetRow | utils.go:117-146 | One summary row sets the given field of all six columns and leaves every other field, the speeds, the duration and the exit code unchanged. |
| Parser.SummaryLine | utils.go:114-160 | A summary line never touches the duration or the exit code. A line no summary pattern matches changes nothing, and each speed changes only on its own line. |
| Parser.ParseLines | utils.go:98-202 | A whole output sends at most one file or progress message per line, never leaves the summary once in it, and never touches the duration or the exit code. |
| Parser.ParseLinesCons | utils.go:98-202 | The lines are handled one after another: the first line's step, then the rest from the state it leaves. |
| Parser.HeaderStartsWithTotal | utils.go:60 | A summary header's first non-blank character is the T of Total: the converse of Patterns.HeaderOfColumns. |
| Parser.ProgressLine | utils.go:172-191 | A line before the summary sends at most one message: a file message with a name and zero progress, or a progress message. |
| Parser.PercentLine | utils.go:182-191 | A percentage sends at most one progress message, and none when the limiter says no. |
| Parser.Step | utils.go:98-202 | Once in the summary nothing is sent. The header switches to summary mode and sends nothing. Before the summary the statistics do not change. The mode changes only on the header. |
| Parser.SummaryIsFinal | utils.go:108-114 | After the header, no later line leaves summary mode or sends a message. |
| Parser.NoHeaderKeepsStats | utils.go:108-114 | Without a header line, the parser state is unchanged by the whole output. |
| Parser.NothingAfterHeader | utils.go:108-113 | The header and every line after it send no message, and the parser ends in summary mode. |
| Parser.LabelsExclusive | utils.go:117-147 | Labels with different first letters cannot both match a line. |
| Parser.SummaryDirs | utils.go:117-125 | A Dirs row sets the six directory counts to the Atoi values and nothing else. |
| Parser.SummaryFiles | utils.go:128-136 | A Files row sets the six file counts and nothing else. |
| Parser.SummaryBytes | utils.go:139-147 | A Bytes row sets the six byte counts via parseByteValue and nothing else. |
| Parser.SummarySpeedBytes | utils.go:150-153 | A Bytes/sec speed line sets only bytesPerSec. |
| Parser.SpeedsExclusive | utils.go:150-159 | No line is both a Bytes/sec and a MegaBytes/min speed line. |
| Parser.SummarySpeedMB | utils.go:156-159 | A MegaBytes/min speed line sets only megaBytesPerMin, to the parsed value or zero. |
| Parser.FileLineNotRateLimited | utils.go:172-176 | A file line gives the same result whatever the limiter says. |
| Parser.OnlyPercentagesAreRateLimited | utils.go:182-191 | When the limiter changes the outcome of a line, the only difference is one progress message. |
| Parser.DirsRow | utils.go:114-125 | In summary mode a Dirs row, with any white space around and inside it, sets the six directory counts to its numbers. Every other count, both speeds, the duration and the exit code stay as they were, and nothing is sent. |
| Parser.BytesRow | utils.go:139-147 | In summary mode a Bytes row sets the six byte counts to parseByteValue of its six sizes. Every other count, both speeds, the duration and the exit code stay as they were, and nothing is sent. |
| Parser.CaptureValue | utils.go:139-146 | The text captured for a size, which may carry the white space before its unit, has the same parseByteValue as the size itself. |
| Parser.NewFileLine | utils.go:172-176 | A "New File" line sends one file message with the parsed size and zero progress, and changes no state. |
| Parser.PercentLineOf | utils.go:182-191 | A "<digits>%" line sends one progress message with the digits' value when allowed. |
| Parser.FileThenFull | utils.go:172-191 | A file line followed by "100%" sends the file message and then a 100% progress message. |
| Parser.FileCopiedEndToEnd | utils.go:172-191 | Fed to the UI, those two lines add exactly the file's size to copiedBytes and one to copiedFiles. |
| Parser.CopyNeverCompleted | utils.go:172-191 | As written, the messages a copy's output sends hold no tick, so a UI that has not finished never shows the copy as completed. |
| Parser.CopyMessagesIntended | tui.go:95-98 | Corrected message stream: the messages of the output, followed by one end-of-copy tick. |
| Parser.CopyCompletesIntended | tui.go:95-126 | With the tick sent after the output, the UI always ends showing the copy as completed. |
| ByteUnits.UnitExponent | utils.go:233-244 | k/kb, m/mb, g/gb and t/tb select powers 1 to 4 of 1024, and any other unit applies no factor. |
| ByteUnits.ParseByteValue | utils.go:214-247 | Blank text is zero. |
| ByteUnits.ParseByteValueEmptyAndZero | utils.go:215-218 | "" and "0" give 0. |
| ByteUnits.ParseByteValueWithUnit | utils.go:220-246 | "<number><spaces><unit>" gives the number scaled by the unit's power of 1024, truncated toward zero. |
| ByteUnits.ParseByteValueBare | utils.go:226-246 | A number without a unit gives that number truncated. |
| ByteUnits.ParseByteValueOfDigits | utils.go:226-246 | A digit string gives its decimal value. |
| ByteUnits.ParseByteValueNotANumber | utils.go:226-229 | A first field that is not a number gives 0, with or without a unit. |
| ByteUnits.ParseByteValueUnitCaseInsensitive | utils.go:233 | Units are compared case-insensitively. |
| ByteUnits.Scale1024Pow | utils.go:233-246 | Scaling by the unit's factor multiplies the number by 1024 to the unit's power. |
| ByteUnits.UnitTable | utils.go:234-243 | The multipliers are 1024, 1024², 1024³ and 1024⁴. |
| ByteUnits.ParseByteValueGlued | utils.go:221-229 | "10m" is a single field that is not a number, so it gives 0. |
| ByteUnits.ParseByteValueTenMegabytes | utils.go:220-246 | "10 m" gives 10·1024² bytes. |
| ByteUnits.FormatByteValue | utils.go:250-270 | The shown value times the unit's size is the byte count. B is used exactly below 100 bytes. Every other unit is chosen once the count reaches 100 of the next smaller unit and only below 100 of its own. |
| ByteUnits.FormatUnitMonotone | utils.go:258-269 | A larger byte count never gets a smaller unit. |
| ByteUnits.FormattedValueRange | utils.go:258-269 | Below TB the value shown is under 100, and in any unit but B it is at least 100/1024. |
| ByteUnits.FormatExamples | utils.go:258-269 | 99 bytes stay in B, 100 bytes are KB, 150 KiB are MB, 100 GiB are TB. |
| Tui.Divide | tui.go:136 | The float64 division of the copied by the total bytes, with IEEE results for a zero total. |
| Tui.UpdatePercent | tui.go:135-139 | With a known total and copied bytes within it, the fraction is between 0 and 1. The fraction times the total is the copied bytes. A zero total gives +Inf with bytes copied and NaN without. Nothing but the percentage changes. |
| Tui.ProgressBytes | tui.go:87 | The bytes added for a progress step are the truncated share of the file size. |
| Tui.Update | tui.go:55-110 | Only "q" and the tick quit, and keys change nothing. A window size sets both widths. A file message counts a file exactly when it names one. A lower progress is discarded. An accepted progress adds the truncated share. The totals never change and the finished flag is never cleared. Nothing else changes: a file message touches only the message count, the current file, the file count and the fraction, and an accepted progress touches only the current file, the bytes and the fraction. The tick only sets the finished flag, a frame only advances the animation counter, and any other message changes nothing. |
| Tui.UpdateIntended | tui.go:57-64 | Corrected update: "ctrl+c" quits like "q". Every model change, and every other message, is as written. |
| Tui.CtrlCIgnored | tui.go:57-64 | As written, "ctrl+c" returns the model unchanged without quitting. |
| Tui.CopiedBytesMonotone | tui.go:82-93 | With non-negative file sizes, copiedBytes and copiedFiles never decrease. |
| Tui.FinishedStaysFinished | tui.go:95-98 | Once the tick has marked the copy finished, it stays finished. |
| Tui.ProgressBytesBounded | tui.go:82-93 | Progress reports for one file never add more than the exact share of its size they cover, and lose less than one byte per report. |
| Tui.HalfThenFull | tui.go:82-93 | 50% then 100% of a file adds exactly its size. |
| Tui.FileReportedComplete | tui.go:71-93 | A file message then 100% adds exactly the file's size and one file. |
| Tui.StatusLine | tui.go:112-126 | The status line shows "completed" exactly when the copy is finished, and otherwise the current file and its progress. |
| Tui.CompletedAfterTick | tui.go:95-126 | After the tick the status line stays "completed" whatever follows. |
| Tui.RunAppend | tui.go:55-110 | Feeding two runs of messages in turn is the same as feeding their concatenation. |
| Tui.NoTickNeverCompleted | tui.go:95-126 | Without a tick among the messages, a UI that has not finished never shows "completed". |
| Tui.JustifyText | tui.go:141-159 | Texts wider than the width are concatenated. Otherwise the result is exactly width long: a single text padded on the right, several texts spread with equal gaps and the remainder after the first. |
| Tui.SpreadLength | tui.go:154-158 | The spread layout has exactly the requested width. |
| Tui.JustifyTwo | tui.go:141-159 | Two texts are pushed to the two edges. |
| ExitCodes.PowInt | utils.go:347-361 | The square-and-multiply loop computes base to the power exp. |
| ExitCodes.PowSquare | utils.go:347-361 | Squaring the base doubles the exponent, which is what lets the loop square `base` while halving `exp`. |
| ExitCodes.ExplainedCodes | utils.go:308-321 | A code of 0 or below is explained as itself. A code from 1 to 63 is explained by its binary decomposition, from the highest bit down. From 64 up all six powers 32..1 are explained. |
| ExitCodes.DecompositionUnique | utils.go:308-321 | Two strictly descending lists of distinct powers of two with the same sum are equal. |
| ExitCodes.FiveIsFourAndOne | utils.go:308-321 | Code 5 is explained as 4 and then 1. |
| ExitCodes.DecompositionRecognised | utils.go:308-345 | Every bit of a code below 32 has a message. |
| ExitCodes.Explain | utils.go:328-345 | Exactly the codes 0, 1, 2, 4, 8 and 16 have a message, and exactly 8 and 16 are errors. |
| ExitCodes.HeaderHighlighted | utils.go:303-305 | As written, among the named codes only 16 gets an error-styled "Exit code" line. |
| ExitCodes.CopyFailureHeaderPlain | utils.go:303-305 | Code 8 gets an error-styled message under a plain header. |
| ExitCodes.HeaderHighlightedIntended | utils.go:303-305 | Corrected styling: among the named codes exactly the failures 8 and 16 are highlighted. |
| RobocopyArgs.Kept | rbcp.go:193-195 | What DeleteFunc keeps holds no blocked flag, and is the whole list when nothing is blocked. |
| RobocopyArgs.KeptCount | rbcp.go:192-195 | Blocked flags (compared in lower case) occur zero times. Every other element keeps its number of occurrences. |
| RobocopyArgs.DeleteFuncInPlace | rbcp.go:193-195 | The ignored DeleteFunc leaves a list of the same length without blocked flags, unchanged when nothing is blocked. |
| RobocopyArgs.DeleteFuncCount | rbcp.go:193-195 | In place, every non-empty allowed element keeps its count and blocked flags vanish. |
| RobocopyArgs.TeeFlags | rbcp.go:197-202 | Only "/tee" flags are added: none without log flags, and one per element when all are log flags. |
| RobocopyArgs.TeeFlagsAppend | rbcp.go:197-202 | The tees of a list are the tees of its parts, in order. |
| RobocopyArgs.LogFlagNotBlocked | rbcp.go:192-200 | No /log or /unilog flag is a blocked flag. |
| RobocopyArgs.TeeFlagsOfDeleteFunc | rbcp.go:192-202 | Deleting in place neither adds nor removes a tee. |
| RobocopyArgs.Finish | rbcp.go:196-206 | The cleaned list is kept as a prefix, followed by one tee per log flag and then the parser's flags. Nothing blocked is added. |
| RobocopyArgs.BuildRobocopyArgs | rbcp.go:181-211 | In list mode only /MIR may be added after the user's arguments. Otherwise the list never gets shorter, ends with /NJH /NDL /BYTES and, unless insane, /R:2 /W:1, and has no blocked flag before those. |
| RobocopyArgs.UserArgsKept | rbcp.go:182-195 | Without blocked flags the user's arguments reach robocopy unchanged, first. |
| RobocopyArgs.MirrorAppendedIff | rbcp.go:185-187 | "/MIR" occurs once more than the user wrote it exactly when mirroring is on. |
| RobocopyArgs.TeePerLogFlag | rbcp.go:197-202 | One "/tee" is added per log flag the user passed, and for nothing else. |
| RobocopyArgs.AsWrittenPassesBlank | rbcp.go:192-195 | As written, a blocked flag after two plain paths leaves an empty argument at the end of the user's part. Corrected, it disappears. |
| RobocopyArgs.BuildRobocopyArgsIntended | rbcp.go:181-211 | Corrected builder: list mode adds only /MIR; otherwise the list ends with the parser's flags and has no blocked flag before them. |
| RobocopyArgs.AgreeWhenNothingBlocked | rbcp.go:192-195 | Without blocked flags the as-written and corrected builders agree. |
| RobocopyArgs.IntendedKeepsAllowed | rbcp.go:192-195 | The corrected builder drops blocked flags and keeps every other user argument as often as given. |
| RobocopyArgs.ListArgs | rbcp.go:362-367 | The counting run keeps the arguments as a prefix and adds /L unless list mode is already on. |
| RobocopyArgs.ListModeCopies | rbcp.go:188-209 | As written, in list mode the command robocopy is given holds no /L unless the user wrote one, in any letter case. |
| RobocopyArgs.ListArgsIntended | rbcp.go:362-367 | Corrected list arguments: /L is always added after the arguments, and outside list mode they are as written. |
| RobocopyArgs.ListModeListsIntended | rbcp.go:362-367 | With the correction, the counting command always holds /L, in list mode too. |
| Session.RunRobocopy | rbcp.go:303-357 | Pipe and start failures are errors. A read error is an error only with an exit code above 16. Otherwise the parsed statistics come back with robocopy's exit code and the duration. |
| Session.NoSummaryNoCounts | rbcp.go:330-356 | An output without a summary header gives zero statistics. |
| Session.TotalCounts | rbcp.go:360-397 | List mode ends the program. A failed run with a code above 16 is an error. Otherwise an output that sends any message panics, because the program variable is still nil. Without such a message a read error is an error, and otherwise the totals are the Copied files and bytes of the summary. |
| Session.CountingPercentPanics | rbcp.go:232-250 | A percentage line in the counting output makes the program panic with status 2 before any copying. |
| Session.ProcessExitCode | rbcp.go:297-300 | The exit status is robocopy's code when it is preserved. Without preserving it, the status is non-zero exactly for codes of 8 and above. |
| Session.ErrorStyledCodesSurface | rbcp.go:297-300 | Among the named codes, exactly those explained as errors are passed on by default. |
| Session.HighlightedIffReported | rbcp.go:297-300 | The corrected header is highlighted exactly when the exit status reports a failure by default. |
| Session.MainExit | rbcp.go:232-300 | A counting error or copy error is fatal (status 1), and a panic while counting ends with status 2. List mode and nothing to copy end with 0. Otherwise the copy's exit code decides. |
| Session.CopyFailureSurfaces | rbcp.go:277-300 | A copy that ends with code 8 to 16 makes the program exit with that code. |
| Session.Program | rbcp.go:229-300 | List mode always exits 0. A read error while counting is fatal when the output sends no message. A counting output that sends a message makes the program panic. |

## Left out

- Processes, pipes, goroutines, channels, the `forceQuit` select and `cmd.Cancel` are not modelled. What a robocopy run reports is given to `Session` as data: its lines, its failures and its exit code.
- `m.ForceQuit`, which `main` reads, is not a field of the model type in tui.go, so the forced-quit path is not modelled.
- Logging, printing, lipgloss styling and widths, the animated progress bar, terminal setup, config.go, argument parsing (`parseArgs`, `setup`) and `displaySummary`'s text lines are left out. For the exit-code part of `displaySummary`, only the codes it explains and the header styling are modelled.
- The rate limiter's timing is an oracle, because it depends on the clock.
- The regular expression engine is replaced by hand-written recognisers for the eight patterns used.
- Text.ParseFloat: accepts only optionally signed decimal text. Exponents, hexadecimal, `inf`/`nan` and underscores are not modelled, because robocopy prints none of them.
- Tui.Update: progress arithmetic is exact real arithmetic. `float32` rounding is not modelled because Dafny has no floating-point type to state it with.
- Tui.Run: commands (quit, animation) are not acted on. The loop feeds the messages to `Update` in order.
- Tui.FileReportedComplete: not exact in general. tui.go:87 computes the share in `float32`, and rounding before the truncation can lose a byte. For 671089 bytes reported from 0% to 100%, the product 67108900 rounds to 67108896, the quotient to 671088.9375, and 671088 bytes are added. The model's arithmetic is exact and adds 671089.
- Parser.FileCopiedEndToEnd: not exact in general, for the same `float32` reason as Tui.FileReportedComplete. A 671089-byte file adds 671088 bytes in the program.
- ByteUnits.ParseByteValue: `int64` overflow of very large values is not modelled. Integers are unbounded.
- ByteUnits.FormatByteValue: returns the value and unit rather than the `%.2f` text, because float formatting is not modelled.
- ExitCodes.PowInt: requires a non-negative exponent. For a negative one the Go loop never ends (`-1 >> 1` is `-1`), and every caller passes 0 to 5. Multiplication does not wrap around at 64 bits.
- Session.TotalCounts: a panic is an exit status (2), without its stack trace. Which messages the counting output sends comes from the parser model, so an error line that robocopy prints despite /NFL /NDL /NP panics exactly when the parser model sends a message for it.
- Session.RunRobocopy: the duration is an input, because it comes from the clock.
- Output that is not valid UTF-8, such as robocopy writing in an OEM code page, is not modelled. Go reads each invalid byte as U+FFFD, which is never white space, while the model would read a byte 0x85 or 0xA0 as the white-space character U+0085 or U+00A0 and trim it.
- Parser.PercentLine: a percentage beyond the `float32` range is sent, while `strconv.ParseFloat(…, 32)` at utils.go:184 returns a range error and the line is skipped. Floats are reals here, so they have no upper bound.
- LineSplit.SplitAll: the scanner's buffering is not modelled. The whole output is split at once, as one buffer at EOF.

## Findings

| source | as written | input that shows it | evidently intended | confidence | as-written member | corrected member |
|---|---|---|---|---|---|---|
| utils.go:75-80 | The first `\r\n` anywhere in the buffer is taken before an earlier `\n` or `\r` | "A\nB\r\n" gives the single token "A\nB" | Split at the earliest terminator, giving "A" | high; not executed | LineSplit.SplitCRLFSwallowsLineFeed | LineSplit.SplitEarliest |
| rbcp.go:193-195 | The result of `slices.DeleteFunc` is discarded. The slice keeps its length: the kept arguments move left over each removed flag, and the freed slots at the end of the user's part become "" | Any one blocked flag after two plain paths, e.g. OtherArgs ["/NP"], gives root dest "" /NJH /NDL /BYTES /R:2 /W:1 | The blocked flag is removed from the argument list | high; not executed | RobocopyArgs.AsWrittenPassesBlank | RobocopyArgs.BuildRobocopyArgsIntended |
| tui.go:59-61 | The empty `case "ctrl+c":` does not fall through to the quit of `case "q":` | KeyMsg "ctrl+c" returns the model with no command | ctrl+c quits like q | medium; not executed | Tui.CtrlCIgnored | Tui.UpdateIntended |
| utils.go:303-305 | The "Exit code" line is error-styled only for codes above 8 | Code 8 prints a plain header over an error-styled message | Every failure code (8 and above) is highlighted, as `main` treats them | low; not executed | ExitCodes.CopyFailureHeaderPlain | ExitCodes.HeaderHighlightedIntended |
| rbcp.go:365-367 | List mode, documented as "Only list files that would be copied", adds no `/L` to the command | `rbcp -l src dst` runs robocopy src dst, a real copy, then exits 0 | The list-mode command holds `/L` | high; not executed | RobocopyArgs.ListModeCopies | RobocopyArgs.ListArgsIntended |
| tui.go:95-98 | No code sends `tickMsg`, so `copyFinished` is never set: "Copying completed" is never shown and `p.Wait()` returns only after "q" | Any copy with bytes to copy | A tick is sent to the UI once robocopy's output is read | medium; not executed | Parser.CopyNeverCompleted | Parser.CopyMessagesIntended |

=== FILE: byte_units.dfy ===
/**
 * parseByteValue and formatByteValue (utils.go): robocopy size text to byte counts and back.
 * Float arithmetic is exact (reals); formatting to two decimals is not modelled, only the unit
 * chosen and the exact value shown in it.
 */
module ByteUnits {
  import opened Outcomes
  import opened Numbers
  import opened Text

  /** Power of 1024 selected by a lower-cased unit field; any other field leaves the value unscaled. */
  function UnitExponent(lowered: string): (e: nat)
    ensures e <= 4
    ensures e == 0 <==> lowered !in {"k", "kb", "m", "mb", "g", "gb", "t", "tb"}
    ensures e == 1 <==> lowered == "k" || lowered == "kb"
    ensures e == 2 <==> lowered == "m" || lowered == "mb"
    ensures e == 3 <==> lowered == "g" || lowered == "gb"
    ensures e == 4 <==> lowered == "t" || lowered == "tb"
  {
    match lowered
    case "k" => 1
    case "kb" => 1
    case "m" => 2
    case "mb" => 2
    case "g" => 3
    case "gb" => 3
    case "t" => 4
    case "tb" => 4
    case _ => 0
  }

  /** parseByteValue: trim; "" and "0" are 0; the first field as a float (0 when it is not a
      number), scaled by the unit named in the second field; truncated toward zero. */
  function ParseByteValue(text: string): (r: int)
    ensures AllSpace(text) ==> r == 0
  {
    var t := TrimSpace(text);
    if t == "0" || t == "" then 0 else FieldsValue(Fields(t))
  }

  /** v multiplied by 1024, e times. */
  function Scale1024(v: real, e: nat): real
    decreases e
  {
    if e == 0 then v else 1024.0 * Scale1024(v, e - 1)
  }

  /** Scaling e times is multiplying by 1024^e. */
  lemma {:induction false} Scale1024Pow(v: real, e: nat)
    ensures Scale1024(v, e) == v * (Pow(1024, e) as real)
    decreases e
  {
    if e > 0 {
      Scale1024Pow(v, e - 1);
      assert Pow(1024, e) as real == 1024.0 * (Pow(1024, e - 1) as real);
    }
  }

  /** The value of the whitespace-separated fields of a trimmed size text. */
  function FieldsValue(parts: seq<string>): int {
    if |parts| == 0 then 0
    else match ParseFloat(parts[0])
      case None => 0
      case Some(v) =>
        var e := if |parts| > 1 then UnitExponent(Lower(parts[1])) else 0;
        Trunc(Scale1024(v, e))
  }

  lemma ParseByteValueEmptyAndZero()
    ensures ParseByteValue("") == 0
    ensures ParseByteValue("0") == 0
  {
    assert TrimSpace("0") == "0";
  }

  /** A trimmed text is valued by its fields. */
  lemma ParseByteValueOfTrimmed(s: string)
    requires TrimSpace(s) == s && s != "0" && s != ""
    ensures ParseByteValue(s) == FieldsValue(Fields(s))
  {
  }

  lemma FieldsValueOfTwo(num: string, unit: string)
    requires ParseFloat(num).Some?
    ensures FieldsValue([num, unit]) == Trunc(Scale1024(ParseFloat(num).value, UnitExponent(Lower(unit))))
  {
  }

  lemma FieldsValueOfOne(num: string)
    requires ParseFloat(num).Some?
    ensures FieldsValue([num]) == Trunc(ParseFloat(num).value)
  {
  }

  /** A number followed by a unit field: the number scaled by 1024 to the unit's power. */
  lemma {:induction false} ParseByteValueWithUnit(num: string, sep: string, unit: string)
    requires IsWord(num) && IsWord(unit)
    requires |sep| > 0 && AllSpace(sep)
    requires ParseFloat(num).Some?
    ensures ParseByteValue(num + sep + unit)
            == Trunc(Scale1024(ParseFloat(num).value, UnitExponent(Lower(unit))))
  {
    var s := num + sep + unit;
    assert s[0] == num[0] && s[|s| - 1] == unit[|unit| - 1];
    TrimSpaceNoOp(s);
    ParseByteValueOfTrimmed(s);
    FieldsOfTwoWords(num, sep, unit);
    FieldsValueOfTwo(num, unit);
  }

  /** A lone number is not scaled. */
  lemma {:induction false} ParseByteValueBare(num: string)
    requires IsWord(num) && num != "0"
    requires ParseFloat(num).Some?
    ensures ParseByteValue(num) == Trunc(ParseFloat(num).value)
  {
    assert ParseByteValue(num) == FieldsValue(Fields(num)) by {
      TrimSpaceNoOp(num);
      ParseByteValueOfTrimmed(num);
    }
    assert Fields(num) == [num] by {
      FieldsOfWord(num);
    }
    FieldsValueOfOne(num);
  }

  lemma DigitsAreWord(num: string)
    requires |num| > 0 && AllDigits(num)
    ensures IsWord(num)
  {
    forall k | 0 <= k < |num| ensures !IsSpace(num[k]) {
      assert IsDigit(num[k]);
    }
  }

  lemma TruncOfInt(n: nat)
    ensures Trunc(n as real) == n
  {
  }

  /** A plain digit string, as the file-copy lines carry, is worth its decimal value. */
  lemma ParseByteValueOfDigits(num: string)
    requires |num| > 0 && AllDigits(num)
    ensures ParseByteValue(num) == DecimalValue(num)
  {
    if num == "0" {
      ParseByteValueEmptyAndZero();
      assert DecimalValue(num) == 10 * DecimalValue([]) + 0;
    } else {
      ParseByteValueOfNonZeroDigits(num);
    }
  }

  lemma ParseByteValueOfNonZeroDigits(num: string)
    requires |num| > 0 && AllDigits(num) && num != "0"
    ensures ParseByteValue(num) == DecimalValue(num)
  {
    DigitsAreWord(num);
    assert ParseFloat(num) == Some(DecimalValue(num) as real);
    ParseByteValueBare(num);
    TruncOfInt(DecimalValue(num));
  }

  /** A first field that is not a number gives 0, alone or followed by a unit. */
  lemma {:induction false} ParseByteValueNotANumber(num: string, sep: string, unit: string)
    requires IsWord(num) && IsWord(unit) && ParseFloat(num).None?
    requires |sep| > 0 && AllSpace(sep)
    ensures ParseByteValue(num) == 0
    ensures ParseByteValue(num + sep + unit) == 0
  {
    assert num != "0" by { ParseFloatZero(); }
    assert ParseByteValue(num) == 0 by {
      TrimSpaceNoOp(num);
      ParseByteValueOfTrimmed(num);
      FieldsOfWord(num);
    }
    var s := num + sep + unit;
    assert ParseByteValue(s) == 0 by {
      assert s[0] == num[0] && s[|s| - 1] == unit[|unit| - 1];
      TrimSpaceNoOp(s);
      ParseByteValueOfTrimmed(s);
      FieldsOfTwoWords(num, sep, unit);
    }
  }

  lemma ParseFloatZero()
    ensures ParseFloat("0") == Some(0.0)
  {
  }

  lemma UpperOfWord(w: string)
    requires IsWord(w)
    ensures IsWord(UpperAscii(w))
  {
    forall k | 0 <= k < |w| ensures !IsSpace(UpperAscii(w)[k]) {
      assert !IsSpace(w[k]);
    }
  }

  /** The unit field is compared without regard to ASCII case. */
  lemma {:induction false} ParseByteValueUnitCaseInsensitive(num: string, sep: string, unit: string)
    requires IsWord(num) && IsWord(unit)
    requires |sep| > 0 && AllSpace(sep)
    requires ParseFloat(num).Some?
    ensures ParseByteValue(num + sep + unit) == ParseByteValue(num + sep + UpperAscii(unit))
  {
    ParseByteValueWithUnit(num, sep, unit);
    UpperOfWord(unit);
    ParseByteValueWithUnit(num, sep, UpperAscii(unit));
    LowerOfUpper(unit);
  }

  /** The table of units: k/kb, m/mb, g/gb and t/tb in any case scale by 1024^1 to 1024^4. */
  lemma UnitTable(v: real)
    ensures Scale1024(v, UnitExponent(Lower("K"))) == 1024.0 * v
    ensures Scale1024(v, UnitExponent(Lower("kb"))) == 1024.0 * v
    ensures Scale1024(v, UnitExponent(Lower("MB"))) == 1048576.0 * v
    ensures Scale1024(v, UnitExponent(Lower("g"))) == 1073741824.0 * v
    ensures Scale1024(v, UnitExponent(Lower("Tb"))) == 1099511627776.0 * v
    ensures Scale1024(v, UnitExponent(Lower("bytes"))) == v
  {
    assert Lower("K") == "k";
    assert Lower("kb") == "kb";
    assert Lower("MB") == "mb";
    assert Lower("g") == "g";
    assert Lower("Tb") == "tb";
    assert Lower("bytes") == "bytes";
  }

  lemma ParseFloatTen()
    ensures ParseFloat("10") == Some(10.0)
  {
    assert DecimalValue("10") == 10 by { assert "10"[..1] == "1"; }
  }

  lemma ParseFloatGlued()
    ensures ParseFloat("10m") == None
  {
    assert !DecimalChar("10m"[2]);
  }

  /** A unit glued to its number makes the first field a non-number, so the value is 0. */
  lemma ParseByteValueGlued()
    ensures ParseByteValue("10m") == 0
  {
    ParseFloatGlued();
    assert IsWord("10m") by {
      assert !IsSpace("10m"[0]) && !IsSpace("10m"[1]) && !IsSpace("10m"[2]);
    }
    assert IsWord("k") && AllSpace(" ");
    ParseByteValueNotANumber("10m", " ", "k");
  }

  lemma TenMegabytesFields()
    ensures IsWord("10") && IsWord("m") && AllSpace(" ")
    ensures "10" + " " + "m" == "10 m"
  {
  }

  lemma TenMegabytesScaled()
    ensures Trunc(Scale1024(10.0, UnitExponent(Lower("m")))) == 10 * 1024 * 1024
  {
    assert UnitExponent(Lower("m")) == 2 by { assert Lower("m") == "m"; }
    assert Scale1024(10.0, 2) == 10485760.0;
    TruncOfInt(10485760);
  }

  lemma ParseByteValueTenMegabytes()
    ensures ParseByteValue("10 m") == 10 * 1024 * 1024
  {
    ParseFloatTen();
    TenMegabytesFields();
    ParseByteValueWithUnit("10", " ", "m");
    TenMegabytesScaled();
  }

  // ---------------------------------------------------------------------------------------
  // formatByteValue

  datatype ByteUnit = B | KB | MB | GB | TB

  function UnitSize(u: ByteUnit): (n: int)
    ensures n > 0
  {
    match u
    case B => 1
    case KB => 1024
    case MB => 1024 * 1024
    case GB => 1024 * 1024 * 1024
    case TB => 1024 * 1024 * 1024 * 1024
  }

  function Rank(u: ByteUnit): nat {
    match u
    case B => 0
    case KB => 1
    case MB => 2
    case GB => 3
    case TB => 4
  }

  /** The text formatByteValue prints, before rounding: `value` followed by the unit name
      ("%d B" for plain bytes, "%.2f <unit>" otherwise). */
  datatype Formatted = Formatted(value: real, unit: ByteUnit)

  /** formatByteValue: each unit is chosen from 100 of the unit below it, not from one of itself. */
  function FormatByteValue(bytes: int): (f: Formatted)
    ensures f.value * UnitSize(f.unit) as real == bytes as real
    ensures f.unit == B <==> bytes < 100
    ensures f.unit != B ==> bytes >= 100 * UnitSize(f.unit) / 1024
    ensures f.unit != TB ==> bytes < 100 * UnitSize(f.unit)
  {
    var u :=
      if bytes >= 100 * UnitSize(GB) then TB
      else if bytes >= 100 * UnitSize(MB) then GB
      else if bytes >= 100 * UnitSize(KB) then MB
      else if bytes >= 100 then KB
      else B;
    Formatted(bytes as real / UnitSize(u) as real, u)
  }

  /** Larger counts never get smaller units. */
  lemma FormatUnitMonotone(a: int, b: int)
    requires a <= b
    ensures Rank(FormatByteValue(a).unit) <= Rank(FormatByteValue(b).unit)
  {
  }

  /** Every unit below TB shows a value under 100; every unit above B shows at least 100/1024. */
  lemma {:induction false} FormattedValueRange(bytes: int)
    ensures var f := FormatByteValue(bytes);
            (f.unit != TB ==> f.value < 100.0) && (f.unit != B ==> f.value >= 100.0 / 1024.0)
  {
    var f := FormatByteValue(bytes);
    var size := UnitSize(f.unit) as real;
    assert f.value == bytes as real / size;
    if f.unit != TB {
      assert (bytes as real) < 100.0 * size;
    }
    if f.unit != B {
      assert (bytes as real) >= 100.0 * size / 1024.0;
    }
  }

  /** Examples of the thresholds: 150 KiB is shown in MB, 99 bytes in bytes. */
  lemma FormatExamples()
    ensures FormatByteValue(0) == Formatted(0.0, B)
    ensures FormatByteValue(99) == Formatted(99.0, B)
    ensures FormatByteValue(100).unit == KB
    ensures FormatByteValue(150 * 1024).unit == MB
    ensures FormatByteValue(100 * 1024 * 1024 * 1024).unit == TB
  {
  }
}

=== FILE: exit_codes.dfy ===
/**
 * Robocopy's exit code is a bit mask. displaySummary (utils.go) explains it one bit at a
 * time, from 32 down to 1, using PowInt for the powers of two.
 */
module ExitCodes {
  import opened Numbers

  lemma MulAssociates(a: int, b: int, c: int)
    ensures a * (b * c) == (a * b) * c
  {
  }

  /** Squaring the base doubles the exponent. */
  lemma {:induction false} PowSquare(b: int, n: nat)
    ensures Pow(b * b, n) == Pow(b, 2 * n)
    decreases n
  {
    if n > 0 {
      PowSquare(b, n - 1);
      assert Pow(b, 2 * n) == b * (b * Pow(b, 2 * n - 2));
      MulAssociates(b, b, Pow(b, 2 * n - 2));
    }
  }

  /** Pow(b, e) split by the low bit of e, the step PowInt takes. */
  lemma PowHalf(b: int, e: nat)
    ensures e % 2 == 0 ==> Pow(b, e) == Pow(b * b, e / 2)
    ensures e % 2 == 1 ==> Pow(b, e) == b * Pow(b * b, e / 2)
  {
    PowSquare(b, e / 2);
    if e % 2 == 1 {
      assert e - 1 == 2 * (e / 2);
    } else {
      assert e == 2 * (e / 2);
    }
  }

  /** PowInt: exponentiation by squaring. A negative exponent never reaches 0 under the
      arithmetic shift, so the source's callers only pass exponents 0 to 5. */
  method PowInt(base: int, exp: int) returns (result: int)
    requires exp >= 0
    ensures result == Pow(base, exp)
  {
    result := 1;
    var b := base;
    var e := exp;
    while true
      invariant e >= 0
      invariant result * Pow(b, e) == Pow(base, exp)
      decreases e
    {
      PowHalf(b, e);
      if e % 2 == 1 {
        result := result * b;
      }
      e := e / 2;
      if e == 0 {
        break;
      }
      b := b * b;
    }
  }

  // ---------------------------------------------------------------------------
  // The explanation loop of displaySummary

  /** The six values the loop can explain: 2^5 down to 2^0. */
  const Powers: seq<int> := [32, 16, 8, 4, 2, 1]

  predicate IsPower(x: int) {
    x == 1 || x == 2 || x == 4 || x == 8 || x == 16 || x == 32
  }

  lemma PowersArePowers(k: nat)
    requires k <= 5
    ensures IsPower(Pow(2, k)) && Pow(2, k) == Powers[5 - k]
  {
    assert Pow(2, 0) == 1 && Pow(2, 1) == 2 && Pow(2, 2) == 4;
    assert Pow(2, 3) == 8 && Pow(2, 4) == 16 && Pow(2, 5) == 32;
  }

  function Sum(xs: seq<int>): int
  {
    if xs == [] then 0 else xs[0] + Sum(xs[1..])
  }

  predicate StrictlyDescending(xs: seq<int>)
  {
    forall i, j | 0 <= i < j < |xs| :: xs[i] > xs[j]
  }

  /** xs names each set bit of code exactly once, highest first: distinct powers of two,
      in descending order, adding up to code. */
  predicate IsBinaryDecomposition(xs: seq<int>, code: int)
  {
    StrictlyDescending(xs) && (forall i | 0 <= i < |xs| :: IsPower(xs[i])) && Sum(xs) == code
  }

  lemma {:induction false} SumAppend(xs: seq<int>, x: int)
    ensures Sum(xs + [x]) == Sum(xs) + x
    decreases |xs|
  {
    if xs == [] {
      assert [] + [x] == [x];
    } else {
      assert (xs + [x])[1..] == xs[1..] + [x];
      SumAppend(xs[1..], x);
    }
  }

  /** For 0 < rem < 2^(k+1), whether rem >> k is positive. */
  lemma ShiftPositive(rem: int, d: int)
    requires rem >= 0 && d > 0
    ensures rem / d > 0 <==> rem >= d
  {
    if rem < d {
      assert rem / d == 0;
    } else {
      assert rem / d >= 1;
    }
  }

  /** Appending a power of two below every element keeps the list descending and all powers. */
  lemma AppendSmaller(xs: seq<int>, p: int)
    requires StrictlyDescending(xs) && forall i | 0 <= i < |xs| :: IsPower(xs[i])
    requires IsPower(p) && forall i | 0 <= i < |xs| :: xs[i] >= 2 * p
    ensures StrictlyDescending(xs + [p]) && forall i | 0 <= i < |xs| + 1 :: IsPower((xs + [p])[i])
  {
  }

  /** The codes displaySummary passes to explainExitCode, in order. */
  method ExplainedCodes(code: int) returns (explained: seq<int>)
    ensures code <= 0 ==> explained == [code]
    ensures 0 < code < 64 ==> IsBinaryDecomposition(explained, code)
    ensures code >= 64 ==> explained == Powers
  {
    if code <= 0 {
      return [code];
    }
    var power := 5;
    var rem := code;
    explained := [];
    while power >= 0 && rem > 0
      invariant -1 <= power <= 5
      invariant forall i | 0 <= i < |explained| :: IsPower(explained[i])
      invariant forall i | 0 <= i < |explained| :: explained[i] >= Pow(2, power + 1)
      invariant StrictlyDescending(explained)
      invariant Sum(explained) + rem == code
      invariant code < 64 ==> 0 <= rem < Pow(2, power + 1)
      invariant code >= 64 ==> rem >= Pow(2, power + 1) && explained == Powers[..5 - power]
      decreases power
    {
      var p := PowInt(2, power);
      PowersArePowers(power);
      assert Pow(2, power + 1) == 2 * p;
      ShiftPositive(rem, p);
      var r := rem / p;
      if r > 0 {
        SumAppend(explained, p);
        AppendSmaller(explained, p);
        assert Powers[..5 - power] + [p] == Powers[..5 - (power - 1)];
        explained := explained + [p];
        rem := rem - p;
      }
      power := power - 1;
    }
  }

  // ---------------------------------------------------------------------------
  // The decomposition is unique, so the contract above fixes the explained codes

  lemma {:induction false} SumBelowDouble(xs: seq<int>)
    requires xs != [] && StrictlyDescending(xs) && forall i | 0 <= i < |xs| :: IsPower(xs[i])
    ensures xs[0] <= Sum(xs) < 2 * xs[0]
    decreases |xs|
  {
    var tail := xs[1..];
    if tail != [] {
      assert StrictlyDescending(tail) by {
        forall i, j | 0 <= i < j < |tail| ensures tail[i] > tail[j] {
          assert tail[i] == xs[i + 1] && tail[j] == xs[j + 1];
        }
      }
      assert forall i | 0 <= i < |tail| :: IsPower(tail[i]) by {
        forall i | 0 <= i < |tail| ensures IsPower(tail[i]) { assert tail[i] == xs[i + 1]; }
      }
      SumBelowDouble(tail);
      assert xs[0] > xs[1] && IsPower(xs[0]) && IsPower(xs[1]);
    } else {
      assert IsPower(xs[0]);
    }
  }

  lemma DecompositionOfTail(xs: seq<int>, code: int)
    requires xs != [] && IsBinaryDecomposition(xs, code)
    ensures IsBinaryDecomposition(xs[1..], code - xs[0])
  {
    var tail := xs[1..];
    forall i, j | 0 <= i < j < |tail| ensures tail[i] > tail[j] {
      assert tail[i] == xs[i + 1] && tail[j] == xs[j + 1];
    }
    forall i | 0 <= i < |tail| ensures IsPower(tail[i]) { assert tail[i] == xs[i + 1]; }
  }

  /** Two decompositions of the same code are the same list. */
  lemma {:induction false} DecompositionUnique(xs: seq<int>, ys: seq<int>, code: int)
    requires IsBinaryDecomposition(xs, code) && IsBinaryDecomposition(ys, code)
    ensures xs == ys
    decreases |xs|
  {
    if xs != [] && ys != [] {
      SumBelowDouble(xs);
      SumBelowDouble(ys);
      assert IsPower(xs[0]) && IsPower(ys[0]);
      assert xs[0] == ys[0];
      DecompositionOfTail(xs, code);
      DecompositionOfTail(ys, code);
      DecompositionUnique(xs[1..], ys[1..], code - xs[0]);
      assert xs == [xs[0]] + xs[1..] && ys == [ys[0]] + ys[1..];
    } else if xs != [] {
      SumBelowDouble(xs);
    } else if ys != [] {
      SumBelowDouble(ys);
    }
  }

  /** Exit status 5 is explained as 4 (mismatches) and 1 (files copied), nothing else. */
  lemma FiveIsFourAndOne(xs: seq<int>)
    requires IsBinaryDecomposition(xs, 5)
    ensures xs == [4, 1]
  {
    assert IsBinaryDecomposition([4, 1], 5) by {
      assert [4, 1][1..] == [1];
      assert [1][1..] == [];
    }
    DecompositionUnique(xs, [4, 1], 5);
  }

  // ---------------------------------------------------------------------------
  // explainExitCode

  /** The message explainExitCode prints; Unrecognised is the logged error. */
  datatype Meaning =
    | NothingCopied      // 0
    | FilesCopied        // 1
    | ExtrasDetected     // 2
    | MismatchesDetected // 4
    | CopyFailures       // 8
    | SeriousError       // 16
    | Unrecognised

  function Explain(code: int): (m: Meaning)
    ensures m != Unrecognised <==> code in {0, 1, 2, 4, 8, 16}
    ensures m == CopyFailures || m == SeriousError <==> code == 8 || code == 16
  {
    match code
    case 0 => NothingCopied
    case 1 => FilesCopied
    case 2 => ExtrasDetected
    case 4 => MismatchesDetected
    case 8 => CopyFailures
    case 16 => SeriousError
    case _ => Unrecognised
  }

  /** The meanings explainExitCode prints in error style. */
  predicate IsFailure(m: Meaning) {
    m == CopyFailures || m == SeriousError
  }

  /**
    Whether displaySummary renders its "Exit code: N" line in error style, as written: only
    codes above 8, so the code for copy failures is shown plainly.
  */
  function HeaderHighlighted(code: int): (h: bool)
    ensures code in {0, 1, 2, 4, 8, 16} ==> (h <==> Explain(code) == SeriousError)
    ensures h ==> code > 0
  {
    code > 8
  }

  /** The discrepancy: code 8 gets an error-styled message under a plain header. */
  lemma CopyFailureHeaderPlain()
    ensures IsFailure(Explain(8)) && !HeaderHighlighted(8)
  {
  }

  /** The header styling that agrees with the messages: every failure code is highlighted. */
  function HeaderHighlightedIntended(code: int): (h: bool)
    ensures code in {0, 1, 2, 4, 8, 16} ==> (h <==> IsFailure(Explain(code)))
    ensures h ==> code > 0
  {
    code >= 8
  }

  /** Every bit of a code below 32 has a message; 32 never does. */
  lemma {:induction false} DecompositionRecognised(xs: seq<int>, code: int)
    requires 0 < code < 32 && IsBinaryDecomposition(xs, code)
    ensures forall i | 0 <= i < |xs| :: Explain(xs[i]) != Unrecognised
  {
    if xs != [] {
      SumBelowDouble(xs);
      forall i | 0 <= i < |xs| ensures Explain(xs[i]) != Unrecognised {
        assert xs[i] <= xs[0];
        assert IsPower(xs[i]);
      }
    }
  }
}

=== FILE: line_split.dfy ===
/**
 * The split function that parseStreaming hands to bufio.Scanner (utils.go): it cuts the
 * robocopy output into lines at "\r\n", '\n' or a lone '\r' (robocopy redraws its percentage
 * counter in place with '\r'). The characters are those of the decoded UTF-8 output; only
 * '\r' and '\n' are inspected, and each is a single byte in UTF-8.
 */
module LineSplit {
  import opened Outcomes

  /** What the split function returns: how many bytes to consume and, unless nil, a token. */
  datatype SplitResult = SplitResult(advance: nat, token: Option<string>)

  predicate IsCRLFAt(s: string, i: int) {
    0 <= i && i + 1 < |s| && s[i] == '\r' && s[i + 1] == '\n'
  }

  predicate IsTerminator(c: char) {
    c == '\r' || c == '\n'
  }

  /** bytes.Index(s, "\r\n"). */
  function IndexCRLF(s: string): (r: Option<nat>)
    ensures r.Some? ==> IsCRLFAt(s, r.value) && forall j | 0 <= j < r.value :: !IsCRLFAt(s, j)
    ensures r.None? ==> forall j | 0 <= j < |s| :: !IsCRLFAt(s, j)
    decreases |s|
  {
    if |s| < 2 then None
    else if s[0] == '\r' && s[1] == '\n' then Some(0)
    else match IndexCRLF(s[1..])
      case None =>
        assert forall j | 1 <= j < |s| :: IsCRLFAt(s, j) == IsCRLFAt(s[1..], j - 1);
        None
      case Some(i) =>
        assert forall j | 1 <= j <= i + 1 :: IsCRLFAt(s, j) == IsCRLFAt(s[1..], j - 1);
        Some(i + 1)
  }

  /** bytes.IndexByte(s, c). */
  function IndexByte(s: string, c: char): (r: Option<nat>)
    ensures r.Some? ==> r.value < |s| && s[r.value] == c && c !in s[..r.value]
    ensures r.None? ==> c !in s
    decreases |s|
  {
    if s == [] then None
    else if s[0] == c then Some(0)
    else match IndexByte(s[1..], c)
      case None => None
      case Some(i) =>
        assert s[..i + 1] == [s[0]] + s[1..][..i];
        Some(i + 1)
  }

  /** The split closure of parseStreaming, exactly as written: the first "\r\n" anywhere in
      the buffer wins over an earlier '\n' or '\r'. */
  function Split(data: string, atEOF: bool): (r: SplitResult)
    ensures r.advance <= |data|
    ensures r.token.None? ==> r.advance == 0
    ensures r.token.Some? ==> |r.token.value| <= r.advance && data[..|r.token.value|] == r.token.value
    ensures r.token.Some? ==>
              data[|r.token.value|..r.advance] in {"\r\n", "\n", "\r"}
              || (atEOF && r.advance == |data| == |r.token.value|)
    ensures atEOF && data != [] ==> r.token.Some? && r.advance > 0
  {
    if atEOF && |data| == 0 then SplitResult(0, None)
    else match IndexCRLF(data)
      case Some(i) =>
        assert data[i..i + 2] == "\r\n";
        SplitResult(i + 2, Some(data[..i]))
      case None =>
        match IndexByte(data, '\n')
        case Some(i) =>
          assert data[i..i + 1] == "\n";
          SplitResult(i + 1, Some(data[..i]))
        case None =>
          match IndexByte(data, '\r')
          case Some(i) =>
            assert data[i..i + 1] == "\r";
            SplitResult(i + 1, Some(data[..i]))
          case None =>
            if atEOF then SplitResult(|data|, Some(data)) else SplitResult(0, None)
  }

  /** Without any '\r' or '\n': empty data at EOF gives nothing, data before EOF asks for more,
      and at EOF the whole remainder is the final line. */
  lemma SplitWithoutTerminator(data: string, atEOF: bool)
    requires '\r' !in data && '\n' !in data
    ensures atEOF && data == [] ==> Split(data, atEOF) == SplitResult(0, None)
    ensures !atEOF ==> Split(data, atEOF) == SplitResult(0, None)
    ensures atEOF && data != [] ==> Split(data, atEOF) == SplitResult(|data|, Some(data))
  {
    assert forall j | 0 <= j < |data| :: !IsCRLFAt(data, j);
  }

  /** The first "\r\n" in the buffer wins, wherever the other terminators are. */
  lemma SplitAtFirstCRLF(data: string, atEOF: bool, i: nat)
    requires IsCRLFAt(data, i)
    requires forall j | 0 <= j < i :: !IsCRLFAt(data, j)
    ensures Split(data, atEOF) == SplitResult(i + 2, Some(data[..i]))
  {
  }

  /** With no "\r\n" anywhere, the first '\n' wins. */
  lemma SplitAtFirstLineFeed(data: string, atEOF: bool, i: nat)
    requires forall j | 0 <= j < |data| :: !IsCRLFAt(data, j)
    requires i < |data| && data[i] == '\n' && '\n' !in data[..i]
    ensures Split(data, atEOF) == SplitResult(i + 1, Some(data[..i]))
  {
  }

  /** With neither "\r\n" nor '\n', the first '\r' wins. */
  lemma SplitAtFirstCarriageReturn(data: string, atEOF: bool, i: nat)
    requires '\n' !in data
    requires i < |data| && data[i] == '\r' && '\r' !in data[..i]
    ensures Split(data, atEOF) == SplitResult(i + 1, Some(data[..i]))
  {
    assert forall j | 0 <= j < |data| :: !IsCRLFAt(data, j);
  }

  /** Once a terminator is in the buffer, whether the reader reached EOF does not matter. */
  lemma SplitIgnoresEOFWithTerminator(data: string)
    requires '\r' in data || '\n' in data
    ensures Split(data, true) == Split(data, false)
  {
  }

  /** Scanning a complete buffer: the lines bufio.Scanner yields when the reader delivers all
      of `data` before reporting EOF. */
  function SplitAll(data: string): (lines: seq<string>)
    ensures |lines| <= |data|
    decreases |data|
  {
    if data == [] then []
    else
      var r := Split(data, true);
      [r.token.value] + SplitAll(data[r.advance..])
  }

  /** The line ending each step of SplitAll consumes after its line: "" only for the
      unterminated tail flushed at EOF, which is the last line. */
  function SplitEnds(data: string): (ends: seq<string>)
    ensures |ends| == |SplitAll(data)|
    ensures forall i | 0 <= i < |ends| :: ends[i] in {"\r\n", "\n", "\r", ""}
    ensures forall i | 0 <= i < |ends| - 1 :: ends[i] != ""
    decreases |data|
  {
    if data == [] then []
    else
      var r := Split(data, true);
      var rest := SplitEnds(data[r.advance..]);
      var ends := [data[|r.token.value|..r.advance]] + rest;
      SplitEnd(data);
      assert |SplitAll(data)| == 1 + |SplitAll(data[r.advance..])|;
      assert forall i | 1 <= i < |ends| :: ends[i] == rest[i - 1];
      ends
  }

  /** One step of SplitAll ends at a terminator, or flushes the whole remainder. */
  lemma SplitEnd(data: string)
    requires data != []
    ensures var r := Split(data, true); var t := r.token.value;
      data[|t|..r.advance] in {"\r\n", "\n", "\r", ""} &&
      (data[|t|..r.advance] == "" ==> data[r.advance..] == [])
  {
  }

  /** The lines with their endings put back. */
  function Rejoin(lines: seq<string>, ends: seq<string>): string
    requires |lines| == |ends|
  {
    if lines == [] then [] else lines[0] + ends[0] + Rejoin(lines[1..], ends[1..])
  }

  /** Nothing is lost or reordered: the lines, each followed by the ending it was cut at,
      make up the whole buffer. */
  lemma {:induction false} SplitAllRejoins(data: string)
    ensures Rejoin(SplitAll(data), SplitEnds(data)) == data
    decreases |data|
  {
    if data != [] {
      var r := Split(data, true);
      var t := r.token.value;
      var rest := data[r.advance..];
      var lines, ends := SplitAll(data), SplitEnds(data);
      SplitStep(data);
      SplitAllRejoins(rest);
      assert lines[1..] == SplitAll(rest) && ends[1..] == SplitEnds(rest);
      RejoinCons(lines, ends);
    }
  }

  /** One step of SplitAll: the first line and its ending, then the rest. */
  lemma SplitStep(data: string)
    requires data != []
    ensures var r := Split(data, true); var t := r.token.value; var rest := data[r.advance..];
      SplitAll(data) == [t] + SplitAll(rest) &&
      SplitEnds(data) == [data[|t|..r.advance]] + SplitEnds(rest) &&
      data == t + data[|t|..r.advance] + rest
  {
    var r := Split(data, true);
    var t := r.token.value;
    assert data == data[..|t|] + data[|t|..r.advance] + data[r.advance..];
  }

  /** The four line endings of "A\r\nB\nC\rD" each end one line, and the unterminated tail is
      flushed at EOF. */
  lemma SplitAllMixedEndings()
    ensures SplitAll("A\r\nB\nC\rD") == ["A", "B", "C", "D"]
  {
    var s0, s1, s2, s3 := "A\r\nB\nC\rD", "B\nC\rD", "C\rD", "D";
    MixedEndingsSteps();
    assert SplitAll(s3) == ["D"] + SplitAll([]);
    assert SplitAll(s2) == ["C"] + SplitAll(s3);
    assert SplitAll(s1) == ["B"] + SplitAll(s2);
    assert SplitAll(s0) == ["A"] + SplitAll(s1);
  }

  lemma MixedEndingsSteps()
    ensures Split("A\r\nB\nC\rD", true) == SplitResult(3, Some("A")) && "A\r\nB\nC\rD"[3..] == "B\nC\rD"
    ensures Split("B\nC\rD", true) == SplitResult(2, Some("B")) && "B\nC\rD"[2..] == "C\rD"
    ensures Split("C\rD", true) == SplitResult(2, Some("C")) && "C\rD"[2..] == "D"
    ensures Split("D", true) == SplitResult(1, Some("D")) && "D"[1..] == []
  {
    var s0, s1, s2, s3 := "A\r\nB\nC\rD", "B\nC\rD", "C\rD", "D";
    SplitAtFirstCRLF(s0, true, 1);
    assert s0[..1] == "A";
    assert forall j | 0 <= j < |s1| :: !IsCRLFAt(s1, j);
    SplitAtFirstLineFeed(s1, true, 1);
    assert s1[..1] == "B";
    SplitAtFirstCarriageReturn(s2, true, 1);
    assert s2[..1] == "C";
    SplitWithoutTerminator(s3, true);
  }

  // ---------------------------------------------------------------------------------------
  // The split the comment in utils.go describes ("similar to bufio.ScanLines but also splits
  // on \r"): the EARLIEST terminator ends the token, "\r\n" counting as one terminator.

  /** First index of '\r' or '\n'. */
  function IndexTerminator(s: string): (r: Option<nat>)
    ensures r.Some? ==> r.value < |s| && IsTerminator(s[r.value])
                        && forall j | 0 <= j < r.value :: !IsTerminator(s[j])
    ensures r.None? ==> forall j | 0 <= j < |s| :: !IsTerminator(s[j])
    decreases |s|
  {
    if s == [] then None
    else if IsTerminator(s[0]) then Some(0)
    else match IndexTerminator(s[1..])
      case None => None
      case Some(i) => Some(i + 1)
  }

  /** Corrected split: the earliest terminator wins. */
  function SplitEarliest(data: string, atEOF: bool): (r: SplitResult)
    ensures r.advance <= |data|
    ensures r.token.Some? ==> |r.token.value| <= r.advance && data[..|r.token.value|] == r.token.value
    // the token holds no terminator, so it ends at the earliest one ...
    ensures r.token.Some? ==> forall j | 0 <= j < |r.token.value| :: !IsTerminator(r.token.value[j])
    // ... and the advance consumes exactly that terminator, "\r\n" as one
    ensures !(forall j | 0 <= j < |data| :: !IsTerminator(data[j])) ==>
              r.token.Some? && |r.token.value| < |data| && IsTerminator(data[|r.token.value|]) &&
              r.advance == |r.token.value| + (if IsCRLFAt(data, |r.token.value|) then 2 else 1)
    // without a terminator: the remainder at EOF, otherwise a request for more data
    ensures atEOF && data != [] && (forall j | 0 <= j < |data| :: !IsTerminator(data[j]))
            ==> r == SplitResult(|data|, Some(data))
    ensures !atEOF && (forall j | 0 <= j < |data| :: !IsTerminator(data[j])) ==> r == SplitResult(0, None)
    ensures atEOF && data == [] ==> r == SplitResult(0, None)
    ensures atEOF && data != [] ==> r.token.Some? && r.advance > 0
  {
    if atEOF && |data| == 0 then SplitResult(0, None)
    else match IndexTerminator(data)
      case Some(i) =>
        if IsCRLFAt(data, i) then SplitResult(i + 2, Some(data[..i])) else SplitResult(i + 1, Some(data[..i]))
      case None =>
        if atEOF then SplitResult(|data|, Some(data)) else SplitResult(0, None)
  }

  /** Whenever the as-written token holds no terminator, the two splits agree. */
  lemma SplitAgreesWhenTokenClean(data: string, atEOF: bool)
    requires var r := Split(data, atEOF);
             r.token.Some? ==> forall j | 0 <= j < |r.token.value| :: !IsTerminator(r.token.value[j])
    ensures Split(data, atEOF) == SplitEarliest(data, atEOF)
  {
    var r := Split(data, atEOF);
    if r.token.Some? {
      var t := r.token.value;
      assert forall j | 0 <= j < |t| :: !IsTerminator(data[j]) by {
        forall j | 0 <= j < |t| ensures !IsTerminator(data[j]) { assert data[j] == t[j]; }
      }
      if r.advance > |t| {
        SplitAgreesAtTerminator(data, atEOF, |t|);
      }
    } else if !atEOF && data != [] {
      NoTokenNoTerminator(data);
    }
  }

  /** The as-written token ends at the first terminator: both splits cut there alike. */
  lemma SplitAgreesAtTerminator(data: string, atEOF: bool, n: nat)
    requires n <= |data| && Split(data, atEOF).token == Some(data[..n]) && Split(data, atEOF).advance > n
    requires forall j | 0 <= j < n :: !IsTerminator(data[j])
    ensures Split(data, atEOF) == SplitEarliest(data, atEOF)
  {
    var r := Split(data, atEOF);
    assert data[n..r.advance] in {"\r\n", "\n", "\r"};
    assert IsTerminator(data[n]);
    assert IndexTerminator(data) == Some(n);
    if data[n..r.advance] == "\r\n" {
      assert IsCRLFAt(data, n);
    } else if data[n] == '\r' {
      assert data[n..r.advance] == "\r";
    } else {
      assert data[n..r.advance] == "\n";
    }
  }

  /** Before EOF, the as-written split asks for more data only when no terminator is buffered. */
  lemma NoTokenNoTerminator(data: string)
    requires Split(data, false).token.None?
    ensures forall j | 0 <= j < |data| :: !IsTerminator(data[j])
  {
    assert '\r' !in data && '\n' !in data;
  }

  /** As written, a "\r\n" late in the buffer swallows an earlier '\n' into the token:
      "A\nB\r\n" yields the single line "A\nB" where the earliest-terminator split yields "A". */
  lemma SplitCRLFSwallowsLineFeed()
    ensures Split("A\nB\r\n", true) == SplitResult(5, Some("A\nB"))
    ensures Split("A\nB\r\n", false) == SplitResult(5, Some("A\nB"))
    ensures SplitEarliest("A\nB\r\n", true) == SplitResult(2, Some("A"))
  {
    var s := "A\nB\r\n";
    assert forall j | 0 <= j < 3 :: !IsCRLFAt(s, j);
    SplitAtFirstCRLF(s, true, 3);
    SplitAtFirstCRLF(s, false, 3);
    assert s[..3] == "A\nB";
    assert IsTerminator(s[1]) && !IsTerminator(s[0]);
    assert IndexTerminator(s) == Some(1);
    assert !IsCRLFAt(s, 1);
    assert s[..1] == "A";
  }

  /** Scanning a complete buffer with the corrected split. */
  function SplitAllEarliest(data: string): (lines: seq<string>)
    ensures |lines| <= |data|
    ensures forall i, j | 0 <= i < |lines| && 0 <= j < |lines[i]| :: !IsTerminator(lines[i][j])
    decreases |data|
  {
    if data == [] then []
    else
      var r := SplitEarliest(data, true);
      var rest := SplitAllEarliest(data[r.advance..]);
      var lines := [r.token.value] + rest;
      assert forall i | 1 <= i < |lines| :: lines[i] == rest[i - 1];
      lines
  }

  /** The terminator each step of SplitAllEarliest consumes: "" only for the unterminated last
      line. */
  function SplitEndsEarliest(data: string): (ends: seq<string>)
    ensures |ends| == |SplitAllEarliest(data)|
    ensures forall i | 0 <= i < |ends| :: ends[i] in {"\r\n", "\n", "\r", ""}
    ensures forall i | 0 <= i < |ends| - 1 :: ends[i] != ""
    decreases |data|
  {
    if data == [] then []
    else
      var r := SplitEarliest(data, true);
      var t := r.token.value;
      var rest := SplitEndsEarliest(data[r.advance..]);
      var ends := [data[|t|..r.advance]] + rest;
      EarliestEnd(data);
      assert |SplitAllEarliest(data)| == 1 + |SplitAllEarliest(data[r.advance..])|;
      assert forall i | 1 <= i < |ends| :: ends[i] == rest[i - 1];
      ends
  }

  /** One step of the corrected scan ends at a terminator, or flushes the whole remainder. */
  lemma EarliestEnd(data: string)
    requires data != []
    ensures var r := SplitEarliest(data, true); var t := r.token.value;
      data[|t|..r.advance] in {"\r\n", "\n", "\r"} || (r.advance == |t| == |data|)
    ensures var r := SplitEarliest(data, true); r.advance == |r.token.value| ==> data[r.advance..] == []
  {
    var r := SplitEarliest(data, true);
    var t := r.token.value;
    if r.advance > |t| {
      if IsCRLFAt(data, |t|) { assert data[|t|..r.advance] == "\r\n"; }
      else if data[|t|] == '\r' { assert data[|t|..r.advance] == "\r"; }
      else { assert data[|t|..r.advance] == "\n"; }
    }
  }

  /** The corrected scan loses and reorders nothing either: its lines, each followed by the
      terminator it was cut at, make up the whole buffer. */
  lemma {:induction false} SplitAllEarliestRejoins(data: string)
    ensures Rejoin(SplitAllEarliest(data), SplitEndsEarliest(data)) == data
    decreases |data|
  {
    if data != [] {
      var r := SplitEarliest(data, true);
      var t := r.token.value;
      var rest := data[r.advance..];
      var lines, ends := SplitAllEarliest(data), SplitEndsEarliest(data);
      EarliestStep(data);
      SplitAllEarliestRejoins(rest);
      assert lines[1..] == SplitAllEarliest(rest) && ends[1..] == SplitEndsEarliest(rest);
      RejoinCons(lines, ends);
    }
  }

  /** One step of the corrected scan: the first line and its terminator, then the rest. */
  lemma EarliestStep(data: string)
    requires data != []
    ensures var r := SplitEarliest(data, true); var t := r.token.value; var rest := data[r.advance..];
      SplitAllEarliest(data) == [t] + SplitAllEarliest(rest) &&
      SplitEndsEarliest(data) == [data[|t|..r.advance]] + SplitEndsEarliest(rest) &&
      data == t + data[|t|..r.advance] + rest
  {
    var r := SplitEarliest(data, true);
    var t := r.token.value;
    assert data == data[..|t|] + data[|t|..r.advance] + data[r.advance..];
  }

  lemma RejoinCons(lines: seq<string>, ends: seq<string>)
    requires |lines| == |ends| > 0
    ensures Rejoin(lines, ends) == lines[0] + ends[0] + Rejoin(lines[1..], ends[1..])
  {
  }

  /** A lone '\r' is never taken where "\r\n" stands: the line after it does not start with '\n'. */
  lemma {:induction false} EarliestLoneCarriageReturn(data: string)
    ensures var lines, ends := SplitAllEarliest(data), SplitEndsEarliest(data);
      forall i | 0 <= i < |ends| - 1 :: ends[i] == "\r" ==>
        lines[i + 1] + ends[i + 1] != [] && (lines[i + 1] + ends[i + 1])[0] != '\n'
    decreases |data|
  {
    if data != [] {
      var r := SplitEarliest(data, true);
      var rest := data[r.advance..];
      var lines, ends := SplitAllEarliest(data), SplitEndsEarliest(data);
      var lines', ends' := SplitAllEarliest(rest), SplitEndsEarliest(rest);
      EarliestStep(data);
      EarliestLoneCarriageReturn(rest);
      assert lines[1..] == lines' && ends[1..] == ends';
      if |ends| > 1 && ends[0] == "\r" {
        EarliestCarriageReturnNext(data);
        EarliestFirstStep(rest);
      }
      forall i | 1 <= i < |ends| - 1
        ensures lines[i + 1] + ends[i + 1] == lines'[i] + ends'[i] && ends[i] == ends'[i - 1]
      {
        assert lines[i + 1] == lines'[i] && ends[i + 1] == ends'[i] && ends[i] == ends'[i - 1];
      }
    }
  }

  /** After a lone '\r' the remaining data does not start with '\n'. */
  lemma EarliestCarriageReturnNext(data: string)
    requires data != []
    requires var r := SplitEarliest(data, true); data[|r.token.value|..r.advance] == "\r"
    ensures var r := SplitEarliest(data, true); r.advance < |data| ==> data[r.advance] != '\n'
  {
    var r := SplitEarliest(data, true);
    var n := |r.token.value|;
    assert data[n] == '\r' && r.advance == n + 1;
  }

  /** The first line of a non-empty buffer with its terminator starts the buffer. */
  lemma EarliestFirstStep(data: string)
    requires data != []
    ensures var lines, ends := SplitAllEarliest(data), SplitEndsEarliest(data);
      |lines| > 0 && lines[0] + ends[0] != [] && (lines[0] + ends[0])[0] == data[0]
  {
    var r := SplitEarliest(data, true);
    EarliestStep(data);
    assert SplitAllEarliest(data)[0] + SplitEndsEarliest(data)[0] == data[..r.advance];
  }

  /** The corrected scan cuts "A\nB\r\n" into the two lines the as-written scan runs together. */
  lemma SplitAllEarliestSeparatesLines()
    ensures SplitAllEarliest("A\nB\r\n") == ["A", "B"]
    ensures SplitEndsEarliest("A\nB\r\n") == ["\n", "\r\n"]
  {
    var s0, s1 := "A\nB\r\n", "B\r\n";
    assert IsTerminator(s0[1]) && !IsTerminator(s0[0]) && !IsCRLFAt(s0, 1);
    assert SplitEarliest(s0, true) == SplitResult(2, Some("A")) by { assert s0[..1] == "A"; }
    assert s0[2..] == s1;
    assert IsTerminator(s1[1]) && !IsTerminator(s1[0]) && IsCRLFAt(s1, 1);
    assert SplitEarliest(s1, true) == SplitResult(3, Some("B")) by { assert s1[..1] == "B"; }
    assert s1[3..] == [];
    assert s0[1..2] == "\n" && s1[1..3] == "\r\n";
  }
}

=== FILE: numbers.dfy ===
/** Integer helpers: exact powers, Go's float-to-int conversion and int64 clamping. */
module Numbers {

  /** base raised to a natural exponent, the reference for `PowInt` and for unit sizes. */
  function Pow(base: int, exp: nat): int
    decreases exp
  {
    if exp == 0 then 1 else base * Pow(base, exp - 1)
  }

  /** The largest int64 value. */
  const MaxInt64: int := 0x7FFF_FFFF_FFFF_FFFF

  /** Go's `int64(x)` for a float `x`: truncation toward zero (out-of-range values are not modelled). */
  function Trunc(x: real): (r: int)
    ensures x >= 0.0 ==> 0 <= r && r as real <= x < r as real + 1.0
    ensures x < 0.0 ==> r <= 0 && r as real - 1.0 < x <= r as real
  {
    if x >= 0.0 then x.Floor else -((-x).Floor)
  }

  lemma ProductNonNegative(a: real, b: real)
    requires a >= 0.0 && b >= 0.0
    ensures a * b >= 0.0
  {
  }

  /** strconv.ParseInt/Atoi on a digit string: the value, or MaxInt64 when it does not fit. */
  function ClampInt64(n: nat): (r: int)
    ensures 0 <= r <= MaxInt64
    ensures n <= MaxInt64 ==> r == n
    ensures n > MaxInt64 ==> r == MaxInt64
  {
    if n <= MaxInt64 then n else MaxInt64
  }

  lemma PowPositive(base: int, exp: nat)
    requires base > 0
    ensures Pow(base, exp) > 0
  {
  }
}

=== FILE: outcomes.dfy ===
/** Failure-carrying values shared by the rest of the model. */
module Outcomes {

  /** A value that may be absent: Go's nil token, a regex that did not match. */
  datatype Option<+T> = None | Some(value: T)

  /** A value or a Go `error`; the message text is kept only as a description. */
  datatype Result<+T> = Success(value: T) | Failure(error: string)
}

=== FILE: parser.dfy ===
/** The line classification of parseStreaming (utils.go), over lines already split by LineSplit.Split. */
module Parser {
  import opened Outcomes
  import opened Numbers
  import opened Text
  import opened ByteUnits
  import opened Patterns
  import opened Stats
  import opened Tui

  /** What survives from one line to the next: the mode and the statistics gathered so far. */
  datatype ParserState = ParserState(inSummary: bool, stats: RobocopyStats)

  /** The new state and the messages sent to the UI for one line. */
  datatype StepResult = StepResult(state: ParserState, events: seq<Msg>)

  /** The six counts of a Dirs or Files line, each through strconv.Atoi. */
  function Counts(g: seq<string>): (vals: seq<int>)
    requires |g| == 6 && forall k | 0 <= k < 6 :: AllDigits(g[k])
    ensures |vals| == 6 && forall k | 0 <= k < 6 :: vals[k] == Atoi(g[k])
    ensures forall k | 0 <= k < 6 :: 0 <= vals[k] <= MaxInt64
  {
    seq(6, k requires 0 <= k < 6 => Atoi(g[k]))
  }

  /** The six sizes of a Bytes line, each through parseByteValue. */
  function Sizes(g: seq<string>): (vals: seq<int>)
    requires |g| == 6
    ensures |vals| == 6 && forall k | 0 <= k < 6 :: vals[k] == ParseByteValue(g[k])
  {
    seq(6, k requires 0 <= k < 6 => ParseByteValue(g[k]))
  }

  /** A line after the summary header: the first pattern that matches decides. */
  function SummaryLine(stats: RobocopyStats, line: string): (r: RobocopyStats)
    // the duration and the exit code are runRobocopy's, never the summary's
    ensures r.duration == stats.duration && r.exitCode == stats.exitCode
    // a line no pattern recognises changes nothing
    ensures (MatchDirs(line).None? && MatchFiles(line).None? && MatchBytes(line).None? &&
             MatchSpeedBytes(line).None? && MatchSpeedMB(line).None?) ==> r == stats
    // each speed changes only on its own line
    ensures r.bytesPerSec != stats.bytesPerSec ==> MatchSpeedBytes(line).Some?
    ensures r.megaBytesPerMin != stats.megaBytesPerMin ==> MatchSpeedMB(line).Some?
  {
    match MatchDirs(line)
    case Some(g) => SetRow(stats, DirsField, Counts(g))
    case None =>
      match MatchFiles(line)
      case Some(g) => SetRow(stats, FilesField, Counts(g))
      case None =>
        match MatchBytes(line)
        case Some(g) => SetRow(stats, BytesField, Sizes(g))
        case None =>
          match MatchSpeedBytes(line)
          case Some(d) => stats.(bytesPerSec := Atoi(d))
          case None =>
            match MatchSpeedMB(line)
            case Some(n) => stats.(megaBytesPerMin := FloatOrZero(n))
            case None => stats
  }

  /** ParseFloat's value, or the zero it returns with its error. */
  function FloatOrZero(s: string): (v: real)
    ensures ParseFloat(s).Some? ==> v == ParseFloat(s).value
    ensures ParseFloat(s).None? ==> v == 0.0
  {
    match ParseFloat(s)
    case Some(v) => v
    case None => 0.0
  }

  /** A line before the summary header: a file that starts copying, or a percentage.
      allowed is the rate limiter's verdict for this line. */
  function ProgressLine(line: string, allowed: bool): (events: seq<Msg>)
    ensures |events| <= 1
    ensures forall e | e in events :: e.FileMsg? || e.ProgressMsg?
    ensures forall e | e in events :: e.FileMsg? ==> e.update.file != [] && e.update.progress == 0.0
  {
    match MatchFileCopying(line)
    case Some(fc) => [FileMsg(UpdateMsg(fc.name, ParseByteValue(fc.size), 0.0))]
    case None => PercentLine(line, allowed)
  }

  /** A percentage line: one progress message if the limiter allows it and the number parses. */
  function PercentLine(line: string, allowed: bool): (events: seq<Msg>)
    ensures |events| <= 1 && forall e | e in events :: e.ProgressMsg?
    ensures !allowed ==> events == []
  {
    match MatchProgress(line)
    case Some(p) =>
      (match ParseFloat(p)
       case Some(v) => if allowed then [ProgressMsg(v)] else []
       case None => [])
    case None => []
  }

  /** One iteration of the scanning loop. */
  function Step(st: ParserState, raw: string, allowed: bool): (r: StepResult)
    // summary mode is never left, and emits nothing
    ensures st.inSummary ==> r.state.inSummary && r.events == []
    // the header only switches the mode
    ensures IsSummaryHeader(TrimSpace(raw)) ==> r == StepResult(st.(inSummary := true), [])
    // before the header the statistics are not touched
    ensures !st.inSummary ==> r.state.stats == st.stats
    ensures !IsSummaryHeader(TrimSpace(raw)) ==> r.state.inSummary == st.inSummary
    // at most one message per line; a file message names a file and starts at 0%
    ensures |r.events| <= 1
    ensures forall e | e in r.events :: e.FileMsg? ==> e.update.file != [] && e.update.progress == 0.0
    ensures forall e | e in r.events :: e.FileMsg? || e.ProgressMsg?
  {
    var line := TrimSpace(raw);
    if line == [] then StepResult(st, [])
    else if IsSummaryHeader(line) then StepResult(st.(inSummary := true), [])
    else if st.inSummary then StepResult(st.(stats := SummaryLine(st.stats, line)), [])
    else StepResult(st, ProgressLine(line, allowed))
  }

  /** The whole loop over the lines of the stream; allow[i] is the limiter's verdict for line i. */
  function ParseLines(st: ParserState, lines: seq<string>, allow: seq<bool>): (r: StepResult)
    requires |allow| == |lines|
    // at most one message per line, each about a file or its progress
    ensures |r.events| <= |lines|
    ensures forall e | e in r.events :: e.FileMsg? || e.ProgressMsg?
    // the summary, once entered, is never left
    ensures st.inSummary ==> r.state.inSummary
    // the duration and the exit code are not the parser's to set
    ensures r.state.stats.duration == st.stats.duration && r.state.stats.exitCode == st.stats.exitCode
    decreases |lines|
  {
    if lines == [] then StepResult(st, [])
    else
      var first := Step(st, lines[0], allow[0]);
      var rest := ParseLines(first.state, lines[1..], allow[1..]);
      StepResult(rest.state, first.events + rest.events)
  }

  /** The parser starts before the summary, with zeroed statistics. */
  const Initial := ParserState(false, ZeroStats)

  // ---------------------------------------------------------------------------
  // The modes

  /** Once in summary mode, the parser stays there and sends nothing to the UI. */
  lemma {:induction false} SummaryIsFinal(st: ParserState, lines: seq<string>, allow: seq<bool>)
    requires |allow| == |lines|
    requires st.inSummary
    ensures ParseLines(st, lines, allow).state.inSummary
    ensures ParseLines(st, lines, allow).events == []
    decreases |lines|
  {
    if lines != [] {
      SummaryIsFinal(Step(st, lines[0], allow[0]).state, lines[1..], allow[1..]);
    }
  }

  /** No header among the lines. */
  predicate NoHeader(lines: seq<string>)
  {
    forall i | 0 <= i < |lines| :: !IsSummaryHeader(TrimSpace(lines[i]))
  }

  /** Without a header line, the parser stays before the summary and the statistics stay as they were. */
  lemma {:induction false} NoHeaderKeepsStats(st: ParserState, lines: seq<string>, allow: seq<bool>)
    requires |allow| == |lines|
    requires !st.inSummary && NoHeader(lines)
    ensures ParseLines(st, lines, allow).state == st
    decreases |lines|
  {
    if lines != [] {
      assert !IsSummaryHeader(TrimSpace(lines[0])) by { assert lines[0] == lines[0 + 0]; }
      assert NoHeader(lines[1..]) by {
        forall i | 0 <= i < |lines[1..]| ensures !IsSummaryHeader(TrimSpace(lines[1..][i])) {
          assert lines[1..][i] == lines[i + 1];
        }
      }
      NoHeaderKeepsStats(Step(st, lines[0], allow[0]).state, lines[1..], allow[1..]);
    }
  }

  /** After the header line, whatever follows, no event is ever sent. */
  lemma NothingAfterHeader(st: ParserState, header: string, lines: seq<string>, allow: seq<bool>, a: bool)
    requires |allow| == |lines|
    requires IsSummaryHeader(TrimSpace(header))
    ensures ParseLines(st, [header] + lines, [a] + allow).events == Step(st, header, a).events + []
    ensures ParseLines(st, [header] + lines, [a] + allow).state.inSummary
  {
    assert ([header] + lines)[1..] == lines;
    assert ([a] + allow)[1..] == allow;
    SummaryIsFinal(st.(inSummary := true), lines, allow);
  }

  // ---------------------------------------------------------------------------
  // Summary lines

  /** The summary's row labels start with different letters, so at most one matches. */
  lemma LabelsExclusive(line: string, a: string, b: string)
    requires |a| > 0 && |b| > 0 && a[0] != b[0]
    ensures AfterLabel(line, a).None? || AfterLabel(line, b).None?
  {
  }

  /** A Dirs line overwrites exactly the six directory counts. */
  lemma SummaryDirs(stats: RobocopyStats, line: string, g: seq<string>)
    requires MatchDirs(line) == Some(g)
    ensures var r := SummaryLine(stats, line);
      forall k, f | 0 <= k < 6 :: Column(r, k).Get(f) == if f == DirsField then Atoi(g[k]) else Column(stats, k).Get(f)
    ensures SummaryLine(stats, line).bytesPerSec == stats.bytesPerSec
    ensures SummaryLine(stats, line).megaBytesPerMin == stats.megaBytesPerMin
    ensures SummaryLine(stats, line).duration == stats.duration
    ensures SummaryLine(stats, line).exitCode == stats.exitCode
  {
  }

  /** A Files line overwrites exactly the six file counts. */
  lemma SummaryFiles(stats: RobocopyStats, line: string, g: seq<string>)
    requires MatchFiles(line) == Some(g)
    ensures var r := SummaryLine(stats, line);
      forall k, f | 0 <= k < 6 :: Column(r, k).Get(f) == if f == FilesField then Atoi(g[k]) else Column(stats, k).Get(f)
    ensures SummaryLine(stats, line).bytesPerSec == stats.bytesPerSec
    ensures SummaryLine(stats, line).megaBytesPerMin == stats.megaBytesPerMin
    ensures SummaryLine(stats, line).duration == stats.duration
    ensures SummaryLine(stats, line).exitCode == stats.exitCode
  {
    LabelsExclusive(line, "Dirs", "Files");
  }

  /** A Bytes line overwrites exactly the six byte counts, each through parseByteValue. */
  lemma SummaryBytes(stats: RobocopyStats, line: string, g: seq<string>)
    requires MatchBytes(line) == Some(g)
    ensures var r := SummaryLine(stats, line);
      forall k, f | 0 <= k < 6 :: Column(r, k).Get(f) == if f == BytesField then ParseByteValue(g[k]) else Column(stats, k).Get(f)
    ensures SummaryLine(stats, line).bytesPerSec == stats.bytesPerSec
    ensures SummaryLine(stats, line).megaBytesPerMin == stats.megaBytesPerMin
    ensures SummaryLine(stats, line).duration == stats.duration
    ensures SummaryLine(stats, line).exitCode == stats.exitCode
  {
    LabelsExclusive(line, "Dirs", "Bytes");
    LabelsExclusive(line, "Files", "Bytes");
  }

  /** A Bytes/sec speed line sets only BytesPerSec. */
  lemma SummarySpeedBytes(stats: RobocopyStats, line: string, d: string)
    requires MatchSpeedBytes(line) == Some(d)
    ensures SummaryLine(stats, line) == stats.(bytesPerSec := Atoi(d))
  {
    LabelsExclusive(line, "Dirs", "Speed");
    LabelsExclusive(line, "Files", "Speed");
    LabelsExclusive(line, "Bytes", "Speed");
  }

  /** A MegaBytes/min speed line sets only MegaBytesPerMin, to 0 when the number does not parse. */
  lemma SummarySpeedMB(stats: RobocopyStats, line: string, n: string)
    requires MatchSpeedMB(line) == Some(n)
    ensures SummaryLine(stats, line) == stats.(megaBytesPerMin := FloatOrZero(n))
  {
    LabelsExclusive(line, "Dirs", "Speed");
    LabelsExclusive(line, "Files", "Speed");
    LabelsExclusive(line, "Bytes", "Speed");
    SpeedsExclusive(AfterLabel(line, "Speed").value);
  }

  lemma {:induction false} DigitRunWithinNumDotRun(u: string)
    ensures DigitRun(u) <= NumDotRun(u)
    decreases |u|
  {
    if |u| > 0 && IsDigit(u[0]) {
      DigitRunWithinNumDotRun(u[1..]);
    }
  }

  /** No speed line reads both as Bytes/sec and as MegaBytes/min. */
  lemma SpeedsExclusive(u: string)
    ensures !(DigitRun(u) > 0 && StartsWith(SkipReSpace(u[DigitRun(u)..]), "Bytes/sec") &&
              NumDotRun(u) > 0 && StartsWith(SkipReSpace(u[NumDotRun(u)..]), "MegaBytes/min"))
  {
    var d := DigitRun(u);
    var n := NumDotRun(u);
    DigitRunWithinNumDotRun(u);
    if d < n {
      DotStopsBytes(u, d);
    } else {
      assert d == n;
      assert "Bytes/sec"[0] != "MegaBytes/min"[0];
    }
  }

  /** A speed whose digits are followed by a dot is not read as Bytes/sec. */
  lemma DotStopsBytes(u: string, d: nat)
    requires d < |u| && u[d] == '.'
    ensures !StartsWith(SkipReSpace(u[d..]), "Bytes/sec")
  {
    assert ReSpaceRun(u[d..]) == 0;
    assert SkipReSpace(u[d..])[0] == '.';
  }

  // ---------------------------------------------------------------------------
  // Lines before the summary

  /** A file-copy line sends one file message, whatever the rate limiter says. */
  lemma FileLineNotRateLimited(st: ParserState, raw: string, fc: FileCopy)
    requires !st.inSummary && !IsSummaryHeader(TrimSpace(raw))
    requires MatchFileCopying(TrimSpace(raw)) == Some(fc)
    ensures Step(st, raw, true) == Step(st, raw, false)
    ensures Step(st, raw, true).events == [FileMsg(UpdateMsg(fc.name, ParseByteValue(fc.size), 0.0))]
  {
  }

  /** The rate limiter's verdict matters only for a percentage line before the summary,
      and there it decides whether the one progress message is sent. */
  lemma OnlyPercentagesAreRateLimited(st: ParserState, raw: string)
    ensures Step(st, raw, true) != Step(st, raw, false) ==>
      var line := TrimSpace(raw);
      !st.inSummary && MatchFileCopying(line).None? && MatchProgress(line).Some? &&
      Step(st, raw, false).events == [] &&
      Step(st, raw, true).events == [ProgressMsg(ParseFloat(MatchProgress(line).value).value)]
  {
    var line := TrimSpace(raw);
    if Step(st, raw, true) != Step(st, raw, false) {
      assert ProgressLine(line, true) != ProgressLine(line, false);
      assert PercentLine(line, true) != PercentLine(line, false);
    }
  }

  // ---------------------------------------------------------------------------
  // Whole lines as robocopy prints them

  /** Step on a line that TrimSpace leaves alone and that is not the header. */
  lemma StepOfPlainLine(st: ParserState, line: string, allowed: bool)
    requires line != [] && TrimSpace(line) == line && !IsSummaryHeader(line)
    ensures Step(st, line, allowed) ==
      if st.inSummary then StepResult(st.(stats := SummaryLine(st.stats, line)), [])
      else StepResult(st, ProgressLine(line, allowed))
  {
  }

  lemma WordsInOrderStartsWithFirst(s: string, words: seq<string>)
    requires |words| > 0 && WordsInOrder(s, words)
    ensures StartsWith(s, words[0])
  {
  }

  /** The header starts with "Total" after its leading `\s*`. */
  lemma HeaderStartsWithTotal(line: string)
    requires IsSummaryHeader(line)
    ensures var t := SkipReSpace(line); t != [] && t[0] == 'T'
  {
    var t := SkipReSpace(line);
    WordsInOrderStartsWithFirst(t, HeaderColumns);
    assert HeaderColumns[0] == "Total";
    assert t[..5] == "Total";
    assert t[0] == t[..5][0];
  }

  /** A line that does not start with "Total" (after `\s*`) is not the header. */
  lemma NotHeader(line: string)
    requires var t := SkipReSpace(line); t != [] && t[0] != 'T'
    ensures !IsSummaryHeader(line)
  {
    if IsSummaryHeader(line) {
      HeaderStartsWithTotal(line);
    }
  }

  /** A line that starts with a character other than white space starts after `\s*` too. */
  lemma SkipNothing(line: string)
    requires line != [] && !IsReSpace(line[0])
    ensures SkipReSpace(line) == line
  {
    assert ReSpaceRun(line) == 0;
  }

  /** A row whose keyword starts with neither white space nor 'T' is not the header. */
  lemma RowNotHeader(keyword: string, pre: string, post: string, rest: string)
    requires |keyword| > 0 && !IsReSpace(keyword[0]) && keyword[0] != 'T'
    ensures !IsSummaryHeader(RowText(keyword, pre, post, rest))
  {
    var line := RowText(keyword, pre, post, rest);
    assert line == keyword + (pre + ":" + post + rest);
    SkipNothing(line);
    NotHeader(line);
  }

  /** In summary mode, a trimmed Dirs line sets the directory row to its counts. */
  lemma DirsStep(st: ParserState, line: string, nums: seq<string>, allowed: bool)
    requires st.inSummary
    requires line != [] && TrimSpace(line) == line && !IsSummaryHeader(line)
    requires MatchDirs(line) == Some(nums)
    ensures var r := Step(st, line, allowed);
      r.events == [] && r.state.inSummary &&
      forall k, f | 0 <= k < 6 :: Column(r.state.stats, k).Get(f) ==
        if f == DirsField then Atoi(nums[k]) else Column(st.stats, k).Get(f)
  {
    StepOfPlainLine(st, line, allowed);
    SummaryDirs(st.stats, line, nums);
  }

  /** A raw line is handled as the text TrimSpace leaves of it. */
  lemma StepOfTrimmed(st: ParserState, raw: string, line: string, allowed: bool)
    requires TrimSpace(raw) == line && TrimSpace(line) == line
    ensures Step(st, raw, allowed) == Step(st, line, allowed)
  {
  }

  /** A summary row's text "<keyword>\s*:\s*<rest>", without the leading white space. */
  function RowText(keyword: string, pre: string, post: string, rest: string): string {
    Labelled([], keyword, pre, post, rest)
  }

  /** White space around a row whose text starts with a letter and ends with `last` is trimmed away. */
  lemma RowTrimmed(raw: string, lead: string, keyword: string, pre: string, post: string, rest: string, trail: string)
    requires AllSpace(lead) && AllSpace(trail) && |keyword| > 0 && !IsSpace(keyword[0])
    requires rest != [] && !IsSpace(rest[|rest| - 1])
    requires raw == lead + RowText(keyword, pre, post, rest) + trail
    ensures var line := RowText(keyword, pre, post, rest);
      line != [] && line[0] == keyword[0] && TrimSpace(raw) == line && TrimSpace(line) == line
  {
    var line := RowText(keyword, pre, post, rest);
    assert line == keyword + (pre + ":" + post + rest);
    assert line[0] == keyword[0] && line[|line| - 1] == rest[|rest| - 1];
    TrimSpaceOfPadded(lead, line, trail);
    TrimSpaceNoOp(line);
  }

  /** In summary mode, a Dirs row with any white space around and inside it sets the directory
      counts to its six numbers and changes nothing else. */
  lemma DirsRow(st: ParserState, raw: string, lead: string, pre: string, post: string,
                nums: seq<string>, gaps: seq<string>, trail: string, allowed: bool)
    requires st.inSummary
    requires AllSpace(lead) && AllSpace(trail) && AllReSpace(pre) && AllReSpace(post)
    requires |nums| == 6 && |gaps| == 5 && AllGaps(gaps)
    requires forall i | 0 <= i < 6 :: nums[i] != [] && AllDigits(nums[i])
    requires raw == lead + RowText("Dirs", pre, post, Joined(nums, gaps)) + trail
    ensures var r := Step(st, raw, allowed);
      r.events == [] && r.state.inSummary &&
      (forall k, f | 0 <= k < 6 :: Column(r.state.stats, k).Get(f) ==
        if f == DirsField then Atoi(nums[k]) else Column(st.stats, k).Get(f)) &&
      r.state.stats.bytesPerSec == st.stats.bytesPerSec &&
      r.state.stats.megaBytesPerMin == st.stats.megaBytesPerMin &&
      r.state.stats.duration == st.stats.duration && r.state.stats.exitCode == st.stats.exitCode
  {
    var line := RowText("Dirs", pre, post, Joined(nums, gaps));
    DirsRowMatched(raw, lead, pre, post, nums, gaps, trail);
    StepOfTrimmed(st, raw, line, allowed);
    DirsStep(st, line, nums, allowed);
    SummaryDirs(st.stats, line, nums);
  }

  /** A Dirs row with white space around it is trimmed to a row that reDirs matches and that is
      not the header. */
  lemma DirsRowMatched(raw: string, lead: string, pre: string, post: string,
                       nums: seq<string>, gaps: seq<string>, trail: string)
    requires AllSpace(lead) && AllSpace(trail) && AllReSpace(pre) && AllReSpace(post)
    requires |nums| == 6 && |gaps| == 5 && AllGaps(gaps)
    requires forall i | 0 <= i < 6 :: nums[i] != [] && AllDigits(nums[i])
    requires raw == lead + RowText("Dirs", pre, post, Joined(nums, gaps)) + trail
    ensures var line := RowText("Dirs", pre, post, Joined(nums, gaps));
      line != [] && TrimSpace(raw) == line && TrimSpace(line) == line &&
      !IsSummaryHeader(line) && MatchDirs(line) == Some(nums)
  {
    assert forall i | 0 <= i < 6 :: IsNumeral(nums[i]);
    JoinedLast(nums, gaps);
    RowTrimmed(raw, lead, "Dirs", pre, post, Joined(nums, gaps), trail);
    RowNotHeader("Dirs", pre, post, Joined(nums, gaps));
    MatchDirsOfRow([], pre, post, nums, gaps);
  }

  /** parseByteValue reads what reBytes captures as it reads the size itself: the white space
      `\s*` keeps after a number without a unit is trimmed away. */
  lemma CaptureValue(zs: seq<SizeText>, gaps: seq<string>, k: nat)
    requires |zs| >= 1 && |gaps| == |zs| - 1 && k < |zs|
    requires AllWellFormed(zs) && AllGaps(gaps)
    ensures ParseByteValue(CaptureOf(zs, gaps, k)) == ParseByteValue(SizeString(zs[k]))
  {
    var z := zs[k];
    assert WellFormedSize(z);
    if k < |zs| - 1 && z.unit.None? && gaps[k] != [] {
      var g := gaps[k];
      assert IsGap(g);
      var trail := g[..|g| - 1];
      assert AllSpace(trail) by {
        forall i | 0 <= i < |trail| ensures IsSpace(trail[i]) { assert trail[i] == g[i] && IsReSpace(g[i]); }
      }
      assert DecimalChar(z.number[0]) && !IsSpace(z.number[0]);
      TrimSpaceDropsTrail(z.number, trail);
    }
  }

  /** A Bytes row is not the header, and reBytes matches it with the captures of its sizes. */
  lemma BytesRowMatched(pre: string, post: string, zs: seq<SizeText>, gaps: seq<string>)
    requires AllReSpace(pre) && AllReSpace(post)
    requires |zs| == 6 && |gaps| == 5 && AllGaps(gaps) && AllWellFormed(zs)
    ensures var line := RowText("Bytes", pre, post, Joined(SizeStrings(zs), gaps));
      !IsSummaryHeader(line) && MatchBytes(line) == Some(SizeCaptures(zs, gaps))
  {
    RowNotHeader("Bytes", pre, post, Joined(SizeStrings(zs), gaps));
    MatchBytesOfRow([], pre, post, zs, gaps);
  }

  /** A Bytes row with white space around it is trimmed to the row. */
  lemma BytesRowTrimmed(raw: string, lead: string, pre: string, post: string,
                        zs: seq<SizeText>, gaps: seq<string>, trail: string)
    requires AllSpace(lead) && AllSpace(trail)
    requires |zs| == 6 && |gaps| == 5 && AllWellFormed(zs)
    requires raw == lead + RowText("Bytes", pre, post, Joined(SizeStrings(zs), gaps)) + trail
    ensures var line := RowText("Bytes", pre, post, Joined(SizeStrings(zs), gaps));
      line != [] && TrimSpace(raw) == line && TrimSpace(line) == line
  {
    var j := Joined(SizeStrings(zs), gaps);
    assert j != [] && !IsSpace(j[|j| - 1]) by {
      var x := SizeStrings(zs)[5];
      assert WellFormedSize(zs[5]) && x == SizeString(zs[5]);
      assert x != [] && !IsSpace(x[|x| - 1]);
      JoinedLast(SizeStrings(zs), gaps);
    }
    RowTrimmed(raw, lead, "Bytes", pre, post, j, trail);
  }

  /** In summary mode, a Bytes row sets each byte count to the parseByteValue of its size, with
      any white space around the sizes and between a number and its unit. */
  lemma BytesRow(st: ParserState, raw: string, lead: string, pre: string, post: string,
                 zs: seq<SizeText>, gaps: seq<string>, trail: string, allowed: bool)
    requires st.inSummary
    requires AllSpace(lead) && AllSpace(trail) && AllReSpace(pre) && AllReSpace(post)
    requires |zs| == 6 && |gaps| == 5 && AllGaps(gaps) && AllWellFormed(zs)
    requires raw == lead + RowText("Bytes", pre, post, Joined(SizeStrings(zs), gaps)) + trail
    ensures var r := Step(st, raw, allowed);
      r.events == [] && r.state.inSummary &&
      (forall k, f | 0 <= k < 6 :: Column(r.state.stats, k).Get(f) ==
        if f == BytesField then ParseByteValue(SizeString(zs[k])) else Column(st.stats, k).Get(f)) &&
      r.state.stats.bytesPerSec == st.stats.bytesPerSec &&
      r.state.stats.megaBytesPerMin == st.stats.megaBytesPerMin &&
      r.state.stats.duration == st.stats.duration && r.state.stats.exitCode == st.stats.exitCode
  {
    var line := RowText("Bytes", pre, post, Joined(SizeStrings(zs), gaps));
    var g := SizeCaptures(zs, gaps);
    BytesRowMatched(pre, post, zs, gaps);
    BytesRowTrimmed(raw, lead, pre, post, zs, gaps, trail);
    StepOfTrimmed(st, raw, line, allowed);
    StepOfPlainLine(st, line, allowed);
    SummaryBytes(st.stats, line, g);
    forall k | 0 <= k < 6 ensures ParseByteValue(g[k]) == ParseByteValue(SizeString(zs[k])) {
      CaptureValue(zs, gaps, k);
    }
  }

  lemma FileLineKeyword(line: string)
    requires MatchFileCopying(line).Some?
    ensures var t := SkipReSpace(line); StartsWith(t, "New File") || StartsWith(t, "File")
  {
  }

  /** A file-copy line is never the header: it starts with 'N' or 'F', not 'T'. */
  lemma FileLineIsNotHeader(line: string)
    requires MatchFileCopying(line).Some?
    ensures !IsSummaryHeader(line)
  {
    var t := SkipReSpace(line);
    FileLineKeyword(line);
    if StartsWith(t, "New File") { assert t[0] == t[..8][0]; } else { assert t[0] == t[..4][0]; }
    NotHeader(line);
  }

  /** Before the summary, a trimmed file-copy line sends that file. */
  lemma FileStep(st: ParserState, line: string, size: string, name: string, allowed: bool)
    requires !st.inSummary
    requires line != [] && TrimSpace(line) == line
    requires MatchFileCopying(line) == Some(FileCopy(size, name))
    ensures Step(st, line, allowed) == StepResult(st, [FileMsg(UpdateMsg(name, ParseByteValue(size), 0.0))])
  {
    FileLineIsNotHeader(line);
    StepOfPlainLine(st, line, allowed);
  }

  /** A file name as the end of a "New File" line: it does not start with `\s`, holds no line
      break, and does not end with white space, which TrimSpace would remove. */
  predicate PlainName(name: string) {
    name != [] && !IsReSpace(name[0]) && '\n' !in name && !IsSpace(name[|name| - 1])
  }

  /** The text of a "New File" line: the keyword, a gap, the size, a gap, the name. */
  function NewFileText(g1: string, size: string, g2: string, name: string): string {
    "New File" + g1 + size + g2 + name
  }

  /** A "New File" line with white space around it is trimmed to a file-copy line with that
      size and name. */
  lemma NewFileLineShape(raw: string, lead: string, g1: string, size: string, g2: string, name: string, trail: string)
    requires AllSpace(lead) && AllSpace(trail) && IsGap(g1) && IsGap(g2) && IsNumeral(size) && PlainName(name)
    requires raw == lead + NewFileText(g1, size, g2, name) + trail
    ensures var line := NewFileText(g1, size, g2, name);
      line != [] && TrimSpace(raw) == line && TrimSpace(line) == line &&
      MatchFileCopying(line) == Some(FileCopy(size, name))
  {
    var line := NewFileText(g1, size, g2, name);
    assert line != [] && TrimSpace(raw) == line && TrimSpace(line) == line by {
      assert line == "New File" + (g1 + size + g2 + name);
      assert line[0] == 'N' && line[|line| - 1] == name[|name| - 1];
      TrimSpaceOfPadded(lead, line, trail);
      TrimSpaceNoOp(line);
    }
    assert MatchFileCopying(line) == Some(FileCopy(size, name)) by {
      MatchFileCopyingOfLine([], "New File", g1, size, g2, name);
      var empty: string := [];
      assert empty + "New File" == "New File";
    }
  }

  /** A "New File" line sends the file with its size and 0%, before the summary. */
  lemma NewFileLine(st: ParserState, raw: string, lead: string, g1: string, size: string, g2: string,
                    name: string, trail: string, allowed: bool)
    requires !st.inSummary
    requires AllSpace(lead) && AllSpace(trail) && IsGap(g1) && IsGap(g2) && IsNumeral(size) && PlainName(name)
    requires raw == lead + NewFileText(g1, size, g2, name) + trail
    ensures Step(st, raw, allowed) == StepResult(st, [FileMsg(UpdateMsg(name, ParseByteValue(size), 0.0))])
  {
    var line := NewFileText(g1, size, g2, name);
    NewFileLineShape(raw, lead, g1, size, g2, name, trail);
    StepOfTrimmed(st, raw, line, allowed);
    FileStep(st, line, size, name, allowed);
  }

  lemma DigitsAreNoFileLine(digits: string)
    requires IsNumeral(digits)
    ensures MatchFileCopying(digits + "%").None?
  {
    var line := digits + "%";
    assert line[0] == digits[0];
    assert ReSpaceRun(line) == 0;
    assert SkipReSpace(line) == line;
  }

  lemma PercentOfDigits(digits: string)
    requires IsNumeral(digits)
    ensures PercentLine(digits + "%", true) == [ProgressMsg(DecimalValue(digits) as real)]
  {
    MatchProgressOfPercent(digits);
  }

  /** A line that starts with a digit and ends with '%' is trimmed and is not the header. */
  lemma DigitLineShape(line: string)
    requires line != [] && IsDigit(line[0]) && line[|line| - 1] == '%'
    ensures TrimSpace(line) == line && !IsSummaryHeader(line)
  {
    TrimSpaceNoOp(line);
    SkipNothing(line);
    NotHeader(line);
  }

  /** "<digits>%" is a trimmed line that is neither the header nor a file-copy line. */
  lemma PercentLineShape(line: string, digits: string)
    requires IsNumeral(digits)
    requires line == digits + "%"
    ensures line != [] && TrimSpace(line) == line && !IsSummaryHeader(line)
    ensures MatchFileCopying(line).None?
  {
    assert line[0] == digits[0] && line[|line| - 1] == '%';
    DigitLineShape(line);
    DigitsAreNoFileLine(digits);
  }

  /** "<digits>%" before the summary sends that percentage when the limiter allows it. */
  lemma PercentLineOf(st: ParserState, line: string, digits: string)
    requires !st.inSummary
    requires IsNumeral(digits)
    requires line == digits + "%"
    ensures Step(st, line, true) == StepResult(st, [ProgressMsg(DecimalValue(digits) as real)])
  {
    PercentLineShape(line, digits);
    PercentOfDigits(digits);
    StepOfPlainLine(st, line, true);
  }

  /** Two lines that each send one message and leave the state alone send both, in order. */
  lemma ParseTwoQuiet(st: ParserState, first: string, second: string, a: bool, b: bool, e1: Msg, e2: Msg)
    requires Step(st, first, a) == StepResult(st, [e1])
    requires Step(st, second, b) == StepResult(st, [e2])
    ensures ParseLines(st, [first, second], [a, b]) == StepResult(st, [e1, e2])
  {
    ParseLinesTwo(st, first, second, a, b);
    assert [e1] + [e2] == [e1, e2];
  }

  /** A two-line stream: the first line's step, then the second's from the state it leaves. */
  lemma ParseLinesTwo(st: ParserState, first: string, second: string, a: bool, b: bool)
    ensures var r1 := Step(st, first, a);
      var r2 := Step(r1.state, second, b);
      ParseLines(st, [first, second], [a, b]) == StepResult(r2.state, r1.events + r2.events)
  {
    var r1 := Step(st, first, a);
    var r2 := Step(r1.state, second, b);
    assert [first] + [second] == [first, second] && [a] + [b] == [a, b];
    ParseLinesCons(st, first, [second], a, [b]);
    ParseLinesCons(r1.state, second, [], b, []);
    assert [second] + [] == [second] && [b] + [] == [b];
    assert r2.events + [] == r2.events;
  }

  /** ParseLines on a stream that starts with one line: that line's step, then the rest. */
  lemma ParseLinesCons(st: ParserState, line: string, lines: seq<string>, a: bool, allow: seq<bool>)
    requires |allow| == |lines|
    ensures var first := Step(st, line, a);
      var rest := ParseLines(first.state, lines, allow);
      ParseLines(st, [line] + lines, [a] + allow) == StepResult(rest.state, first.events + rest.events)
  {
    assert ([line] + lines)[0] == line && ([line] + lines)[1..] == lines;
    assert ([a] + allow)[0] == a && ([a] + allow)[1..] == allow;
  }

  lemma Hundred()
    ensures IsNumeral("100") && DecimalValue("100") == 100
  {
    assert "100"[..2] == "10" && "10"[..1] == "1" && "1"[..0] == [];
  }

  /** "New File <size> <name>" then "100%" sends the file and then 100%. */
  lemma FileThenFull(st: ParserState, fileLine: string, lead: string, g1: string, size: string, g2: string,
                     name: string, trail: string, a: bool)
    requires !st.inSummary
    requires AllSpace(lead) && AllSpace(trail) && IsGap(g1) && IsGap(g2) && IsNumeral(size) && PlainName(name)
    requires fileLine == lead + NewFileText(g1, size, g2, name) + trail
    ensures ParseLines(st, [fileLine, "100%"], [a, true]) ==
      StepResult(st, [FileMsg(UpdateMsg(name, DecimalValue(size), 0.0)), ProgressMsg(100.0)])
  {
    FileLineOfDigits(st, fileLine, lead, g1, size, g2, name, trail, a);
    FullLine(st);
    ParseTwoQuiet(st, fileLine, "100%", a, true, FileMsg(UpdateMsg(name, DecimalValue(size), 0.0)), ProgressMsg(100.0));
  }

  /** A "New File" line with a digit-only size reports exactly that many bytes. */
  lemma FileLineOfDigits(st: ParserState, fileLine: string, lead: string, g1: string, size: string, g2: string,
                         name: string, trail: string, a: bool)
    requires !st.inSummary
    requires AllSpace(lead) && AllSpace(trail) && IsGap(g1) && IsGap(g2) && IsNumeral(size) && PlainName(name)
    requires fileLine == lead + NewFileText(g1, size, g2, name) + trail
    ensures Step(st, fileLine, a) == StepResult(st, [FileMsg(UpdateMsg(name, DecimalValue(size), 0.0))])
  {
    NewFileLine(st, fileLine, lead, g1, size, g2, name, trail, a);
    ParseByteValueOfDigits(size);
  }

  /** "100%" before the summary sends a 100 percent report when allowed. */
  lemma FullLine(st: ParserState)
    requires !st.inSummary
    ensures Step(st, "100%", true) == StepResult(st, [ProgressMsg(100.0)])
  {
    Hundred();
    PercentLineOf(st, "100%", "100");
  }

  /** From the robocopy output of one file to the UI: "New File <size> <name>" then "100%"
      makes the UI count that file once and exactly its size in bytes. */
  lemma FileCopiedEndToEnd(st: ParserState, m: Model, fileLine: string, lead: string, g1: string, size: string,
                           g2: string, name: string, trail: string, a: bool)
    requires !st.inSummary
    requires AllSpace(lead) && AllSpace(trail) && IsGap(g1) && IsGap(g2) && IsNumeral(size) && PlainName(name)
    requires fileLine == lead + NewFileText(g1, size, g2, name) + trail
    ensures var events := ParseLines(st, [fileLine, "100%"], [a, true]).events;
      Run(m, events).copiedBytes == m.copiedBytes + DecimalValue(size) &&
      Run(m, events).copiedFiles == m.copiedFiles + 1
  {
    FileThenFull(st, fileLine, lead, g1, size, g2, name, trail, a);
    FileReportedComplete(m, UpdateMsg(name, DecimalValue(size), 0.0));
  }

  /** As written, nothing sends the end-of-copy tick: a copy's output sends only file and
      progress messages, so the UI never shows the copy as completed and only "q" ends it. */
  lemma CopyNeverCompleted(m: Model, st: ParserState, lines: seq<string>, allow: seq<bool>)
    requires |allow| == |lines| && !m.copyFinished
    ensures StatusLine(Run(m, ParseLines(st, lines, allow).events)) != Completed
  {
    var events := ParseLines(st, lines, allow).events;
    assert forall i | 0 <= i < |events| :: events[i] != TickMsg by {
      forall i | 0 <= i < |events| ensures events[i] != TickMsg { assert events[i] in events; }
    }
    NoTickNeverCompleted(m, events);
  }

  /** The messages of a copy with the end-of-copy tick sent once robocopy's output is read. */
  function CopyMessagesIntended(st: ParserState, lines: seq<string>, allow: seq<bool>): (msgs: seq<Msg>)
    requires |allow| == |lines|
    ensures |msgs| > 0 && msgs[|msgs| - 1] == TickMsg
    ensures msgs[..|msgs| - 1] == ParseLines(st, lines, allow).events
  {
    ParseLines(st, lines, allow).events + [TickMsg]
  }

  /** With the tick sent, every copy ends with the UI showing it as completed. */
  lemma CopyCompletesIntended(m: Model, st: ParserState, lines: seq<string>, allow: seq<bool>)
    requires |allow| == |lines|
    ensures StatusLine(Run(m, CopyMessagesIntended(st, lines, allow))) == Completed
  {
    var events := ParseLines(st, lines, allow).events;
    RunAppend(m, events, [TickMsg]);
    CompletedAfterTick(Run(m, events), []);
  }
}

=== FILE: patterns.dfy ===
/**
 * Hand-written recognisers for the regular expressions of utils.go (lines 50-60). Each returns
 * the submatches Go's RE2 reports under leftmost-first matching, where `\s` is `[\t\n\f\r ]`,
 * `\d` is `[0-9]` and `.` is any character but '\n'.
 */
module Patterns {
  import opened Outcomes
  import opened Text

  /** A possibly empty run of `\s`, as `\s*` matches. */
  predicate AllReSpace(g: string) {
    forall k | 0 <= k < |g| :: IsReSpace(g[k])
  }

  /** Length of the leading run of `\s`. */
  function ReSpaceRun(s: string): (n: nat)
    ensures n <= |s|
    ensures n == |s| || !IsReSpace(s[n])
    ensures AllReSpace(s[..n])
    decreases |s|
  {
    if |s| == 0 || !IsReSpace(s[0]) then 0 else 1 + ReSpaceRun(s[1..])
  }

  /** What `\s*` leaves. */
  function SkipReSpace(s: string): (r: string)
    ensures |r| <= |s|
    ensures r == [] || !IsReSpace(r[0])
  {
    s[ReSpaceRun(s)..]
  }

  /** Length of the leading run of `[0-9.]`. */
  function NumDotRun(s: string): (n: nat)
    ensures n <= |s|
    ensures forall k | 0 <= k < n :: DecimalChar(s[k])
    decreases |s|
  {
    if |s| == 0 || !DecimalChar(s[0]) then 0 else 1 + NumDotRun(s[1..])
  }

  /** A non-empty string of decimal digits, as `(\d+)` captures. */
  predicate IsNumeral(s: string) {
    |s| > 0 && AllDigits(s)
  }

  /** `^\s*<keyword>\s*:\s*`: what follows the colon and its white space. */
  function AfterLabel(line: string, keyword: string): (r: Option<string>)
    ensures r.Some? ==> |r.value| < |line| && (r.value == [] || !IsReSpace(r.value[0]))
  {
    var t := SkipReSpace(line);
    if !StartsWith(t, keyword) then None
    else
      var u := SkipReSpace(t[|keyword|..]);
      if |u| > 0 && u[0] == ':' then Some(SkipReSpace(u[1..])) else None
  }

  /** k groups `(\d+)` separated by `\s+`. */
  function IntGroups(s: string, k: nat): (r: Option<seq<string>>)
    requires k >= 1
    ensures r.Some? ==> |r.value| == k && forall i | 0 <= i < k :: IsNumeral(r.value[i])
    decreases k
  {
    var d := DigitRun(s);
    if d == 0 then None
    else if k == 1 then Some([s[..d]])
    else
      var rest := s[d..];
      if |rest| > 0 && IsReSpace(rest[0]) then
        match IntGroups(SkipReSpace(rest), k - 1)
        case None => None
        case Some(g) =>
          var r := [s[..d]] + g;
          assert forall i | 1 <= i < k :: r[i] == g[i - 1];
          Some(r)
      else None
  }

  /** `[kmgKMG]` matches at s[i]. */
  predicate UnitAt(s: string, i: nat) {
    i < |s| && IsUnitLetter(s[i])
  }

  predicate IsUnitLetter(c: char) {
    c == 'k' || c == 'm' || c == 'g' || c == 'K' || c == 'M' || c == 'G'
  }

  /** k groups `([0-9.]+\s*[kmgKMG]?)` separated by `\s+`. A group that is not the last keeps
      all but one of the white space after its number when no unit letter follows. */
  function SizeGroups(s: string, k: nat): (r: Option<seq<string>>)
    requires k >= 1
    ensures r.Some? ==> |r.value| == k
    decreases k, 3
  {
    var n := NumDotRun(s);
    if n == 0 then None else GroupsAfterSpace(s, n, ReSpaceRun(s[n..]), k)
  }

  /** The groups after the number s[..n] and the w characters of white space that follow it:
      a unit letter next ends the first group. */
  function GroupsAfterSpace(s: string, n: nat, w: nat, k: nat): (r: Option<seq<string>>)
    requires k >= 1 && n + w <= |s|
    ensures r.Some? ==> |r.value| == k
    decreases k, 2
  {
    if UnitAt(s[n..], w) then GroupsAfterUnit(s, n + w + 1, k)
    else GroupsAfterNumber(s, n, w, k)
  }

  /** The groups when the first one ends with a unit letter at s[e - 1]. */
  function GroupsAfterUnit(s: string, e: nat, k: nat): (r: Option<seq<string>>)
    requires k >= 1 && e <= |s|
    ensures r.Some? ==> |r.value| == k
    decreases k, 1
  {
    if k == 1 then Some([s[..e]])
    else
      var rest := s[e..];
      if |rest| > 0 && IsReSpace(rest[0]) then
        match SizeGroups(SkipReSpace(rest), k - 1)
        case None => None
        case Some(g) => Some([s[..e]] + g)
      else None
  }

  /** The groups when the number s[..n] and w characters of white space are not followed by a
      unit letter: `\s*` gives one character back to the `\s+` before the next group. */
  function GroupsAfterNumber(s: string, n: nat, w: nat, k: nat): (r: Option<seq<string>>)
    requires k >= 1 && n + w <= |s|
    ensures r.Some? ==> |r.value| == k
    decreases k, 1
  {
    if k == 1 then Some([s[..n + w]])
    else if w > 0 then
      match SizeGroups(s[n + w..], k - 1)
      case None => None
      case Some(g) => Some([s[..n + w - 1]] + g)
    else None
  }

  /** The column names of the summary header, in order. */
  const HeaderColumns: seq<string> := ["Total", "Copied", "Skipped", "Mismatch", "FAILED", "Extras"]

  /** The words, in order, each after `\s+` but the first. */
  predicate WordsInOrder(s: string, words: seq<string>)
    decreases |words|
  {
    |words| == 0
    || (StartsWith(s, words[0])
        && (|words| == 1
            || (var rest := s[|words[0]|..];
                |rest| > 0 && IsReSpace(rest[0]) && WordsInOrder(SkipReSpace(rest), words[1..]))))
  }

  /** reSummaryStart: `^\s*Total\s+Copied\s+Skipped\s+Mismatch\s+FAILED\s+Extras`. */
  predicate IsSummaryHeader(line: string) {
    WordsInOrder(SkipReSpace(line), HeaderColumns)
  }

  /** reDirs: the six directory counts. */
  function MatchDirs(line: string): (r: Option<seq<string>>)
    ensures r.Some? ==> |r.value| == 6 && forall i | 0 <= i < 6 :: IsNumeral(r.value[i])
  {
    match AfterLabel(line, "Dirs")
    case None => None
    case Some(rest) => IntGroups(rest, 6)
  }

  /** reFiles: the six file counts. */
  function MatchFiles(line: string): (r: Option<seq<string>>)
    ensures r.Some? ==> |r.value| == 6 && forall i | 0 <= i < 6 :: IsNumeral(r.value[i])
  {
    match AfterLabel(line, "Files")
    case None => None
    case Some(rest) => IntGroups(rest, 6)
  }

  /** reBytes: the six size texts. */
  function MatchBytes(line: string): (r: Option<seq<string>>)
    ensures r.Some? ==> |r.value| == 6
  {
    match AfterLabel(line, "Bytes")
    case None => None
    case Some(rest) => SizeGroups(rest, 6)
  }

  /** reSpeedBytes: `^\s*Speed\s*:\s*(\d+)\s*Bytes\/sec`. */
  function MatchSpeedBytes(line: string): (r: Option<string>)
    ensures r.Some? ==> IsNumeral(r.value)
  {
    match AfterLabel(line, "Speed")
    case None => None
    case Some(u) =>
      var d := DigitRun(u);
      if d > 0 && StartsWith(SkipReSpace(u[d..]), "Bytes/sec") then Some(u[..d]) else None
  }

  /** reSpeedMB: `^\s*Speed\s*:\s*([0-9.]+)\s*MegaBytes\/min`. */
  function MatchSpeedMB(line: string): (r: Option<string>)
    ensures r.Some? ==> |r.value| > 0 && AllDecimal(r.value)
  {
    match AfterLabel(line, "Speed")
    case None => None
    case Some(u) =>
      var n := NumDotRun(u);
      if n > 0 && StartsWith(SkipReSpace(u[n..]), "MegaBytes/min") then Some(u[..n]) else None
  }

  /** The two captures of reFileCopying: the size digits and the file name. */
  datatype FileCopy = FileCopy(size: string, name: string)

  /** `\s+(\d+)\s+(.+)` after the keyword. The name runs to the first '\n'. */
  function SizeAndName(u: string): (r: Option<FileCopy>)
    ensures r.Some? ==> IsNumeral(r.value.size) && |r.value.name| > 0 && '\n' !in r.value.name
  {
    if |u| == 0 || !IsReSpace(u[0]) then None
    else
      var v := SkipReSpace(u);
      var d := DigitRun(v);
      if d == 0 then None
      else match NameAfterGap(v[d..])
        case None => None
        case Some(name) => Some(FileCopy(v[..d], name))
  }

  /** `\s+(.+)`: the rest of the line after a non-empty run of white space. */
  function NameAfterGap(w: string): (r: Option<string>)
    ensures r.Some? ==> |r.value| > 0 && '\n' !in r.value
  {
    if |w| == 0 || !IsReSpace(w[0]) then None
    else
      var x := SkipReSpace(w);
      if x == [] then None
      else
        var n := match IndexOfChar(x, '\n') case Some(i) => i case None => |x|;
        Some(x[..n])
  }

  /** First index of c in s. */
  function IndexOfChar(s: string, c: char): (r: Option<nat>)
    ensures r.Some? ==> 0 < |s| && r.value < |s| && c !in s[..r.value]
    ensures r.None? ==> c !in s
    ensures r.Some? ==> s[r.value] == c
    ensures s != [] && s[0] != c && r.Some? ==> r.value > 0
    decreases |s|
  {
    if s == [] then None
    else if s[0] == c then Some(0)
    else match IndexOfChar(s[1..], c)
      case None => None
      case Some(i) =>
        assert s[..i + 1] == [s[0]] + s[1..][..i];
        Some(i + 1)
  }

  /** reFileCopying: `^\s*(?:New File|File)\s+(\d+)\s+(.+)`. */
  function MatchFileCopying(line: string): (r: Option<FileCopy>)
    ensures r.Some? ==> IsNumeral(r.value.size) && |r.value.name| > 0
  {
    var t := SkipReSpace(line);
    if StartsWith(t, "New File") then SizeAndName(t[8..])
    else if StartsWith(t, "File") then SizeAndName(t[4..])
    else None
  }

  /** The match of `(\d+\.\d+|\d+)%` that starts exactly at i, preferring the first alternative. */
  function ProgressAt(s: string, i: nat): (r: Option<string>)
    requires i <= |s|
    ensures r.Some? ==> |r.value| > 0 && AllDecimal(r.value)
  {
    var d := DigitRun(s[i..]);
    var j := i + d;
    if d == 0 then None
    else if j < |s| && s[j] == '.' then
      var f := DigitRun(s[j + 1..]);
      if f > 0 && j + 1 + f < |s| && s[j + 1 + f] == '%' then
        assert forall k | i <= k < j + 1 + f :: DecimalChar(s[k]) by {
          forall k | i <= k < j + 1 + f ensures DecimalChar(s[k]) {
            if k < j { assert s[k] == s[i..][..d][k - i]; }
            else if k > j { assert s[k] == s[j + 1..][..f][k - j - 1]; }
          }
        }
        Some(s[i..j + 1 + f])
      else None
    else if j < |s| && s[j] == '%' then
      assert forall k | i <= k < j :: s[k] == s[i..][..d][k - i];
      Some(s[i..j])
    else None
  }

  /** reFileProgress.FindStringSubmatch: the leftmost match at or after i. */
  function FindProgress(s: string, i: nat): (r: Option<string>)
    requires i <= |s|
    ensures r.Some? ==> |r.value| > 0 && AllDecimal(r.value)
    decreases |s| - i
  {
    if i == |s| then None
    else match ProgressAt(s, i)
      case Some(c) => Some(c)
      case None => FindProgress(s, i + 1)
  }

  /** reFileProgress on a whole line. */
  function MatchProgress(line: string): (r: Option<string>)
    ensures r.Some? ==> |r.value| > 0 && AllDecimal(r.value)
  {
    FindProgress(line, 0)
  }

  // ---------------------------------------------------------------------------
  // Lines as robocopy prints them are recognised with exactly their fields

  /** A non-empty run of `\s`, as `\s+` matches. */
  predicate IsGap(g: string) {
    |g| > 0 && AllReSpace(g)
  }

  /** Every separator is a gap. */
  predicate AllGaps(gaps: seq<string>) {
    forall i | 0 <= i < |gaps| :: IsGap(gaps[i])
  }

  /** The texts with gaps[i] between texts[i] and texts[i + 1]. */
  function Joined(texts: seq<string>, gaps: seq<string>): string
    requires |texts| >= 1 && |gaps| == |texts| - 1
    decreases |texts|
  {
    if |texts| == 1 then texts[0] else texts[0] + gaps[0] + Joined(texts[1..], gaps[1..])
  }

  lemma JoinedCons(texts: seq<string>, gaps: seq<string>)
    requires |texts| >= 2 && |gaps| == |texts| - 1
    ensures Joined(texts, gaps) == texts[0] + gaps[0] + Joined(texts[1..], gaps[1..])
  {
  }

  /** "<keyword>\s*:\s*<rest>" after leading white space, as the summary regexes expect. */
  function Labelled(lead: string, keyword: string, pre: string, post: string, rest: string): string {
    lead + keyword + pre + ":" + post + rest
  }

  lemma {:induction false} ReSpaceRunOfPad(g: string, x: string)
    requires AllReSpace(g) && (x == [] || !IsReSpace(x[0]))
    ensures ReSpaceRun(g + x) == |g|
    decreases |g|
  {
    if g == [] {
      assert g + x == x;
    } else {
      assert (g + x)[1..] == g[1..] + x;
      ReSpaceRunOfPad(g[1..], x);
    }
  }

  /** `\s*` consumes exactly a run of white space in front of a non-space. */
  lemma SkipPad(g: string, x: string)
    requires AllReSpace(g) && (x == [] || !IsReSpace(x[0]))
    ensures SkipReSpace(g + x) == x
  {
    ReSpaceRunOfPad(g, x);
    assert (g + x)[|g|..] == x;
  }

  lemma {:induction false} DigitRunOfDigits(w: string, rest: string)
    requires AllDigits(w)
    requires rest == [] || !IsDigit(rest[0])
    ensures DigitRun(w + rest) == |w|
    decreases |w|
  {
    if w != [] {
      assert (w + rest)[1..] == w[1..] + rest;
      DigitRunOfDigits(w[1..], rest);
    }
  }

  lemma {:induction false} NumDotRunOf(w: string, rest: string)
    requires AllDecimal(w)
    requires rest == [] || !DecimalChar(rest[0])
    ensures NumDotRun(w + rest) == |w|
    decreases |w|
  {
    if w == [] {
      assert w + rest == rest;
    } else {
      assert (w + rest)[1..] == w[1..] + rest;
      NumDotRunOf(w[1..], rest);
    }
  }

  lemma JoinedHead(texts: seq<string>, gaps: seq<string>)
    requires |texts| >= 1 && |gaps| == |texts| - 1 && texts[0] != []
    ensures Joined(texts, gaps) != [] && Joined(texts, gaps)[0] == texts[0][0]
  {
    if |texts| > 1 {
      assert Joined(texts, gaps) == texts[0] + (gaps[0] + Joined(texts[1..], gaps[1..]));
    }
  }

  lemma {:induction false} JoinedLast(texts: seq<string>, gaps: seq<string>)
    requires |texts| >= 1 && |gaps| == |texts| - 1 && texts[|texts| - 1] != []
    ensures var j := Joined(texts, gaps);
      j != [] && j[|j| - 1] == texts[|texts| - 1][|texts[|texts| - 1]| - 1]
    decreases |texts|
  {
    if |texts| > 1 {
      JoinedLast(texts[1..], gaps[1..]);
      assert Joined(texts, gaps) == (texts[0] + gaps[0]) + Joined(texts[1..], gaps[1..]);
    }
  }

  /** Words that each start with something other than `\s`. */
  predicate SolidWords(words: seq<string>) {
    forall i | 0 <= i < |words| :: words[i] != [] && !IsReSpace(words[i][0])
  }

  /** Words joined by gaps, with anything after them, are the words in order. */
  lemma {:induction false} WordsInOrderOfJoined(words: seq<string>, gaps: seq<string>, rest: string)
    requires |words| >= 1 && |gaps| == |words| - 1 && AllGaps(gaps) && SolidWords(words)
    ensures WordsInOrder(Joined(words, gaps) + rest, words)
    decreases |words|
  {
    var s := Joined(words, gaps) + rest;
    if |words| == 1 {
      assert s[..|words[0]|] == words[0];
    } else {
      var tail := Joined(words[1..], gaps[1..]) + rest;
      assert s == words[0] + (gaps[0] + tail);
      assert s[..|words[0]|] == words[0];
      assert s[|words[0]|..] == gaps[0] + tail;
      assert AllGaps(gaps[1..]) && SolidWords(words[1..]) by {
        assert forall i | 0 <= i < |gaps[1..]| :: gaps[1..][i] == gaps[i + 1];
        assert forall i | 0 <= i < |words[1..]| :: words[1..][i] == words[i + 1];
      }
      assert tail[0] == words[1][0] by { JoinedHead(words[1..], gaps[1..]); }
      assert SkipReSpace(gaps[0] + tail) == tail by { SkipPad(gaps[0], tail); }
      WordsInOrderOfJoined(words[1..], gaps[1..], rest);
    }
  }

  /** The same after leading `\s`, which the header pattern skips. */
  lemma WordsInOrderAfterLead(lead: string, words: seq<string>, gaps: seq<string>, rest: string)
    requires AllReSpace(lead) && |words| >= 1 && |gaps| == |words| - 1 && AllGaps(gaps) && SolidWords(words)
    ensures WordsInOrder(SkipReSpace(lead + Joined(words, gaps) + rest), words)
  {
    var j := Joined(words, gaps);
    assert j != [] && j[0] == words[0][0] by { JoinedHead(words, gaps); }
    assert lead + j + rest == lead + (j + rest);
    assert SkipReSpace(lead + (j + rest)) == j + rest by { SkipPad(lead, j + rest); }
    WordsInOrderOfJoined(words, gaps, rest);
  }

  lemma ColumnsAreSolid()
    ensures SolidWords(HeaderColumns)
  {
    assert HeaderColumns[0][0] == 'T' && HeaderColumns[1][0] == 'C' && HeaderColumns[2][0] == 'S';
    assert HeaderColumns[3][0] == 'M' && HeaderColumns[4][0] == 'F' && HeaderColumns[5][0] == 'E';
  }

  /** A line of the six column names, after any `\s` and separated by any gaps, starts the
      summary, whatever follows the last name. */
  lemma HeaderOfColumns(lead: string, gaps: seq<string>, rest: string)
    requires AllReSpace(lead) && |gaps| == 5 && AllGaps(gaps)
    ensures IsSummaryHeader(lead + Joined(HeaderColumns, gaps) + rest)
  {
    ColumnsAreSolid();
    WordsInOrderAfterLead(lead, HeaderColumns, gaps, rest);
  }

  lemma IntGroupsOfOne(w: string)
    requires IsNumeral(w)
    ensures IntGroups(w, 1) == Some([w])
  {
    DigitRunOfDigits(w, []);
    assert w + [] == w;
    assert w[..|w|] == w;
  }

  /** One numeral, a gap, and the remaining groups. */
  lemma IntGroupsStep(w: string, g: string, t: string, k: nat)
    requires IsNumeral(w) && IsGap(g) && k >= 2
    requires t != [] && IsDigit(t[0])
    ensures IntGroups(w + g + t, k) ==
      match IntGroups(t, k - 1) case None => None case Some(r) => Some([w] + r)
  {
    var s := w + g + t;
    assert s == w + (g + t);
    assert (g + t)[0] == g[0];
    DigitRunOfDigits(w, g + t);
    assert s[..|w|] == w;
    assert s[|w|..] == g + t;
    SkipPad(g, t);
  }

  /** Numerals separated by runs of white space come back as k `(\d+)` groups. */
  lemma {:induction false} IntGroupsOfJoined(nums: seq<string>, gaps: seq<string>, k: nat)
    requires k == |nums| && k >= 1 && |gaps| == k - 1
    requires forall i | 0 <= i < k :: IsNumeral(nums[i])
    requires AllGaps(gaps)
    ensures IntGroups(Joined(nums, gaps), k) == Some(nums)
    decreases k
  {
    if k == 1 {
      assert IsNumeral(nums[0]);
      assert nums == [nums[0]];
      IntGroupsOfOne(nums[0]);
    } else {
      NumeralsOfTail(nums);
      assert AllGaps(gaps[1..]) by {
        forall i | 0 <= i < |gaps[1..]| ensures IsGap(gaps[1..][i]) { assert gaps[1..][i] == gaps[i + 1]; }
      }
      IntGroupsOfJoined(nums[1..], gaps[1..], k - 1);
      IntGroupsCons(nums, gaps, k);
    }
  }

  /** The inductive step: a leading numeral and a gap in front of the groups of the rest. */
  lemma IntGroupsCons(nums: seq<string>, gaps: seq<string>, k: nat)
    requires k == |nums| && k >= 2 && |gaps| == k - 1
    requires forall i | 0 <= i < k :: IsNumeral(nums[i])
    requires AllGaps(gaps)
    requires IntGroups(Joined(nums[1..], gaps[1..]), k - 1) == Some(nums[1..])
    ensures IntGroups(Joined(nums, gaps), k) == Some(nums)
  {
    var w := nums[0];
    var tail := nums[1..];
    var t := Joined(tail, gaps[1..]);
    assert IsNumeral(w) && IsGap(gaps[0]);
    assert t != [] && IsDigit(t[0]) by {
      assert IsNumeral(nums[1]) && tail[0] == nums[1];
      JoinedHead(tail, gaps[1..]);
    }
    JoinedCons(nums, gaps);
    IntGroupsStep(w, gaps[0], t, k);
    assert [w] + tail == nums;
  }

  lemma NumeralsOfTail(nums: seq<string>)
    requires |nums| >= 1 && forall i | 0 <= i < |nums| :: IsNumeral(nums[i])
    ensures forall i | 0 <= i < |nums| - 1 :: IsNumeral(nums[1..][i])
  {
    forall i | 0 <= i < |nums| - 1 ensures IsNumeral(nums[1..][i]) { assert nums[1..][i] == nums[i + 1]; }
  }

  /** AfterLabel on "<keyword>\s*:\s*<rest>" after any leading white space returns the rest. */
  lemma LabelOf(lead: string, keyword: string, pre: string, post: string, rest: string)
    requires AllReSpace(lead) && AllReSpace(pre) && AllReSpace(post)
    requires |keyword| > 0 && !IsReSpace(keyword[0])
    requires rest == [] || !IsReSpace(rest[0])
    ensures AfterLabel(Labelled(lead, keyword, pre, post, rest), keyword) == Some(rest)
  {
    var z := post + rest;
    var y := ":" + z;
    var x := keyword + (pre + y);
    assert Labelled(lead, keyword, pre, post, rest) == lead + x;
    assert x[0] == keyword[0];
    assert SkipReSpace(lead + x) == x by { SkipPad(lead, x); }
    assert StartsWith(x, keyword) && x[|keyword|..] == pre + y;
    assert SkipReSpace(pre + y) == y by { SkipPad(pre, y); }
    assert y[1..] == z;
    assert SkipReSpace(z) == rest by { SkipPad(post, rest); }
  }

  /** A Dirs row, with any white space robocopy pads its columns with, yields its six numerals. */
  lemma MatchDirsOfRow(lead: string, pre: string, post: string, nums: seq<string>, gaps: seq<string>)
    requires AllReSpace(lead) && AllReSpace(pre) && AllReSpace(post)
    requires |nums| == 6 && |gaps| == 5 && AllGaps(gaps)
    requires forall i | 0 <= i < 6 :: IsNumeral(nums[i])
    ensures MatchDirs(Labelled(lead, "Dirs", pre, post, Joined(nums, gaps))) == Some(nums)
  {
    assert IsNumeral(nums[0]);
    JoinedHead(nums, gaps);
    LabelOf(lead, "Dirs", pre, post, Joined(nums, gaps));
    IntGroupsOfJoined(nums, gaps, 6);
  }

  /** A Files row yields its six numerals. */
  lemma MatchFilesOfRow(lead: string, pre: string, post: string, nums: seq<string>, gaps: seq<string>)
    requires AllReSpace(lead) && AllReSpace(pre) && AllReSpace(post)
    requires |nums| == 6 && |gaps| == 5 && AllGaps(gaps)
    requires forall i | 0 <= i < 6 :: IsNumeral(nums[i])
    ensures MatchFiles(Labelled(lead, "Files", pre, post, Joined(nums, gaps))) == Some(nums)
  {
    assert IsNumeral(nums[0]);
    JoinedHead(nums, gaps);
    LabelOf(lead, "Files", pre, post, Joined(nums, gaps));
    IntGroupsOfJoined(nums, gaps, 6);
  }

  /** One size as robocopy prints it in the Bytes row: a number, then optionally white space
      and a unit letter. */
  datatype SizeText = SizeText(number: string, pad: string, unit: Option<char>)

  predicate WellFormedSize(z: SizeText) {
    |z.number| > 0 && AllDecimal(z.number) &&
    AllReSpace(z.pad) && (z.unit.None? ==> z.pad == []) &&
    (z.unit.Some? ==> IsUnitLetter(z.unit.value))
  }

  predicate AllWellFormed(zs: seq<SizeText>) {
    forall i | 0 <= i < |zs| :: WellFormedSize(zs[i])
  }

  function SizeString(z: SizeText): string {
    match z.unit
    case None => z.number
    case Some(c) => z.number + z.pad + [c]
  }

  function SizeStrings(zs: seq<SizeText>): (r: seq<string>)
    ensures |r| == |zs| && forall i | 0 <= i < |zs| :: r[i] == SizeString(zs[i])
  {
    seq(|zs|, i requires 0 <= i < |zs| => SizeString(zs[i]))
  }

  /** What group i of reBytes captures on the sizes joined by the gaps: the size itself when it
      has a unit or is the last, and otherwise the number with all but the last character of the
      gap after it, since `\s*` takes all the white space that `\s+` can spare. */
  function CaptureOf(zs: seq<SizeText>, gaps: seq<string>, i: nat): string
    requires |zs| >= 1 && |gaps| == |zs| - 1 && i < |zs|
  {
    if i == |zs| - 1 || zs[i].unit.Some? || gaps[i] == [] then SizeString(zs[i])
    else zs[i].number + gaps[i][..|gaps[i]| - 1]
  }

  function SizeCaptures(zs: seq<SizeText>, gaps: seq<string>): (r: seq<string>)
    requires |zs| >= 1 && |gaps| == |zs| - 1
    ensures |r| == |zs| && forall i | 0 <= i < |zs| :: r[i] == CaptureOf(zs, gaps, i)
  {
    seq(|zs|, i requires 0 <= i < |zs| => CaptureOf(zs, gaps, i))
  }

  /** The captures of the tail are those of the whole, shifted by one. */
  lemma SizeCapturesCons(zs: seq<SizeText>, gaps: seq<string>)
    requires |zs| >= 2 && |gaps| == |zs| - 1
    ensures SizeCaptures(zs, gaps) == [CaptureOf(zs, gaps, 0)] + SizeCaptures(zs[1..], gaps[1..])
  {
    var r := SizeCaptures(zs, gaps);
    var t := SizeCaptures(zs[1..], gaps[1..]);
    forall i | 1 <= i < |zs| ensures r[i] == t[i - 1] {
      assert zs[1..][i - 1] == zs[i];
      if i < |zs| - 1 {
        assert gaps[1..][i - 1] == gaps[i];
      }
    }
  }

  lemma SizeStringsTail(zs: seq<SizeText>)
    requires |zs| >= 1
    ensures SizeStrings(zs)[1..] == SizeStrings(zs[1..])
  {
    var r := SizeStrings(zs);
    forall i | 0 <= i < |zs| - 1 ensures r[1..][i] == SizeStrings(zs[1..])[i] {
      assert zs[1..][i] == zs[i + 1];
    }
  }

  /** The number of a size ends where `[0-9.]+` stops. */
  lemma NumberRunOf(z: SizeText, x: string)
    requires WellFormedSize(z)
    requires x == [] || !DecimalChar(x[0])
    ensures NumDotRun(z.number + x) == |z.number|
  {
    NumDotRunOf(z.number, x);
  }

  /** The last group: `[0-9.]+\s*[kmgKMG]?` takes the whole size. */
  lemma {:induction false} SizeGroupsOfLast(z: SizeText)
    requires WellFormedSize(z)
    ensures SizeGroups(SizeString(z), 1) == Some([SizeString(z)])
  {
    var s := SizeString(z);
    match z.unit
    case None =>
      assert z.number + [] == s;
      NumberRunOf(z, []);
    case Some(c) =>
      var after := z.pad + [c];
      assert s == z.number + after;
      assert after[0] == if z.pad == [] then c else z.pad[0];
      NumberRunOf(z, after);
      assert s[|z.number|..] == after;
      assert ReSpaceRun(after) == |z.pad| by { ReSpaceRunOfPad(z.pad, [c]); }
      assert after[|z.pad|] == c;
      assert s[..|z.number| + |z.pad| + 1] == s;
  }

  /** SizeGroups after its first number run. */
  lemma {:induction false} SizeGroupsUnfold(s: string, n: nat, w: nat, k: nat)
    requires k >= 1 && 0 < n == NumDotRun(s) && w == ReSpaceRun(s[n..])
    ensures SizeGroups(s, k) == GroupsAfterSpace(s, n, w, k)
  {
  }

  /** A unit letter after the number and its white space ends the first group. */
  lemma {:induction false} GroupsAfterSpaceUnit(s: string, n: nat, w: nat, k: nat)
    requires k >= 1 && n + w <= |s| && UnitAt(s[n..], w)
    ensures GroupsAfterSpace(s, n, w, k) == GroupsAfterUnit(s, n + w + 1, k)
  {
  }

  /** Without a unit letter there, the first group is the bare number. */
  lemma {:induction false} GroupsAfterSpaceBare(s: string, n: nat, w: nat, k: nat)
    requires k >= 1 && n + w <= |s| && !UnitAt(s[n..], w)
    ensures GroupsAfterSpace(s, n, w, k) == GroupsAfterNumber(s, n, w, k)
  {
  }

  /** The groups when the first one ends with a unit letter followed by white space. */
  lemma {:induction false} GroupsAfterSpaceWithUnit(s: string, n: nat, w: nat, k: nat, later: seq<string>)
    requires k >= 2 && n + w + 1 < |s| && UnitAt(s[n..], w) && IsReSpace(s[n + w + 1])
    requires SizeGroups(SkipReSpace(s[n + w + 1..]), k - 1) == Some(later)
    ensures GroupsAfterSpace(s, n, w, k) == Some([s[..n + w + 1]] + later)
  {
    GroupsAfterSpaceUnit(s, n, w, k);
    GroupsAfterUnitStep(s, n + w + 1, k, later);
  }

  lemma {:induction false} GroupsAfterUnitStep(s: string, e: nat, k: nat, later: seq<string>)
    requires k >= 2 && e < |s| && IsReSpace(s[e])
    requires SizeGroups(SkipReSpace(s[e..]), k - 1) == Some(later)
    ensures GroupsAfterUnit(s, e, k) == Some([s[..e]] + later)
  {
    assert s[e..][0] == s[e];
  }

  /** The groups when the first one has no unit letter and white space follows its number. */
  lemma {:induction false} GroupsAfterSpaceWithoutUnit(s: string, n: nat, w: nat, k: nat, later: seq<string>)
    requires k >= 2 && 0 < w && n + w < |s| && !IsUnitLetter(s[n + w])
    requires SizeGroups(s[n + w..], k - 1) == Some(later)
    ensures GroupsAfterSpace(s, n, w, k) == Some([s[..n + w - 1]] + later)
  {
    assert s[n..][w] == s[n + w];
    GroupsAfterSpaceBare(s, n, w, k);
    GroupsAfterNumberStep(s, n, w, k, later);
  }

  lemma {:induction false} GroupsAfterNumberStep(s: string, n: nat, w: nat, k: nat, later: seq<string>)
    requires k >= 2 && 0 < w && n + w <= |s|
    requires SizeGroups(s[n + w..], k - 1) == Some(later)
    ensures GroupsAfterNumber(s, n, w, k) == Some([s[..n + w - 1]] + later)
  {
  }

  /** Where the number, its pad and its unit letter sit in a size followed by white space. */
  lemma UnitShape(z: SizeText, rest: string)
    requires WellFormedSize(z) && z.unit.Some? && rest != [] && IsReSpace(rest[0])
    ensures var s := SizeString(z) + rest; var n := |z.number|; var w := |z.pad|;
      0 < n == NumDotRun(s) && w == ReSpaceRun(s[n..]) && UnitAt(s[n..], w) &&
      n + w + 1 < |s| && IsReSpace(s[n + w + 1]) && s[n + w + 1..] == rest &&
      s[..n + w + 1] == SizeString(z)
  {
    var c := z.unit.value;
    var after := z.pad + ([c] + rest);
    UnitSlices(z.number, z.pad, c, rest);
    assert NumDotRun(z.number + after) == |z.number| by {
      assert after[0] == if z.pad == [] then c else z.pad[0];
      NumberRunOf(z, after);
    }
    assert ReSpaceRun(after) == |z.pad| by { ReSpaceRunOfPad(z.pad, [c] + rest); }
  }

  /** The pieces of a size with a unit followed by more text. */
  lemma UnitSlices(number: string, pad: string, c: char, rest: string)
    requires rest != []
    ensures var s := number + pad + [c] + rest; var n := |number|; var w := |pad|;
      s == number + (pad + ([c] + rest)) && s[n..] == pad + ([c] + rest) &&
      (pad + ([c] + rest))[w] == c && n + w + 1 < |s| && s[n + w + 1] == rest[0] &&
      s[n + w + 1..] == rest && s[..n + w + 1] == number + pad + [c]
  {
    var s := number + pad + [c] + rest;
    assert s == (number + pad + [c]) + rest;
  }

  /** A group with a unit, then a gap: the group is the whole size and the gap is skipped. */
  lemma {:induction false} SizeGroupsUnitStep(z: SizeText, g: string, t: string, k: nat, later: seq<string>)
    requires WellFormedSize(z) && z.unit.Some? && IsGap(g) && k >= 2
    requires t != [] && !IsReSpace(t[0])
    requires SizeGroups(t, k - 1) == Some(later)
    ensures SizeGroups(SizeString(z) + g + t, k) == Some([SizeString(z)] + later)
  {
    var rest := g + t;
    var s := SizeString(z) + rest;
    assert SizeString(z) + g + t == s;
    var n := |z.number|;
    var w := |z.pad|;
    UnitShape(z, rest);
    assert SkipReSpace(rest) == t by { SkipPad(g, t); }
    assert SizeGroups(s, k) == GroupsAfterSpace(s, n, w, k) by { SizeGroupsUnfold(s, n, w, k); }
    GroupsAfterSpaceWithUnit(s, n, w, k, later);
  }

  /** The pieces of a + g + t, by position. */
  lemma ThreeSlices(a: string, g: string, t: string)
    requires |g| > 0
    ensures var s := a + g + t;
      s == a + (g + t) && s[|a|..] == g + t && s[|a| + |g|..] == t &&
      s[..|a| + |g| - 1] == a + g[..|g| - 1]
    ensures t != [] ==> |a| + |g| < |a + g + t| && (a + g + t)[|a| + |g|] == t[0]
  {
    var s := a + g + t;
    assert s == a + (g + t);
    assert s[|a|..] == g + t;
    assert s[|a| + |g|..] == t;
    assert s[..|a| + |g| - 1] == a + g[..|g| - 1];
  }

  /** Where the number and the gap after it sit in a size with no unit, the gap and more sizes. */
  lemma BareShape(z: SizeText, g: string, t: string)
    requires WellFormedSize(z) && z.unit.None? && IsGap(g) && t != [] && DecimalChar(t[0])
    ensures var s := SizeString(z) + g + t; var n := |z.number|; var w := |g|;
      0 < n == NumDotRun(s) && w == ReSpaceRun(s[n..]) && 0 < w && n + w < |s| &&
      !IsUnitLetter(s[n + w]) && s[n + w..] == t && s[..n + w - 1] == z.number + g[..|g| - 1]
  {
    assert SizeString(z) == z.number;
    ThreeSlices(z.number, g, t);
    assert NumDotRun(z.number + (g + t)) == |z.number| by {
      assert (g + t)[0] == g[0];
      NumberRunOf(z, g + t);
    }
    assert ReSpaceRun(g + t) == |g| by { ReSpaceRunOfPad(g, t); }
  }

  /** A group without a unit, then a gap: `\s*` keeps all of the gap but its last character. */
  lemma {:induction false} SizeGroupsBareStep(z: SizeText, g: string, t: string, k: nat, later: seq<string>)
    requires WellFormedSize(z) && z.unit.None? && IsGap(g) && k >= 2
    requires t != [] && DecimalChar(t[0])
    requires SizeGroups(t, k - 1) == Some(later)
    ensures SizeGroups(SizeString(z) + g + t, k) == Some([z.number + g[..|g| - 1]] + later)
  {
    var s := SizeString(z) + g + t;
    var n := |z.number|;
    var w := |g|;
    BareShape(z, g, t);
    assert SizeGroups(s, k) == GroupsAfterSpace(s, n, w, k) by { SizeGroupsUnfold(s, n, w, k); }
    GroupsAfterSpaceWithoutUnit(s, n, w, k, later);
  }

  /** The first group of joined sizes, in front of the groups of the rest. */
  lemma {:induction false} SizeGroupsCons(zs: seq<SizeText>, gaps: seq<string>, k: nat)
    requires k == |zs| && k >= 2 && |gaps| == k - 1
    requires AllWellFormed(zs)
    requires AllGaps(gaps)
    requires SizeGroups(Joined(SizeStrings(zs[1..]), gaps[1..]), k - 1) == Some(SizeCaptures(zs[1..], gaps[1..]))
    ensures SizeGroups(Joined(SizeStrings(zs), gaps), k) == Some(SizeCaptures(zs, gaps))
  {
    var z := zs[0];
    var t := Joined(SizeStrings(zs[1..]), gaps[1..]);
    assert WellFormedSize(z) && IsGap(gaps[0]);
    assert t != [] && t[0] == zs[1].number[0] by {
      assert WellFormedSize(zs[1]) && zs[1..][0] == zs[1];
      assert SizeString(zs[1])[0] == zs[1].number[0];
      JoinedHead(SizeStrings(zs[1..]), gaps[1..]);
    }
    assert DecimalChar(t[0]) && !IsReSpace(t[0]) by { assert WellFormedSize(zs[1]); }
    SizeStringsTail(zs);
    assert Joined(SizeStrings(zs), gaps) == SizeString(z) + gaps[0] + t;
    SizeCapturesCons(zs, gaps);
    var r := SizeCaptures(zs[1..], gaps[1..]);
    if z.unit.Some? {
      SizeGroupsUnitStep(z, gaps[0], t, k, r);
    } else {
      SizeGroupsBareStep(z, gaps[0], t, k, r);
    }
  }

  /** Sizes separated by runs of white space come back as k `([0-9.]+\s*[kmgKMG]?)` groups. */
  lemma {:induction false} SizeGroupsOfJoined(zs: seq<SizeText>, gaps: seq<string>, k: nat)
    requires k == |zs| && k >= 1 && |gaps| == k - 1
    requires AllWellFormed(zs)
    requires AllGaps(gaps)
    ensures SizeGroups(Joined(SizeStrings(zs), gaps), k) == Some(SizeCaptures(zs, gaps))
    decreases k
  {
    if k == 1 {
      assert WellFormedSize(zs[0]);
      SizeGroupsOfLast(zs[0]);
      assert SizeCaptures(zs, gaps) == [SizeString(zs[0])];
    } else {
      assert AllWellFormed(zs[1..]) by {
        forall i | 0 <= i < k - 1 ensures WellFormedSize(zs[1..][i]) { assert zs[1..][i] == zs[i + 1]; }
      }
      assert AllGaps(gaps[1..]) by {
        forall i | 0 <= i < |gaps[1..]| ensures IsGap(gaps[1..][i]) { assert gaps[1..][i] == gaps[i + 1]; }
      }
      SizeGroupsOfJoined(zs[1..], gaps[1..], k - 1);
      SizeGroupsCons(zs, gaps, k);
    }
  }

  /** A Bytes row, with any white space around its sizes and units, yields its six size texts,
      each as reBytes captures it. */
  lemma MatchBytesOfRow(lead: string, pre: string, post: string, zs: seq<SizeText>, gaps: seq<string>)
    requires AllReSpace(lead) && AllReSpace(pre) && AllReSpace(post)
    requires |zs| == 6 && |gaps| == 5 && AllGaps(gaps)
    requires AllWellFormed(zs)
    ensures MatchBytes(Labelled(lead, "Bytes", pre, post, Joined(SizeStrings(zs), gaps))) == Some(SizeCaptures(zs, gaps))
  {
    var j := Joined(SizeStrings(zs), gaps);
    assert j != [] && !IsReSpace(j[0]) by {
      assert WellFormedSize(zs[0]) && SizeString(zs[0])[0] == zs[0].number[0];
      JoinedHead(SizeStrings(zs), gaps);
    }
    LabelOf(lead, "Bytes", pre, post, j);
    SizeGroupsOfJoined(zs, gaps, 6);
  }

  lemma NameToEnd(name: string)
    requires name != [] && '\n' !in name
    ensures IndexOfChar(name, '\n').None?
  {
  }

  /** `\s+(.+)` on "<gap><name>". */
  lemma NameAfterGapOf(g: string, name: string)
    requires IsGap(g)
    requires name != [] && !IsReSpace(name[0]) && '\n' !in name
    ensures NameAfterGap(g + name) == Some(name)
  {
    assert (g + name)[0] == g[0];
    SkipPad(g, name);
    NameToEnd(name);
    assert name[..|name|] == name;
  }

  /** `\s+(\d+)\s+(.+)` on "<gap><size><gap><name>". */
  lemma SizeAndNameOf(g1: string, size: string, g2: string, name: string)
    requires IsGap(g1) && IsGap(g2) && IsNumeral(size)
    requires name != [] && !IsReSpace(name[0]) && '\n' !in name
    ensures SizeAndName(g1 + size + g2 + name) == Some(FileCopy(size, name))
  {
    var w := g2 + name;
    var v := size + w;
    assert g1 + size + g2 + name == g1 + v;
    assert v[0] == size[0] && !IsReSpace(size[0]);
    assert SkipReSpace(g1 + v) == v by { SkipPad(g1, v); }
    assert w[0] == g2[0] && !IsDigit(w[0]);
    assert DigitRun(v) == |size| by { DigitRunOfDigits(size, w); }
    assert v[..|size|] == size && v[|size|..] == w;
    assert NameAfterGap(w) == Some(name) by { NameAfterGapOf(g2, name); }
  }

  /** A "New File" or "File" line, with any white space around its fields, yields its size and name. */
  lemma MatchFileCopyingOfLine(lead: string, keyword: string, g1: string, size: string, g2: string, name: string)
    requires keyword == "New File" || keyword == "File"
    requires AllReSpace(lead) && IsGap(g1) && IsGap(g2) && IsNumeral(size)
    requires name != [] && !IsReSpace(name[0]) && '\n' !in name
    ensures MatchFileCopying(lead + keyword + g1 + size + g2 + name) == Some(FileCopy(size, name))
  {
    var u := g1 + size + g2 + name;
    var t := keyword + u;
    assert lead + keyword + g1 + size + g2 + name == lead + t;
    assert t[0] == keyword[0];
    assert SkipReSpace(lead + t) == t by { SkipPad(lead, t); }
    if keyword == "New File" {
      assert t[..8] == "New File" && t[8..] == u;
    } else {
      assert !StartsWith(t, "New File") by { assert t[0] == 'F'; }
      assert t[..4] == "File" && t[4..] == u;
    }
    SizeAndNameOf(g1, size, g2, name);
  }

  /** What `(\d+)\s*Bytes\/sec` sees after the label of a speed line, for any unit word
      that starts with neither white space nor a digit. */
  lemma SpeedDigitsOf(digits: string, pad: string, unit: string, tail: string)
    requires AllReSpace(pad) && IsNumeral(digits)
    requires unit != [] && !IsReSpace(unit[0]) && !IsDigit(unit[0])
    ensures var u := digits + pad + unit + tail;
      DigitRun(u) == |digits| && u[..|digits|] == digits &&
      StartsWith(SkipReSpace(u[|digits|..]), unit)
  {
    var b := unit + tail;
    var u := digits + (pad + b);
    assert digits + pad + unit + tail == u;
    assert b[0] == unit[0];
    assert (pad + b)[0] == if pad == [] then unit[0] else pad[0];
    DigitRunOfDigits(digits, pad + b);
    assert u[..|digits|] == digits && u[|digits|..] == pad + b;
    SkipPad(pad, b);
    assert b[..|unit|] == unit;
  }

  /** A Bytes/sec speed line yields its digits, whatever white space surrounds them. */
  lemma MatchSpeedBytesOfLine(lead: string, pre: string, post: string, digits: string, pad: string, tail: string)
    requires AllReSpace(lead) && AllReSpace(pre) && AllReSpace(post) && AllReSpace(pad)
    requires IsNumeral(digits)
    ensures MatchSpeedBytes(Labelled(lead, "Speed", pre, post, digits + pad + "Bytes/sec" + tail)) == Some(digits)
  {
    var u := digits + pad + "Bytes/sec" + tail;
    assert u[0] == digits[0] && !IsReSpace(digits[0]);
    LabelOf(lead, "Speed", pre, post, u);
    SpeedDigitsOf(digits, pad, "Bytes/sec", tail);
  }

  /** What `([0-9.]+)\s*MegaBytes\/min` sees after the label of a MegaBytes/min speed line. */
  lemma SpeedNumberOf(number: string, pad: string, unit: string, tail: string)
    requires AllReSpace(pad)
    requires |number| > 0 && AllDecimal(number)
    requires unit != [] && !IsReSpace(unit[0]) && !DecimalChar(unit[0])
    ensures var u := number + pad + unit + tail;
      NumDotRun(u) == |number| && u[..|number|] == number &&
      StartsWith(SkipReSpace(u[|number|..]), unit)
  {
    var b := unit + tail;
    var u := number + (pad + b);
    assert number + pad + unit + tail == u;
    assert b[0] == unit[0];
    assert (pad + b)[0] == if pad == [] then unit[0] else pad[0];
    NumDotRunOf(number, pad + b);
    assert u[..|number|] == number && u[|number|..] == pad + b;
    SkipPad(pad, b);
    assert b[..|unit|] == unit;
  }


  /** A MegaBytes/min speed line yields its number, whatever white space surrounds it. */
  lemma MatchSpeedMBOfLine(lead: string, pre: string, post: string, number: string, pad: string, tail: string)
    requires AllReSpace(lead) && AllReSpace(pre) && AllReSpace(post) && AllReSpace(pad)
    requires |number| > 0 && AllDecimal(number)
    ensures MatchSpeedMB(Labelled(lead, "Speed", pre, post, number + pad + "MegaBytes/min" + tail)) == Some(number)
  {
    var u := number + pad + "MegaBytes/min" + tail;
    assert u[0] == number[0] && DecimalChar(number[0]);
    LabelOf(lead, "Speed", pre, post, u);
    SpeedNumberOf(number, pad, "MegaBytes/min", tail);
  }

  /** "<digits>%" is a percentage line whose capture is the digits. */
  lemma MatchProgressOfPercent(digits: string)
    requires IsNumeral(digits)
    ensures MatchProgress(digits + "%") == Some(digits)
  {
    var s := digits + "%";
    DigitRunOfDigits(digits, "%");
    assert s[0..] == s;
    assert s[|digits|] == '%';
    assert s[0..|digits|] == digits;
  }
}

=== FILE: robocopy_args.dfy ===
/**
  The robocopy command line: the user's paths and flags, the flags the progress parser
  needs, and the list-only variant used to count the work beforehand.
*/
module RobocopyArgs {
  import opened Text

  /** The command-line options that shape the robocopy arguments. */
  datatype Options = Options(mir: bool, list: bool, preserveExitCode: bool, insane: bool,
                             otherArgs: seq<string>)

  /** Flags that would suppress output the parser relies on (compared in lower case). */
  const NotAllowed: set<string> := {"/bytes", "/np", "/njh", "/njs", "/ndl", "/nfl", "/ns"}

  predicate IsNotAllowed(e: string) {
    Lower(e) in NotAllowed
  }

  /** A user flag that writes a log file, which would otherwise swallow robocopy's output. */
  predicate IsLogFlag(e: string) {
    StartsWith(Lower(e), "/log") || StartsWith(Lower(e), "/unilog")
  }

  /** What robocopy is given before any flag is checked. */
  function Given(root: string, dest: string, files: seq<string>, opts: Options): seq<string> {
    [root, dest] + files + opts.otherArgs
  }

  function WithMirror(given: seq<string>, mir: bool): seq<string> {
    given + (if mir then ["/MIR"] else [])
  }

  /** The flags appended for the parser, plus the retry limits unless `insane`. */
  function Tail(insane: bool): seq<string> {
    ["/NJH", "/NDL", "/BYTES"] + (if insane then [] else ["/R:2", "/W:1"])
  }

  predicate NoneBlocked(xs: seq<string>) {
    forall i | 0 <= i < |xs| :: !IsNotAllowed(xs[i])
  }

  /** The elements `slices.DeleteFunc` keeps, in order. */
  function Kept(xs: seq<string>): (r: seq<string>)
    ensures |r| <= |xs|
    ensures NoneBlocked(r)
    ensures NoneBlocked(xs) ==> r == xs
  {
    if xs == [] then [] else (if IsNotAllowed(xs[0]) then [] else [xs[0]]) + Kept(xs[1..])
  }

  /** Kept drops every blocked flag and keeps every other element as often as it occurs. */
  lemma {:induction false} KeptCount(xs: seq<string>, e: string)
    ensures multiset(Kept(xs))[e] == if IsNotAllowed(e) then 0 else multiset(xs)[e]
  {
    if xs != [] {
      assert xs == [xs[0]] + xs[1..];
      KeptCount(xs[1..], e);
    }
  }

  function Blanks(n: nat): (r: seq<string>)
    ensures |r| == n && forall i | 0 <= i < n :: r[i] == ""
  {
    seq(n, _ => "")
  }

  lemma BlanksCount(n: nat, e: string)
    requires e != ""
    ensures multiset(Blanks(n))[e] == 0
  {
    assert e !in Blanks(n);
  }

  lemma BlankAllowed()
    ensures !IsNotAllowed("")
  {
    assert Lower("") == "";
  }

  /**
    The slice `slices.DeleteFunc` leaves behind when its result is ignored: the kept elements
    are moved to the front and the vacated tail is cleared to the zero string, while the
    caller's slice keeps its old length.
  */
  function DeleteFuncInPlace(xs: seq<string>): (r: seq<string>)
    ensures |r| == |xs|
    ensures NoneBlocked(r)
    ensures NoneBlocked(xs) ==> r == xs
  {
    BlankAllowed();
    Kept(xs) + Blanks(|xs| - |Kept(xs)|)
  }

  /** In-place deletion keeps every non-empty allowed element as often as it occurs. */
  lemma DeleteFuncCount(xs: seq<string>, e: string)
    requires e != ""
    ensures multiset(DeleteFuncInPlace(xs))[e] == if IsNotAllowed(e) then 0 else multiset(xs)[e]
  {
    var k := Kept(xs);
    KeptCount(xs, e);
    BlanksCount(|xs| - |k|, e);
  }

  /** One "/tee" for each log flag, in the order the loop meets them. */
  function TeeFlags(xs: seq<string>): (r: seq<string>)
    ensures |r| <= |xs|
    ensures forall i | 0 <= i < |r| :: r[i] == "/tee"
    ensures (forall i | 0 <= i < |xs| :: !IsLogFlag(xs[i])) ==> r == []
    ensures (forall i | 0 <= i < |xs| :: IsLogFlag(xs[i])) ==> |r| == |xs|
  {
    if xs == [] then [] else (if IsLogFlag(xs[0]) then ["/tee"] else []) + TeeFlags(xs[1..])
  }

  /** The tee count adds up over the parts of the list. */
  lemma {:induction false} TeeFlagsAppend(xs: seq<string>, ys: seq<string>)
    ensures TeeFlags(xs + ys) == TeeFlags(xs) + TeeFlags(ys)
  {
    if xs == [] {
      assert xs + ys == ys;
    } else {
      assert (xs + ys)[1..] == xs[1..] + ys;
      TeeFlagsAppend(xs[1..], ys);
    }
  }

  /** The non-list tail of the command line, common to both versions of the builder. */
  function Finish(cleaned: seq<string>, insane: bool): (r: seq<string>)
    ensures |r| == |cleaned| + |TeeFlags(cleaned)| + |Tail(insane)|
    ensures r[..|cleaned|] == cleaned
    ensures r[|r| - |Tail(insane)|..] == Tail(insane)
    ensures NoneBlocked(cleaned) ==> NoneBlocked(r[..|r| - |Tail(insane)|])
  {
    var tees := TeeFlags(cleaned);
    TeeAllowed();
    assert NoneBlocked(cleaned) ==> NoneBlocked(cleaned + tees);
    cleaned + tees + Tail(insane)
  }

  lemma TeeAllowed()
    ensures !IsNotAllowed("/tee")
  {
    assert Lower("/tee") == "/tee";
  }

  /**
    buildRobocopyArgs as written: the result of `slices.DeleteFunc` is discarded, so a
    not-allowed flag is not removed from the list but leaves an empty argument at the end of
    the user's part.
  */
  function BuildRobocopyArgs(root: string, dest: string, files: seq<string>, opts: Options): (out: seq<string>)
    ensures var g := Given(root, dest, files, opts);
      opts.list ==> |out| == |g| + (if opts.mir then 1 else 0) && out[..|g|] == g
    ensures var g := Given(root, dest, files, opts);
      !opts.list ==> |out| >= |g| + (if opts.mir then 1 else 0) + |Tail(opts.insane)|
    ensures !opts.list ==> |out| >= |Tail(opts.insane)| && out[|out| - |Tail(opts.insane)|..] == Tail(opts.insane)
    ensures !opts.list ==> NoneBlocked(out[..|out| - |Tail(opts.insane)|])
  {
    var g := Given(root, dest, files, opts);
    var withMir := WithMirror(g, opts.mir);
    assert withMir[..|g|] == g;
    if opts.list then withMir
    else Finish(DeleteFuncInPlace(withMir), opts.insane)
  }

  /** A command line without blocked flags reaches robocopy unchanged, ahead of the added flags. */
  lemma UserArgsKept(root: string, dest: string, files: seq<string>, opts: Options)
    requires NoneBlocked(Given(root, dest, files, opts))
    ensures var g := Given(root, dest, files, opts);
      var out := BuildRobocopyArgs(root, dest, files, opts);
      |out| >= |g| && out[..|g|] == g
  {
    if !opts.list {
      FinishKeepsUnblocked(Given(root, dest, files, opts), opts.mir, opts.insane);
    }
  }

  lemma FinishKeepsUnblocked(g: seq<string>, mir: bool, insane: bool)
    requires NoneBlocked(g)
    ensures var out := Finish(DeleteFuncInPlace(WithMirror(g, mir)), insane);
      |out| >= |g| && out[..|g|] == g
  {
    var withMir := WithMirror(g, mir);
    MirrorKeepsNoneBlocked(g, mir);
    var cleaned := DeleteFuncInPlace(withMir);
    assert cleaned == withMir;
    var r := Finish(cleaned, insane);
    assert r[..|g|] == cleaned[..|g|];
    assert withMir[..|g|] == g;
  }

  /** The corrected builder: the flags `slices.DeleteFunc` selects are really removed. */
  function BuildRobocopyArgsIntended(root: string, dest: string, files: seq<string>, opts: Options): (out: seq<string>)
    ensures var g := Given(root, dest, files, opts);
      opts.list ==> out == WithMirror(g, opts.mir)
    ensures !opts.list ==> |out| >= |Tail(opts.insane)| && out[|out| - |Tail(opts.insane)|..] == Tail(opts.insane)
    ensures !opts.list ==> NoneBlocked(out[..|out| - |Tail(opts.insane)|])
  {
    var withMir := WithMirror(Given(root, dest, files, opts), opts.mir);
    if opts.list then withMir
    else
      MirrorAllowed(opts.mir);
      Finish(Kept(withMir), opts.insane)
  }

  /** When the user passes no blocked flag, the discarded result does not matter. */
  lemma AgreeWhenNothingBlocked(root: string, dest: string, files: seq<string>, opts: Options)
    requires NoneBlocked(Given(root, dest, files, opts))
    ensures BuildRobocopyArgsIntended(root, dest, files, opts) == BuildRobocopyArgs(root, dest, files, opts)
  {
    var g := Given(root, dest, files, opts);
    var withMir := WithMirror(g, opts.mir);
    MirrorAllowed(opts.mir);
    assert NoneBlocked(withMir);
    assert Kept(withMir) == withMir == DeleteFuncInPlace(withMir);
  }

  lemma MirrorKeepsNoneBlocked(g: seq<string>, mir: bool)
    requires NoneBlocked(g)
    ensures NoneBlocked(WithMirror(g, mir))
  {
    MirrorAllowed(mir);
  }

  lemma MirrorAllowed(mir: bool)
    ensures !IsNotAllowed("/MIR")
  {
    assert Lower("/MIR") == "/mir";
  }

  lemma MirrorCount(g: seq<string>, mir: bool)
    ensures multiset(WithMirror(g, mir))["/MIR"] == multiset(g)["/MIR"] + (if mir then 1 else 0)
  {
  }

  /** "/MIR" appears once more than the user wrote it exactly when mirroring is asked for. */
  lemma MirrorAppendedIff(root: string, dest: string, files: seq<string>, opts: Options)
    ensures var g := Given(root, dest, files, opts);
      multiset(BuildRobocopyArgs(root, dest, files, opts))["/MIR"] ==
      multiset(g)["/MIR"] + (if opts.mir then 1 else 0)
  {
    var g := Given(root, dest, files, opts);
    MirrorCount(g, opts.mir);
    if !opts.list {
      MirrorSurvivesFinish(WithMirror(g, opts.mir), opts.insane);
    }
  }

  lemma MirrorSurvivesFinish(xs: seq<string>, insane: bool)
    ensures multiset(Finish(DeleteFuncInPlace(xs), insane))["/MIR"] == multiset(xs)["/MIR"]
  {
    MirrorAllowed(false);
    DeleteFuncCount(xs, "/MIR");
    MirrorNotInTail(insane);
    FinishCount(DeleteFuncInPlace(xs), insane, "/MIR");
  }

  lemma MirrorNotInTail(insane: bool)
    ensures "/MIR" !in Tail(insane)
  {
  }

  /** Finishing the command line adds no copy of any argument except "/tee" and the tail flags. */
  lemma FinishCount(cleaned: seq<string>, insane: bool, e: string)
    requires e != "/tee" && e !in Tail(insane)
    ensures multiset(Finish(cleaned, insane))[e] == multiset(cleaned)[e]
  {
    var tees := TeeFlags(cleaned);
    assert e !in tees;
    assert multiset(tees)[e] == 0;
    assert multiset(Tail(insane))[e] == 0;
    assert multiset(Finish(cleaned, insane)) == multiset(cleaned) + multiset(tees) + multiset(Tail(insane));
  }

  /** No flag that writes a log is one of the blocked flags. */
  lemma LogFlagNotBlocked(e: string)
    requires IsLogFlag(e)
    ensures !IsNotAllowed(e)
  {
    var w := Lower(e);
    assert w[1] == 'l' || w[1] == 'u';
    assert forall b | b in NotAllowed :: b[1] == 'b' || b[1] == 'n';
  }

  lemma {:induction false} TeeFlagsOfKept(xs: seq<string>)
    ensures TeeFlags(Kept(xs)) == TeeFlags(xs)
  {
    if xs != [] {
      var x := xs[0];
      var pre: seq<string> := if IsNotAllowed(x) then [] else [x];
      var own: seq<string> := if IsLogFlag(x) then ["/tee"] else [];
      TeeFlagsOfKept(xs[1..]);
      TeeFlagsAppend(pre, Kept(xs[1..]));
      if IsNotAllowed(x) {
        if IsLogFlag(x) {
          LogFlagNotBlocked(x);
        }
        assert TeeFlags(pre) == own;
      } else {
        assert [x][1..] == [];
        assert TeeFlags(pre) == own + TeeFlags([]);
      }
    }
  }

  lemma BlankIsNoLogFlag()
    ensures !IsLogFlag("")
  {
    assert Lower("") == "";
  }

  /** Deleting in place neither adds nor loses a tee: blocked flags are never log flags. */
  lemma TeeFlagsOfDeleteFunc(xs: seq<string>)
    ensures TeeFlags(DeleteFuncInPlace(xs)) == TeeFlags(xs)
  {
    var k := Kept(xs);
    var b := Blanks(|xs| - |k|);
    assert DeleteFuncInPlace(xs) == k + b;
    TeeFlagsAppend(k, b);
    TeeFlagsOfKept(xs);
    BlankIsNoLogFlag();
  }

  lemma MirrorIsNoLogFlag(mir: bool)
    ensures !IsLogFlag("/MIR")
  {
    assert Lower("/MIR") == "/mir";
    assert Lower("/MIR")[..4][1] == 'm';
  }

  /**
    One "/tee" is appended for every log flag among the user's arguments, blocked flags or
    not, and for nothing else.
  */
  lemma TeePerLogFlag(root: string, dest: string, files: seq<string>, opts: Options)
    requires !opts.list
    ensures var g := Given(root, dest, files, opts);
      BuildRobocopyArgs(root, dest, files, opts) ==
      DeleteFuncInPlace(WithMirror(g, opts.mir)) + TeeFlags(g) + Tail(opts.insane)
  {
    var g := Given(root, dest, files, opts);
    var withMir := WithMirror(g, opts.mir);
    var cleaned := DeleteFuncInPlace(withMir);
    assert BuildRobocopyArgs(root, dest, files, opts) == cleaned + TeeFlags(cleaned) + Tail(opts.insane);
    assert TeeFlags(cleaned) == TeeFlags(withMir) by { TeeFlagsOfDeleteFunc(withMir); }
    assert TeeFlags(withMir) == TeeFlags(g) by {
      var m := if opts.mir then ["/MIR"] else [];
      TeeFlagsAppend(g, m);
      MirrorIsNoLogFlag(opts.mir);
      assert TeeFlags(m) == [];
      assert TeeFlags(g) + [] == TeeFlags(g);
    }
  }

  /** Kept drops a trailing blocked flag after two allowed arguments. */
  lemma KeptOfTriple(root: string, dest: string, flag: string)
    requires !IsNotAllowed(root) && !IsNotAllowed(dest) && IsNotAllowed(flag)
    ensures Kept([root, dest, flag]) == [root, dest]
  {
    var xs := [root, dest, flag];
    assert xs[1..] == [dest, flag] && xs[1..][1..] == [flag] && xs[1..][1..][1..] == [];
    assert Kept([flag]) == [] + Kept([]);
    assert Kept([dest, flag]) == [dest] + Kept([flag]);
  }

  lemma EmptyIsNoLogFlag()
    ensures !IsLogFlag("")
  {
  }

  /**
    The discrepancy: a single blocked flag turns into an empty argument instead of
    vanishing ("/NP", say, since its lower case "/np" is blocked).
  */
  lemma AsWrittenPassesBlank(root: string, dest: string, flag: string, opts: Options)
    requires !IsNotAllowed(root) && !IsNotAllowed(dest) && !IsLogFlag(root) && !IsLogFlag(dest)
    requires IsNotAllowed(flag)
    requires opts == Options(false, false, false, false, [flag])
    ensures BuildRobocopyArgs(root, dest, [], opts) == [root, dest, ""] + Tail(false)
    ensures BuildRobocopyArgsIntended(root, dest, [], opts) == [root, dest] + Tail(false)
  {
    var given := [root, dest, flag];
    assert WithMirror(Given(root, dest, [], opts), false) == given;
    assert Kept(given) == [root, dest] by { KeptOfTriple(root, dest, flag); }
    assert DeleteFuncInPlace(given) == [root, dest, ""] by {
      assert Blanks(1) == [""];
      assert [root, dest] + [""] == [root, dest, ""];
    }
    assert Finish([root, dest, ""], false) == [root, dest, ""] + Tail(false) by {
      var xs := [root, dest, ""];
      EmptyIsNoLogFlag();
      assert forall i | 0 <= i < |xs| :: !IsLogFlag(xs[i]);
      FinishWithoutTees(xs, false);
    }
    assert BuildRobocopyArgsIntended(root, dest, [], opts) == Finish([root, dest], false);
    assert Finish([root, dest], false) == [root, dest] + Tail(false) by {
      var xs := [root, dest];
      assert forall i | 0 <= i < |xs| :: !IsLogFlag(xs[i]);
      FinishWithoutTees(xs, false);
    }
  }

  /** "/NP" is blocked, and plain paths are neither blocked nor log flags. */
  lemma ExampleFlags()
    ensures IsNotAllowed("/NP")
    ensures !IsNotAllowed("src") && !IsNotAllowed("dst") && !IsLogFlag("src") && !IsLogFlag("dst")
  {
    assert Lower("/NP") == "/np" && Lower("src") == "src" && Lower("dst") == "dst";
  }

  /** With no log flag among the arguments, Finish appends only the tail. */
  lemma FinishWithoutTees(cleaned: seq<string>, insane: bool)
    requires TeeFlags(cleaned) == []
    ensures Finish(cleaned, insane) == cleaned + Tail(insane)
  {
    assert cleaned + [] == cleaned;
  }

  /**
    The corrected builder drops every blocked flag the user gave and keeps every other
    argument as often as it was given; it adds only the tees, the mirror flag and the
    parser's flags.
  */
  lemma IntendedKeepsAllowed(root: string, dest: string, files: seq<string>, opts: Options, e: string)
    requires !opts.list && e != "/tee" && e != "/MIR" && e !in Tail(opts.insane)
    ensures multiset(BuildRobocopyArgsIntended(root, dest, files, opts))[e] ==
            if IsNotAllowed(e) then 0 else multiset(Given(root, dest, files, opts))[e]
  {
    var g := Given(root, dest, files, opts);
    var withMir := WithMirror(g, opts.mir);
    KeptCount(withMir, e);
    assert multiset(withMir)[e] == multiset(g)[e];
    FinishCount(Kept(withMir), opts.insane, e);
  }

  /** getTotalCounts' copy of the arguments, made list-only unless list mode is already on. */
  function ListArgs(rbargs: seq<string>, list: bool): (r: seq<string>)
    ensures |r| >= |rbargs| && r[..|rbargs|] == rbargs
    ensures list <==> r == rbargs
    ensures !list ==> "/L" in r
  {
    if list then rbargs else rbargs + ["/L", "/NFL", "/NDL", "/NP", "/NC", "/BYTES"]
  }

  /**
    The discrepancy: list mode, documented as a dry run, adds no /L. With no /L of the user's
    own, the command getTotalCounts runs in list mode copies for real.
  */
  lemma ListModeCopies(root: string, dest: string, files: seq<string>, opts: Options)
    requires opts.list
    requires forall i | 0 <= i < |Given(root, dest, files, opts)| :: Lower(Given(root, dest, files, opts)[i]) != "/l"
    ensures var cmd := ListArgs(BuildRobocopyArgs(root, dest, files, opts), true);
      forall i | 0 <= i < |cmd| :: Lower(cmd[i]) != "/l"
  {
    var g := Given(root, dest, files, opts);
    var cmd := BuildRobocopyArgs(root, dest, files, opts);
    assert cmd == WithMirror(g, opts.mir);
    assert Lower("/MIR") == "/mir";
    assert forall i | |g| <= i < |cmd| :: cmd[i] == "/MIR";
  }

  /** getTotalCounts' arguments with /L added in list mode too, so that listing never copies. */
  function ListArgsIntended(rbargs: seq<string>, list: bool): (r: seq<string>)
    ensures |r| > |rbargs| && r[..|rbargs|] == rbargs
    ensures "/L" in r[|rbargs|..]
    ensures !list ==> r == ListArgs(rbargs, list)
  {
    if list then rbargs + ["/L"] else ListArgs(rbargs, list)
  }

  /** With the correction, the list-mode command is a dry run whatever the user passed. */
  lemma ListModeListsIntended(root: string, dest: string, files: seq<string>, opts: Options)
    ensures "/L" in ListArgsIntended(BuildRobocopyArgs(root, dest, files, opts), opts.list)
  {
    var rbargs := BuildRobocopyArgs(root, dest, files, opts);
    var r := ListArgsIntended(rbargs, opts.list);
    assert r == r[..|rbargs|] + r[|rbargs|..];
  }
}

=== FILE: session.dfy ===
/**
  One run of the program: the list-only pass that counts the work, the copying pass, and the
  exit status the process ends with. The child processes are not modelled; what they report
  (their output lines, whether the pipe, the start or the read failed, their exit code) is
  given as data.
*/
module Session {
  import opened Outcomes
  import opened Stats
  import opened Parser
  import opened ExitCodes
  import opened Patterns
  import opened Tui

  /** Exit status of `logger.Fatalf`. */
  const FatalStatus := 1

  /** What the copying robocopy process did, as runRobocopy observes it. */
  datatype Launch =
    | PipeFailed
    | StartFailed
      /** `lines` is the output split into lines, `allow` the limiter's verdict per line,
          `readFailed` an error from reading the output, `elapsed` the measured duration. */
    | Started(lines: seq<string>, allow: seq<bool>, readFailed: bool, elapsed: int, exitCode: int)

  predicate WellFormed(l: Launch) {
    l.Started? ==> |l.allow| == |l.lines|
  }

  /** The statistics parseStreaming collects from a whole output. */
  function Parsed(lines: seq<string>, allow: seq<bool>): RobocopyStats
    requires |allow| == |lines|
  {
    ParseLines(Initial, lines, allow).state.stats
  }

  /**
    runRobocopy: pipe and start failures are errors; a read error is an error only when
    robocopy's exit code is above 16, otherwise the statistics are returned with the exit code
    and duration filled in.
  */
  function RunRobocopy(l: Launch): (r: Result<RobocopyStats>)
    requires WellFormed(l)
    ensures r.Failure? <==> !l.Started? || (l.readFailed && l.exitCode > 16)
    ensures r.Success? ==> r.value.exitCode == l.exitCode && r.value.duration == l.elapsed
    ensures r.Success? ==> var p := Parsed(l.lines, l.allow);
      r.value.total == p.total && r.value.copied == p.copied && r.value.skipped == p.skipped &&
      r.value.mismatch == p.mismatch && r.value.failed == p.failed && r.value.extras == p.extras &&
      r.value.bytesPerSec == p.bytesPerSec && r.value.megaBytesPerMin == p.megaBytesPerMin
  {
    match l
    case PipeFailed => Failure("failed to get stdout pipe")
    case StartFailed => Failure("failed to start robocopy")
    case Started(lines, allow, readFailed, elapsed, exitCode) =>
      if readFailed && exitCode > 16 then Failure("robocopy failed")
      else Success(Parsed(lines, allow).(duration := elapsed, exitCode := exitCode))
  }

  /** An output without the summary header leaves every count at zero. */
  lemma NoSummaryNoCounts(l: Launch)
    requires WellFormed(l) && l.Started? && NoHeader(l.lines)
    requires !(l.readFailed && l.exitCode > 16)
    ensures RunRobocopy(l) == Success(ZeroStats.(duration := l.elapsed, exitCode := l.exitCode))
  {
    NoHeaderKeepsStats(Initial, l.lines, l.allow);
  }

  /** Exit status of a Go runtime panic. */
  const PanicStatus := 2

  /**
    The result of the list-only pass. ListedOnly and Panicked end the program inside
    getTotalCounts: list mode exits after printing the listing, and a message sent to the
    Bubble Tea program, which main has not created yet, dereferences a nil pointer.
  */
  datatype Totals = ListedOnly | Panicked | Totals(files: int, bytes: int)

  /** What the list-only robocopy process did, as getTotalCounts observes it. */
  datatype ListRun = ListRun(lines: seq<string>, allow: seq<bool>, execFailed: bool, readFailed: bool, exitCode: int)

  /** The messages parseStreaming sends while it reads the list-only output. */
  function CountingMessages(run: ListRun): seq<Msg>
    requires |run.allow| == |run.lines|
  {
    ParseLines(Initial, run.lines, run.allow).events
  }

  /**
    getTotalCounts: in list mode the listing is printed and the program ends; otherwise a
    failed execution with an exit code above 16 is an error; parsing the output panics as soon
    as it sends a message, since the program variable is still nil; after that a read error is
    an error, and the copied column of the summary gives the totals.
  */
  function TotalCounts(list: bool, run: ListRun): (r: Result<Totals>)
    requires |run.allow| == |run.lines|
    ensures list <==> r == Success(ListedOnly)
    ensures !list ==> (r.Failure? <==>
      (run.execFailed && run.exitCode > 16) || (run.readFailed && CountingMessages(run) == []))
    ensures !list && !(run.execFailed && run.exitCode > 16) ==>
      (r == Success(Panicked) <==> CountingMessages(run) != [])
    ensures r.Success? && r.value.Totals? ==>
      var copied := Parsed(run.lines, run.allow).copied;
      r.value.files == copied.files && r.value.bytes == copied.bytes
  {
    if list then Success(ListedOnly)
    else if run.execFailed && run.exitCode > 16 then Failure("robocopy failed")
    else if CountingMessages(run) != [] then Success(Panicked)
    else if run.readFailed then Failure("error while reading output")
    else
      var copied := Parsed(run.lines, run.allow).copied;
      Success(Totals(copied.files, copied.bytes))
  }

  /** A percentage line in the list-only output is sent to the nil program, and the program
      panics before any copying starts. */
  lemma CountingPercentPanics(line: string, digits: string, readFailed: bool, exitCode: int)
    requires IsNumeral(digits) && line == digits + "%"
    ensures TotalCounts(false, ListRun([line], [true], false, readFailed, exitCode)) == Success(Panicked)
    ensures Program(false, ListRun([line], [true], false, readFailed, exitCode), PipeFailed, false) == PanicStatus
  {
    PercentLineOf(Initial, line, digits);
    ParseLinesCons(Initial, line, [], true, []);
  }

  /**
    The status the process exits with after the summary: robocopy's own code when it is
    preserved on request or signals a failure (8 and above), 0 otherwise.
  */
  function ProcessExitCode(preserve: bool, code: int): (status: int)
    ensures preserve ==> status == code
    ensures !preserve ==> (status != 0 <==> code >= 8)
    ensures status == 0 || status == code
  {
    if preserve || code >= 8 then code else 0
  }

  /** Without the option, exactly the codes shown in error style are passed on among the named ones. */
  lemma ErrorStyledCodesSurface(code: int)
    requires code in {0, 1, 2, 4, 8, 16}
    ensures ProcessExitCode(false, code) != 0 <==> IsFailure(Explain(code))
  {
  }

  /** The corrected header is highlighted exactly when the process reports a failure by default. */
  lemma HighlightedIffReported(code: int)
    ensures HeaderHighlightedIntended(code) <==> ProcessExitCode(false, code) != 0
  {
  }

  /**
    main after the list-only pass: a counting error or a copying error is fatal, list mode and
    an empty copy end with 0, and otherwise the copying pass decides the status.
  */
  function MainExit(totals: Result<Totals>, copy: Launch, preserve: bool): (status: int)
    requires WellFormed(copy)
    ensures totals.Failure? ==> status == FatalStatus
    ensures totals == Success(ListedOnly) ==> status == 0
    ensures totals == Success(Panicked) ==> status == PanicStatus
    ensures totals.Success? && totals.value.Totals? && totals.value.bytes <= 0 ==> status == 0
    ensures totals.Success? && totals.value.Totals? && totals.value.bytes > 0 ==>
      (RunRobocopy(copy).Failure? ==> status == FatalStatus) &&
      (RunRobocopy(copy).Success? ==> status == ProcessExitCode(preserve, copy.exitCode))
  {
    match totals
    case Failure(_) => FatalStatus
    case Success(ListedOnly) => 0
    case Success(Panicked) => PanicStatus
    case Success(Totals(_, bytes)) =>
      var stats :=
        if bytes > 0 then RunRobocopy(copy)
        else Success(ZeroStats);
      match stats
      case Failure(_) => FatalStatus
      case Success(s) => ProcessExitCode(preserve, s.exitCode)
  }

  /** A robocopy failure (exit code 8 to 16) always reaches the caller, preserved or not. */
  lemma CopyFailureSurfaces(files: int, bytes: int, copy: Launch, preserve: bool)
    requires WellFormed(copy) && copy.Started? && bytes > 0
    requires 8 <= copy.exitCode <= 16
    ensures MainExit(Success(Totals(files, bytes)), copy, preserve) == copy.exitCode
  {
  }

  /** The whole program with its two robocopy runs: list mode always ends with 0, and a counting
      run whose output sends a message panics. */
  function Program(list: bool, counting: ListRun, copy: Launch, preserve: bool): (status: int)
    requires |counting.allow| == |counting.lines| && WellFormed(copy)
    ensures list ==> status == 0
    ensures !list && counting.readFailed && CountingMessages(counting) == [] ==> status == FatalStatus
    ensures !list && !(counting.execFailed && counting.exitCode > 16) && CountingMessages(counting) != [] ==>
      status == PanicStatus
  {
    MainExit(TotalCounts(list, counting), copy, preserve)
  }
}

=== FILE: stats.dfy ===
/** FileStats and RobocopyStats (utils.go): the summary table robocopy prints at the end. */
module Stats {

  /** One kind of count in a summary column. */
  datatype Field = DirsField | FilesField | BytesField

  /** One column (Total, Copied, ...) of the summary table. */
  datatype FileStats = FileStats(dirs: int, files: int, bytes: int) {

    function Get(f: Field): int {
      match f
      case DirsField => dirs
      case FilesField => files
      case BytesField => bytes
    }

    function Set(f: Field, v: int): (r: FileStats)
      ensures r.Get(f) == v
      ensures forall g | g != f :: r.Get(g) == Get(g)
    {
      match f
      case DirsField => this.(dirs := v)
      case FilesField => this.(files := v)
      case BytesField => this.(bytes := v)
    }
  }

  const ZeroFileStats := FileStats(0, 0, 0)

  /** Everything parseStreaming and runRobocopy collect; durations are in nanoseconds. */
  datatype RobocopyStats = RobocopyStats(
    total: FileStats, copied: FileStats, skipped: FileStats,
    mismatch: FileStats, failed: FileStats, extras: FileStats,
    bytesPerSec: int, megaBytesPerMin: real,
    duration: int, exitCode: int)

  /** The zero value of RobocopyStats. */
  const ZeroStats := RobocopyStats(ZeroFileStats, ZeroFileStats, ZeroFileStats, ZeroFileStats,
                                   ZeroFileStats, ZeroFileStats, 0, 0.0, 0, 0)

  /** The k-th column in the order the summary prints them:
      Total, Copied, Skipped, Mismatch, FAILED, Extras. */
  function Column(s: RobocopyStats, k: nat): FileStats
    requires k < 6
  {
    match k
    case 0 => s.total
    case 1 => s.copied
    case 2 => s.skipped
    case 3 => s.mismatch
    case 4 => s.failed
    case _ => s.extras
  }

  /** Overwrites field f of all six columns with vals, in column order. */
  function SetRow(s: RobocopyStats, f: Field, vals: seq<int>): (r: RobocopyStats)
    requires |vals| == 6
    ensures forall k, g | 0 <= k < 6 :: Column(r, k).Get(g) == if g == f then vals[k] else Column(s, k).Get(g)
    ensures r.bytesPerSec == s.bytesPerSec && r.megaBytesPerMin == s.megaBytesPerMin
    ensures r.duration == s.duration && r.exitCode == s.exitCode
  {
    s.(total := s.total.Set(f, vals[0]), copied := s.copied.Set(f, vals[1]),
       skipped := s.skipped.Set(f, vals[2]), mismatch := s.mismatch.Set(f, vals[3]),
       failed := s.failed.Set(f, vals[4]), extras := s.extras.Set(f, vals[5]))
  }
}

=== FILE: text.dfy ===
/**
 * The parts of Go's `strings` and `strconv` packages that the output parser relies on:
 * Unicode white space, TrimSpace, Fields, ToLower, and decimal number parsing.
 */
module Text {
  import opened Outcomes
  import opened Numbers

  /** Go's unicode.IsSpace, used by strings.TrimSpace and strings.Fields: '\t' to '\r', ' ',
      U+0085 and U+00A0 among the Latin-1 characters, and Unicode's White_Space above them. */
  predicate IsSpace(c: char) {
    ('\t' <= c <= '\r') || c == ' ' || c == '\U{85}' || c == '\U{A0}' || c == '\U{1680}' ||
    ('\U{2000}' <= c <= '\U{200A}') || c == '\U{2028}' || c == '\U{2029}' || c == '\U{202F}' ||
    c == '\U{205F}' || c == '\U{3000}'
  }

  /** The regular-expression class `\s` of Go's RE2 syntax: `[\t\n\f\r ]`. */
  predicate IsReSpace(c: char) {
    c == ' ' || c == '\t' || c == '\n' || c == '\r' || c == '\U{0C}'
  }

  predicate IsDigit(c: char) {
    '0' <= c <= '9'
  }

  predicate AllDigits(s: string) {
    forall k | 0 <= k < |s| :: IsDigit(s[k])
  }

  predicate NoSpace(s: string) {
    forall k | 0 <= k < |s| :: !IsSpace(s[k])
  }

  predicate AllSpace(s: string) {
    forall k | 0 <= k < |s| :: IsSpace(s[k])
  }

  predicate StartsWith(s: string, prefix: string) {
    |prefix| <= |s| && s[..|prefix|] == prefix
  }

  /** Length of the leading run of white space. */
  function SpaceLen(s: string): (n: nat)
    ensures n <= |s| && AllSpace(s[..n])
    ensures n == |s| || !IsSpace(s[n])
    decreases |s|
  {
    if |s| > 0 && IsSpace(s[0]) then 1 + SpaceLen(s[1..]) else 0
  }

  /** Drops leading white space. */
  function TrimLeft(s: string): (r: string)
    ensures |r| <= |s| && r == s[|s| - |r|..]
    ensures AllSpace(s[..|s| - |r|])
    ensures r == [] || !IsSpace(r[0])
  {
    s[SpaceLen(s)..]
  }

  /** Drops trailing white space. */
  function TrimRight(s: string): (r: string)
    ensures |r| <= |s| && r == s[..|r|]
    ensures AllSpace(s[|r|..])
    ensures r == [] || !IsSpace(r[|r| - 1])
    decreases |s|
  {
    if |s| > 0 && IsSpace(s[|s| - 1]) then TrimRight(s[..|s| - 1]) else s
  }

  /** strings.TrimSpace. */
  function TrimSpace(s: string): (r: string)
    ensures |r| <= |s|
    ensures r == [] || (!IsSpace(r[0]) && !IsSpace(r[|r| - 1]))
    // the result is the piece of s between its leading and its trailing white space
    ensures SpaceLen(s) + |r| <= |s| && r == s[SpaceLen(s)..SpaceLen(s) + |r|]
    ensures AllSpace(s[..SpaceLen(s)]) && AllSpace(s[SpaceLen(s) + |r|..])
  {
    var t := TrimLeft(s);
    var r := TrimRight(t);
    assert t == s[SpaceLen(s)..];
    assert r == t[..|r|] && AllSpace(t[|r|..]);
    assert t[|r|..] == s[SpaceLen(s) + |r|..];
    r
  }

  /** White space on both sides of a text that starts and ends with other characters
      is what TrimSpace removes. */
  lemma TrimSpaceOfPadded(lead: string, x: string, trail: string)
    requires AllSpace(lead) && AllSpace(trail)
    requires x != [] && !IsSpace(x[0]) && !IsSpace(x[|x| - 1])
    ensures TrimSpace(lead + x + trail) == x
  {
    assert lead + x + trail == lead + (x + trail);
    assert (x + trail)[0] == x[0];
    TrimLeftOfSpaces(lead, x + trail);
    TrimRightOfSpaces(x, trail);
  }

  /** Trailing white space does not change what TrimSpace returns. */
  lemma TrimSpaceDropsTrail(x: string, trail: string)
    requires AllSpace(trail)
    requires x != [] && !IsSpace(x[0])
    ensures TrimSpace(x + trail) == TrimSpace(x)
  {
    assert (x + trail)[0] == x[0];
    TrimLeftOfSpaces([], x + trail);
    TrimLeftOfSpaces([], x);
    assert [] + x == x && [] + (x + trail) == x + trail;
    TrimRightDropsTrail(x, trail);
  }

  lemma {:induction false} TrimRightDropsTrail(x: string, trail: string)
    requires AllSpace(trail)
    ensures TrimRight(x + trail) == TrimRight(x)
    decreases |trail|
  {
    if trail == [] {
      assert x + trail == x;
    } else {
      var u := x + trail;
      assert u[|u| - 1] == trail[|trail| - 1];
      assert u[..|u| - 1] == x + trail[..|trail| - 1];
      TrimRightDropsTrail(x, trail[..|trail| - 1]);
    }
  }

  lemma TrimRightOfSpaces(x: string, trail: string)
    requires AllSpace(trail)
    requires x == [] || !IsSpace(x[|x| - 1])
    ensures TrimRight(x + trail) == x
  {
    TrimRightDropsTrail(x, trail);
  }

  lemma TrimSpaceNoOp(s: string)
    requires s == [] || (!IsSpace(s[0]) && !IsSpace(s[|s| - 1]))
    ensures TrimSpace(s) == s
  {
  }

  /** Length of the leading run of non-space characters. */
  function WordLen(s: string): (n: nat)
    ensures n <= |s| && NoSpace(s[..n])
    ensures n == |s| || IsSpace(s[n])
    decreases |s|
  {
    if |s| == 0 || IsSpace(s[0]) then 0 else 1 + WordLen(s[1..])
  }

  /** A non-empty run of non-space characters. */
  predicate IsWord(w: string) {
    |w| > 0 && NoSpace(w)
  }

  /** strings.Fields: the maximal runs of non-space characters, in order. */
  function Fields(s: string): (r: seq<string>)
    ensures forall i | 0 <= i < |r| :: IsWord(r[i])
    decreases |s|
  {
    if s == [] then []
    else if IsSpace(s[0]) then Fields(s[1..])
    else
      var n := WordLen(s);
      var rest := Fields(s[n..]);
      var w := s[..n];
      assert IsWord(w);
      var r := [w] + rest;
      assert forall i | 0 <= i < |r| :: IsWord(r[i]) by {
        forall i | 0 <= i < |r| ensures IsWord(r[i]) {
          if i > 0 { assert r[i] == rest[i - 1]; }
        }
      }
      r
  }

  lemma WordLenOfWord(w: string, rest: string)
    requires NoSpace(w)
    requires rest == [] || IsSpace(rest[0])
    ensures WordLen(w + rest) == |w|
    decreases |w|
  {
    if |w| > 0 {
      assert (w + rest)[1..] == w[1..] + rest;
      WordLenOfWord(w[1..], rest);
    }
  }

  lemma TrimLeftOfSpaces(sep: string, w: string)
    requires AllSpace(sep)
    requires w == [] || !IsSpace(w[0])
    ensures TrimLeft(sep + w) == w
    decreases |sep|
  {
    if |sep| > 0 {
      assert (sep + w)[1..] == sep[1..] + w;
      TrimLeftOfSpaces(sep[1..], w);
    }
  }

  /** A word followed by nothing or by white space is the first field. */
  lemma {:induction false} FieldsOfWordThen(w: string, rest: string)
    requires IsWord(w)
    requires rest == [] || IsSpace(rest[0])
    ensures Fields(w + rest) == [w] + Fields(rest)
  {
    var s := w + rest;
    assert s[0] == w[0];
    WordLenOfWord(w, rest);
    assert s[..|w|] == w;
    assert s[|w|..] == rest;
  }

  /** Leading white space does not change the fields. */
  lemma {:induction false} FieldsAfterSpaces(sep: string, s: string)
    requires AllSpace(sep)
    ensures Fields(sep + s) == Fields(s)
    decreases |sep|
  {
    if sep != [] {
      assert (sep + s)[0] == sep[0] && IsSpace(sep[0]);
      assert (sep + s)[1..] == sep[1..] + s;
      FieldsAfterSpaces(sep[1..], s);
    } else {
      assert sep + s == s;
    }
  }

  /** A single word is its own only field. */
  lemma {:induction false} FieldsOfWord(w: string)
    requires IsWord(w)
    ensures Fields(w) == [w]
  {
    FieldsOfWordThen(w, []);
    assert w + [] == w;
  }

  /** Two words separated by white space split into exactly those two fields. */
  lemma {:induction false} FieldsOfTwoWords(a: string, sep: string, b: string)
    requires IsWord(a) && IsWord(b)
    requires |sep| > 0 && AllSpace(sep)
    ensures Fields(a + sep + b) == [a, b]
  {
    assert a + sep + b == a + (sep + b);
    FieldsOfWordThen(a, sep + b);
    FieldsAfterSpaces(sep, b);
    FieldsOfWord(b);
  }

  /** The lower case of one character as Go's unicode.ToLower gives it, exact whenever that
      lower case is ASCII; other non-ASCII letters keep their (non-ASCII) form. */
  function LowerChar(c: char): char {
    if 'A' <= c <= 'Z' then (c as int + 32) as char
    else if c == '\U{130}' then 'i'
    else if c == '\U{212A}' then 'k'
    else c
  }

  /** strings.ToLower, for comparisons against ASCII words. */
  function Lower(s: string): (r: string)
    ensures |r| == |s|
    ensures forall k | 0 <= k < |s| :: r[k] == LowerChar(s[k])
  {
    seq(|s|, k requires 0 <= k < |s| => LowerChar(s[k]))
  }

  /** ASCII upper case, used to state that units are case-insensitive. */
  function UpperAscii(s: string): (r: string)
    ensures |r| == |s|
  {
    seq(|s|, k requires 0 <= k < |s| => if 'a' <= s[k] <= 'z' then (s[k] as int - 32) as char else s[k])
  }

  lemma LowerOfUpper(s: string)
    ensures Lower(UpperAscii(s)) == Lower(s)
  {
  }

  /** Value of a digit string (the empty string is 0). */
  function DecimalValue(s: string): (n: nat)
    requires AllDigits(s)
    decreases |s|
  {
    if |s| == 0 then 0 else 10 * DecimalValue(s[..|s| - 1]) + (s[|s| - 1] as int - '0' as int)
  }

  /** Value of the digits after a decimal point: ".d1d2..." read as a fraction. */
  function FractionValue(s: string): (v: real)
    requires AllDigits(s)
    ensures 0.0 <= v <= 1.0
    decreases |s|
  {
    if |s| == 0 then 0.0 else ((s[0] as int - '0' as int) as real + FractionValue(s[1..])) / 10.0
  }

  /** Length of the leading run of decimal digits. */
  function DigitRun(s: string): (n: nat)
    ensures n <= |s| && AllDigits(s[..n])
    ensures n == |s| || !IsDigit(s[n])
    decreases |s|
  {
    if |s| == 0 || !IsDigit(s[0]) then 0 else 1 + DigitRun(s[1..])
  }

  predicate DecimalChar(c: char) {
    IsDigit(c) || c == '.'
  }

  /** Every character is a digit or a point, as `[0-9.]*` requires. */
  predicate AllDecimal(s: string) {
    forall k | 0 <= k < |s| :: DecimalChar(s[k])
  }

  /** strconv.ParseFloat on an unsigned decimal: digits, an optional point, digits,
      with at least one digit. */
  function ParseUnsigned(s: string): (r: Option<real>)
    ensures r.Some? ==> r.value >= 0.0 && AllDecimal(s)
    ensures |s| > 0 && AllDigits(s) ==> r == Some(DecimalValue(s) as real)
  {
    var i := DigitRun(s);
    var whole := s[..i];
    var rest := s[i..];
    if rest == [] then
      assert whole == s;
      if i > 0 then Some(DecimalValue(whole) as real) else None
    else if rest[0] == '.' && AllDigits(rest[1..]) && (i > 0 || |rest| > 1) then
      var frac := rest[1..];
      assert AllDecimal(s) by {
        forall k | 0 <= k < |s| ensures DecimalChar(s[k]) {
          if k < i { assert s[k] == whole[k]; } else if k > i { assert s[k] == frac[k - i - 1]; }
        }
      }
      Some(DecimalValue(whole) as real + FractionValue(frac))
    else None
  }

  /** strconv.ParseFloat restricted to plain decimal notation with an optional sign
      (exponents, hexadecimal floats, "Inf" and "NaN" are not modelled and give None). */
  function ParseFloat(s: string): (r: Option<real>)
    ensures r.Some? ==> forall k | 0 <= k < |s| :: DecimalChar(s[k]) || (k == 0 && (s[0] == '+' || s[0] == '-'))
    ensures |s| > 0 && AllDigits(s) ==> r == Some(DecimalValue(s) as real)
  {
    if |s| > 0 && (s[0] == '+' || s[0] == '-') then
      match ParseUnsigned(s[1..])
      case None => None
      case Some(v) =>
        assert forall k | 1 <= k < |s| :: s[k] == s[1..][k - 1];
        if s[0] == '-' then Some(-v) else Some(v)
    else ParseUnsigned(s)
  }

  /** strconv.Atoi / ParseInt(s, 10, 64) on a digit string, keeping the clamped value
      that Go returns alongside its range error. */
  function Atoi(s: string): (r: int)
    requires AllDigits(s)
    ensures 0 <= r <= MaxInt64
    ensures DecimalValue(s) <= MaxInt64 ==> r == DecimalValue(s)
    // out of range, Go returns the largest int64 with its error
    ensures DecimalValue(s) > MaxInt64 ==> r == MaxInt64
  {
    ClampInt64(DecimalValue(s))
  }
}

=== FILE: tui.dfy ===
/** The terminal UI model of tui.go: how messages change the copy progress it shows. */
module Tui {
  import opened Numbers

  /** A file-started message (progress is the baseline percentage for the file). */
  datatype UpdateMsg = UpdateMsg(file: string, fileSize: int, progress: real)

  /** The messages Update distinguishes; every other message type is OtherMsg. */
  datatype Msg =
    | KeyMsg(key: string)
    | WindowSizeMsg(width: int, height: int)
    | FileMsg(update: UpdateMsg)
    | ProgressMsg(fileProg: real)
    | TickMsg
    | FrameMsg
    | OtherMsg

  /** The command Update hands back to the runtime. */
  datatype Cmd = NoCmd | QuitCmd | AnimationCmd

  /** A float64 quotient: finite, or one of the IEEE 754 results of dividing by zero. */
  datatype Ratio = Finite(value: real) | PosInf | NegInf | NotANumber

  /** The UI state; the progress-bar widget is reduced to its width. */
  datatype Model = Model(
    progressWidth: int,
    percent: Ratio,
    currentFile: UpdateMsg,
    totalBytes: int,
    totalFiles: int,
    copiedBytes: int,
    copiedFiles: int,
    copyFinished: bool,
    numTimes: int,
    numMsgs: int,
    totalWidth: int)

  datatype Transition = Transition(model: Model, cmd: Cmd)

  /** float64(n) / float64(d) on exactly representable operands. */
  function Divide(n: int, d: int): (q: Ratio)
    ensures q.Finite? <==> d != 0
    ensures q.Finite? ==> q.value * d as real == n as real
    ensures q == PosInf <==> d == 0 && n > 0
    ensures q == NegInf <==> d == 0 && n < 0
    ensures q == NotANumber <==> d == 0 && n == 0
  {
    if d != 0 then Finite(n as real / d as real)
    else if n > 0 then PosInf
    else if n < 0 then NegInf
    else NotANumber
  }

  /** Recomputes the fraction of the bytes copied so far. */
  function UpdatePercent(m: Model): (r: Model)
    ensures r.percent == Divide(m.copiedBytes, m.totalBytes)
    // a known total with copied bytes inside it gives a fraction in [0, 1]
    ensures m.totalBytes > 0 && 0 <= m.copiedBytes <= m.totalBytes ==>
      r.percent.Finite? && 0.0 <= r.percent.value <= 1.0
    // the fraction times the total is the copied byte count
    ensures r.percent.Finite? <==> m.totalBytes != 0
    ensures r.percent.Finite? ==> r.percent.value * m.totalBytes as real == m.copiedBytes as real
    // a zero total gives +Inf, or NaN when nothing was copied either
    ensures m.totalBytes == 0 && m.copiedBytes > 0 ==> r.percent == PosInf
    ensures m.totalBytes == 0 && m.copiedBytes == 0 ==> r.percent == NotANumber
    ensures r.(percent := m.percent) == m
  {
    var r := m.(percent := Divide(m.copiedBytes, m.totalBytes));
    if m.totalBytes > 0 && 0 <= m.copiedBytes <= m.totalBytes then
      FractionBounds(m.copiedBytes, m.totalBytes);
      r
    else r
  }

  lemma FractionBounds(n: int, d: int)
    requires 0 <= n <= d && d > 0
    ensures 0.0 <= n as real / d as real <= 1.0
  {
    var q := n as real / d as real;
    assert q * d as real == n as real;
    assert (1.0 - q) * d as real == (d - n) as real;
  }

  /** The bytes fileSize*(after-before)/100 that a file's progress from before to after stands for. */
  function Gained(fileSize: int, before: real, after: real): real
  {
    fileSize as real * (after - before) / 100.0
  }

  /** Bytes attributed to moving the current file from percentage before to after,
      truncated toward zero as the int64 conversion does. */
  function ProgressBytes(fileSize: int, before: real, after: real): (n: int)
    requires fileSize >= 0 && before <= after
    ensures 0 <= n
    ensures n as real <= Gained(fileSize, before, after) < n as real + 1.0
  {
    GainedNonNegative(fileSize, before, after);
    Trunc(Gained(fileSize, before, after))
  }

  lemma GainedNonNegative(fileSize: int, before: real, after: real)
    requires fileSize >= 0 && before <= after
    ensures Gained(fileSize, before, after) >= 0.0
  {
    ProductNonNegative(fileSize as real, after - before);
  }

  /** One step of the UI loop. */
  function Update(m: Model, msg: Msg): (r: Transition)
    // only "q" and the end-of-copy tick stop the loop
    ensures r.cmd == QuitCmd <==> msg == KeyMsg("q") || msg == TickMsg
    // keys, including ctrl+c, never change the model
    ensures msg.KeyMsg? ==> r.model == m
    ensures msg.WindowSizeMsg? ==>
      r.model == m.(totalWidth := msg.width - 2, progressWidth := msg.width - 18)
    // a file message counts a file exactly when it names one
    ensures msg.FileMsg? ==>
      r.model.numMsgs == m.numMsgs + 1 &&
      r.model.copiedBytes == m.copiedBytes &&
      (msg.update.file != "" ==> r.model.currentFile == msg.update && r.model.copiedFiles == m.copiedFiles + 1) &&
      (msg.update.file == "" ==> r.model.currentFile == m.currentFile && r.model.copiedFiles == m.copiedFiles)
    // a progress report below the baseline is discarded outright
    ensures msg.ProgressMsg? && msg.fileProg < m.currentFile.progress ==> r == Transition(m, NoCmd)
    ensures msg.ProgressMsg? && msg.fileProg >= m.currentFile.progress ==>
      r.model.currentFile == m.currentFile.(progress := msg.fileProg) &&
      r.model.copiedBytes ==
        m.copiedBytes + Trunc(Gained(m.currentFile.fileSize, m.currentFile.progress, msg.fileProg))
    // the fraction shown is recomputed after every accepted file or progress message
    ensures (msg.FileMsg? || (msg.ProgressMsg? && msg.fileProg >= m.currentFile.progress)) ==>
      r.model.percent == Divide(r.model.copiedBytes, r.model.totalBytes)
    // nothing else changes: a file message touches only the message count, the current file,
    // the file count and the fraction; an accepted progress only the current file, the bytes
    // and the fraction
    ensures msg.FileMsg? ==>
      r.model.(percent := m.percent, currentFile := m.currentFile, copiedFiles := m.copiedFiles,
               numMsgs := m.numMsgs) == m
    ensures msg.ProgressMsg? && msg.fileProg >= m.currentFile.progress ==>
      r.model.(percent := m.percent, currentFile := m.currentFile, copiedBytes := m.copiedBytes) == m
    ensures msg == TickMsg ==> r.model == m.(copyFinished := true)
    ensures msg == FrameMsg ==> r == Transition(m.(numTimes := m.numTimes + 1), AnimationCmd)
    ensures msg == OtherMsg ==> r == Transition(m, NoCmd)
    // the totals and the finished flag are never undone
    ensures r.model.totalBytes == m.totalBytes && r.model.totalFiles == m.totalFiles
    ensures m.copyFinished ==> r.model.copyFinished
    ensures r.model.copiedFiles >= m.copiedFiles
  {
    match msg
    case KeyMsg(key) =>
      if key == "q" then Transition(m, QuitCmd) else Transition(m, NoCmd)
    case WindowSizeMsg(width, _) =>
      Transition(m.(progressWidth := width - 1 * 2 - 8 * 2, totalWidth := width - 1 * 2), NoCmd)
    case FileMsg(u) =>
      var counted := m.(numMsgs := m.numMsgs + 1);
      var current := if u.file != "" then counted.(currentFile := u, copiedFiles := counted.copiedFiles + 1) else counted;
      Transition(UpdatePercent(current), NoCmd)
    case ProgressMsg(p) =>
      if p < m.currentFile.progress then Transition(m, NoCmd)
      else
        var added := Trunc(Gained(m.currentFile.fileSize, m.currentFile.progress, p));
        var next := m.(copiedBytes := m.copiedBytes + added,
                       currentFile := m.currentFile.(progress := p));
        Transition(UpdatePercent(next), NoCmd)
    case TickMsg =>
      Transition(m.(copyFinished := true), QuitCmd)
    case FrameMsg =>
      Transition(m.(numTimes := m.numTimes + 1), AnimationCmd)
    case OtherMsg =>
      Transition(m, NoCmd)
  }

  /** The key the empty `ctrl+c` case of Update was evidently meant to share with "q". */
  const CtrlC := "ctrl+c"

  /**
    Update with `ctrl+c` quitting as well: Go's switch does not fall through from the empty
    `ctrl+c` case into the "q" case, so as written that key is ignored.
  */
  function UpdateIntended(m: Model, msg: Msg): (r: Transition)
    ensures r.cmd == QuitCmd <==> msg == KeyMsg("q") || msg == KeyMsg(CtrlC) || msg == TickMsg
    ensures r.model == Update(m, msg).model
    ensures msg != KeyMsg(CtrlC) ==> r == Update(m, msg)
  {
    if msg == KeyMsg(CtrlC) then Transition(m, QuitCmd) else Update(m, msg)
  }

  /** The discrepancy: as written, `ctrl+c` neither quits nor changes anything. */
  lemma CtrlCIgnored(m: Model)
    ensures Update(m, KeyMsg(CtrlC)) == Transition(m, NoCmd)
    ensures UpdateIntended(m, KeyMsg(CtrlC)) == Transition(m, QuitCmd)
  {
  }

  /** Feeds the messages to the UI loop in order (commands are not acted on). */
  function Run(m: Model, msgs: seq<Msg>): Model
    decreases |msgs|
  {
    if msgs == [] then m else Run(Update(m, msgs[0]).model, msgs[1..])
  }

  /** Every file size the messages carry is at least zero. */
  predicate SizesNonNegative(msgs: seq<Msg>)
  {
    forall i | 0 <= i < |msgs| :: msgs[i].FileMsg? ==> msgs[i].update.fileSize >= 0
  }

  /** copiedBytes never decreases while every file size is non-negative. */
  lemma {:induction false} CopiedBytesMonotone(m: Model, msgs: seq<Msg>)
    requires m.currentFile.fileSize >= 0
    requires SizesNonNegative(msgs)
    ensures Run(m, msgs).copiedBytes >= m.copiedBytes
    ensures Run(m, msgs).copiedFiles >= m.copiedFiles
    decreases |msgs|
  {
    if msgs != [] {
      var next := Update(m, msgs[0]).model;
      if msgs[0].ProgressMsg? && msgs[0].fileProg >= m.currentFile.progress {
        var _ := ProgressBytes(m.currentFile.fileSize, m.currentFile.progress, msgs[0].fileProg);
      }
      assert next.currentFile.fileSize >= 0 by {
        if msgs[0].FileMsg? { assert msgs[0] == msgs[0 + 0]; }
      }
      assert SizesNonNegative(msgs[1..]) by {
        forall i | 0 <= i < |msgs[1..]| ensures msgs[1..][i].FileMsg? ==> msgs[1..][i].update.fileSize >= 0 {
          assert msgs[1..][i] == msgs[i + 1];
        }
      }
      CopiedBytesMonotone(next, msgs[1..]);
    }
  }

  /** Once the copy is marked finished, no message clears the mark. */
  lemma {:induction false} FinishedStaysFinished(m: Model, msgs: seq<Msg>)
    requires m.copyFinished
    ensures Run(m, msgs).copyFinished
    decreases |msgs|
  {
    if msgs != [] {
      FinishedStaysFinished(Update(m, msgs[0]).model, msgs[1..]);
    }
  }

  /** A run of progress messages only (no new file). */
  predicate OnlyProgress(msgs: seq<Msg>)
  {
    forall i | 0 <= i < |msgs| :: msgs[i].ProgressMsg?
  }

  /** One progress report: the baseline only moves forward and the bytes added
      are the truncated gain. */
  lemma ProgressStep(m: Model, p: real)
    requires m.currentFile.fileSize >= 0
    ensures var r := Update(m, ProgressMsg(p)).model;
      r.currentFile.fileSize == m.currentFile.fileSize &&
      r.currentFile.progress >= m.currentFile.progress &&
      (r.copiedBytes - m.copiedBytes) as real <= Gained(m.currentFile.fileSize, m.currentFile.progress, r.currentFile.progress) &&
      Gained(m.currentFile.fileSize, m.currentFile.progress, r.currentFile.progress) < (r.copiedBytes - m.copiedBytes) as real + 1.0
  {
    if p >= m.currentFile.progress {
      var n := ProgressBytes(m.currentFile.fileSize, m.currentFile.progress, p);
      assert Update(m, ProgressMsg(p)).model.copiedBytes == m.copiedBytes + n;
    }
  }

  lemma GainedAdds(size: int, a: real, b: real, c: real)
    ensures Gained(size, a, b) + Gained(size, b, c) == Gained(size, a, c)
  {
  }

  /** Over the progress reports for one file, the bytes added never exceed
      fileSize*(last-first)/100, and fall short of it by less than one byte per report. */
  lemma {:induction false} ProgressBytesBounded(m: Model, msgs: seq<Msg>)
    requires m.currentFile.fileSize >= 0
    requires OnlyProgress(msgs)
    ensures var r := Run(m, msgs);
      r.currentFile.fileSize == m.currentFile.fileSize &&
      r.currentFile.progress >= m.currentFile.progress &&
      (r.copiedBytes - m.copiedBytes) as real <= Gained(m.currentFile.fileSize, m.currentFile.progress, r.currentFile.progress) &&
      (msgs != [] ==>
         Gained(m.currentFile.fileSize, m.currentFile.progress, r.currentFile.progress) < (r.copiedBytes - m.copiedBytes) as real + |msgs| as real)
    decreases |msgs|
  {
    if msgs != [] {
      assert msgs[0].ProgressMsg? by { assert msgs[0] == msgs[0 + 0]; }
      var next := Update(m, msgs[0]).model;
      ProgressStep(m, msgs[0].fileProg);
      assert OnlyProgress(msgs[1..]) by {
        forall i | 0 <= i < |msgs[1..]| ensures msgs[1..][i].ProgressMsg? {
          assert msgs[1..][i] == msgs[i + 1];
        }
      }
      ProgressBytesBounded(next, msgs[1..]);
      var last := Run(next, msgs[1..]);
      assert Run(m, msgs) == last;
      var size := m.currentFile.fileSize;
      GainedAdds(size, m.currentFile.progress, next.currentFile.progress, last.currentFile.progress);
    }
  }

  /** A 1 MiB file reported at 50% and then 100% adds exactly 1 MiB. */
  lemma HalfThenFull(m: Model)
    requires m.currentFile == UpdateMsg("foo.bin", 1048576, 0.0)
    ensures Run(m, [ProgressMsg(50.0), ProgressMsg(100.0)]).copiedBytes == m.copiedBytes + 1048576
  {
    var m1 := Update(m, ProgressMsg(50.0)).model;
    assert m1.copiedBytes == m.copiedBytes + 524288;
    var m2 := Update(m1, ProgressMsg(100.0)).model;
    assert m2.copiedBytes == m1.copiedBytes + 524288;
    assert Run(m, [ProgressMsg(50.0), ProgressMsg(100.0)]) == Run(m1, [ProgressMsg(100.0)]);
    assert Run(m1, [ProgressMsg(100.0)]) == Run(m2, []);
  }

  /** A new file reported straight at 100% adds exactly its size and counts one file. */
  lemma FileReportedComplete(m: Model, u: UpdateMsg)
    requires u.file != [] && u.progress == 0.0 && u.fileSize >= 0
    ensures var r := Run(m, [FileMsg(u), ProgressMsg(100.0)]);
      r.copiedBytes == m.copiedBytes + u.fileSize &&
      r.copiedFiles == m.copiedFiles + 1 &&
      r.currentFile == u.(progress := 100.0) &&
      r.percent == Divide(m.copiedBytes + u.fileSize, m.totalBytes)
  {
    var m1 := Update(m, FileMsg(u)).model;
    assert m1.currentFile == u && m1.copiedBytes == m.copiedBytes && m1.copiedFiles == m.copiedFiles + 1;
    var m2 := Update(m1, ProgressMsg(100.0)).model;
    assert Gained(u.fileSize, 0.0, 100.0) == u.fileSize as real;
    assert m2.copiedBytes == m1.copiedBytes + u.fileSize;
    assert Run(m, [FileMsg(u), ProgressMsg(100.0)]) == Run(m1, [ProgressMsg(100.0)]);
    assert Run(m1, [ProgressMsg(100.0)]) == Run(m2, []);
  }

  /** The second line of View: what is being copied, or that copying is done. */
  datatype Status = Copying(file: string, percent: real, size: int) | Completed

  function StatusLine(m: Model): (s: Status)
    ensures s == Completed <==> m.copyFinished
    ensures s.Copying? ==> s.file == m.currentFile.file && s.percent == m.currentFile.progress && s.size == m.currentFile.fileSize
  {
    if m.copyFinished then Completed
    else Copying(m.currentFile.file, m.currentFile.progress, m.currentFile.fileSize)
  }

  /** Feeding two runs of messages one after the other is feeding their concatenation. */
  lemma {:induction false} RunAppend(m: Model, a: seq<Msg>, b: seq<Msg>)
    ensures Run(m, a + b) == Run(Run(m, a), b)
    decreases |a|
  {
    if a == [] {
      assert a + b == b;
    } else {
      assert (a + b)[0] == a[0] && (a + b)[1..] == a[1..] + b;
      RunAppend(Update(m, a[0]).model, a[1..], b);
    }
  }

  /** Without the tick, a UI that has not finished never shows the copy as completed. */
  lemma {:induction false} NoTickNeverCompleted(m: Model, msgs: seq<Msg>)
    requires !m.copyFinished
    requires forall i | 0 <= i < |msgs| :: msgs[i] != TickMsg
    ensures StatusLine(Run(m, msgs)) != Completed
    decreases |msgs|
  {
    if msgs != [] {
      assert msgs[0] != TickMsg;
      assert forall i | 0 <= i < |msgs[1..]| :: msgs[1..][i] == msgs[i + 1];
      NoTickNeverCompleted(Update(m, msgs[0]).model, msgs[1..]);
    }
  }

  /** After the end-of-copy tick, View reports completion whatever follows. */
  lemma CompletedAfterTick(m: Model, later: seq<Msg>)
    ensures StatusLine(Run(Update(m, TickMsg).model, later)) == Completed
  {
    FinishedStaysFinished(Update(m, TickMsg).model, later);
  }

  // ---------------------------------------------------------------------------
  // JustifyText (texts are plain ASCII, so width is length)

  function TotalLen(texts: seq<string>): nat
  {
    if texts == [] then 0 else |texts[0]| + TotalLen(texts[1..])
  }

  function Concat(texts: seq<string>): string
  {
    if texts == [] then [] else texts[0] + Concat(texts[1..])
  }

  /** strings.Join */
  function Join(texts: seq<string>, sep: string): string
  {
    if texts == [] then []
    else if |texts| == 1 then texts[0]
    else texts[0] + sep + Join(texts[1..], sep)
  }

  /** strings.Repeat(" ", n) */
  function Blanks(n: nat): (s: string)
    ensures |s| == n && forall i | 0 <= i < n :: s[i] == ' '
  {
    seq(n, _ => ' ')
  }

  lemma {:induction false} JoinLength(texts: seq<string>, sep: string)
    requires |texts| >= 1
    ensures |Join(texts, sep)| == TotalLen(texts) + (|texts| - 1) * |sep|
    decreases |texts|
  {
    if |texts| > 1 {
      JoinLength(texts[1..], sep);
    }
  }

  lemma {:induction false} ConcatLength(texts: seq<string>)
    ensures |Concat(texts)| == TotalLen(texts)
    decreases |texts|
  {
    if texts != [] {
      ConcatLength(texts[1..]);
    }
  }

  lemma TotalLenOfOne(texts: seq<string>)
    requires |texts| == 1
    ensures TotalLen(texts) == |texts[0]|
  {
    assert texts[1..] == [];
  }

  lemma TotalLenOfPadded(texts: seq<string>, pad: string)
    requires |texts| >= 1
    ensures TotalLen([texts[0] + pad] + texts[1..]) == TotalLen(texts) + |pad|
  {
    assert ([texts[0] + pad] + texts[1..])[1..] == texts[1..];
  }

  /** The layout JustifyText produces when the texts fit: the remainder after the
      first text, then equal gaps between all texts. */
  function Spread(width: int, texts: seq<string>): string
    requires |texts| > 1 && TotalLen(texts) <= width
  {
    var n := |texts| - 1;
    Join([texts[0] + Blanks((width - TotalLen(texts)) % n)] + texts[1..], Blanks((width - TotalLen(texts)) / n))
  }

  lemma SpreadLength(width: int, texts: seq<string>)
    requires |texts| > 1 && TotalLen(texts) <= width
    ensures |Spread(width, texts)| == width
  {
    var n := |texts| - 1;
    var total := TotalLen(texts);
    var gap := (width - total) / n;
    var rem := (width - total) % n;
    var sep := Blanks(gap);
    var padded := [texts[0] + Blanks(rem)] + texts[1..];
    assert Spread(width, texts) == Join(padded, sep);
    TotalLenOfPadded(texts, Blanks(rem));
    JoinLength(padded, sep);
    SpreadArithmetic(width - total, n, gap, rem, |padded| - 1, |sep|);
  }

  lemma SpreadArithmetic(slack: int, n: int, gap: int, rem: int, joins: int, sepLen: int)
    requires n > 0 && gap == slack / n && rem == slack % n && joins == n && sepLen == gap
    ensures rem + joins * sepLen == slack
  {
  }

  /** Lays the texts out across width: equal gaps, with the remainder after the first text. */
  function JustifyText(width: int, texts: seq<string>): (r: string)
    requires |texts| >= 1
    ensures TotalLen(texts) > width ==> r == Concat(texts)
    ensures TotalLen(texts) <= width ==> |r| == width
    ensures TotalLen(texts) <= width && |texts| == 1 ==> r == texts[0] + Blanks(width - |texts[0]|)
    ensures TotalLen(texts) <= width && |texts| > 1 ==> r == Spread(width, texts)
  {
    var total := TotalLen(texts);
    if total > width then Concat(texts)
    else if |texts| == 1 then
      assert total == |texts[0]| by { TotalLenOfOne(texts); }
      texts[0] + Blanks(width - total)
    else
      SpreadLength(width, texts);
      Spread(width, texts)
  }

  /** Two texts: the first at the left edge, the second flush right. */
  lemma JustifyTwo(width: int, left: string, right: string)
    requires |left| + |right| <= width
    ensures JustifyText(width, [left, right]) == left + Blanks(width - |left| - |right|) + right
  {
    var texts := [left, right];
    assert TotalLen(texts) == |left| + |right| by {
      assert texts[1..] == [right];
      assert TotalLen([right]) == |right| by { assert [right][1..] == []; }
    }
    assert left + Blanks(0) == left;
    var padded := [left + Blanks(0)] + texts[1..];
    assert padded == [left, right];
    assert Join(padded, Blanks(width - |left| - |right|)) == left + Blanks(width - |left| - |right|) + Join([right], Blanks(width - |left| - |right|));
  }
}
